=== FILE: README.md ===
# eb-analytics data layer and utilities, modelled in Dafny

eb-analytics is a mobile app that records Sunday-school lessons. Each lesson has a date, a professor, a series and a title, head counts, and a status. This project models the app's database start-up and its legacy-data migration as pure functions over an abstract store. It also models the pure string utilities the start-up depends on, and the ones that sit beside it.

Modules, one per source file or concept:

- `Wrappers`: `Option`.
- `Strings`: ASCII character classes, `trim`, upper-casing, whitespace collapsing, `indexOf`, and decimal rendering.
- `Assoc`: an insertion-ordered association list, standing for a JavaScript `Map` that is filled with "set if absent".
- `Text` (src/utils/text.ts): `normalizeText`, `extractSeriesCode` and `extractSeriesTitle`.
- `Store` (src/db/schema.ts, src/db/client.ts): the database.
  - A lessons table is kept with its stored definition text, its columns, its rows and its indexes.
  - The store also holds the rebuild's shadow table, the series and topic tables, and the migration flags.
  - Lookups return the first match in table order.
- `Legacy` (src/db/migrations.ts): the migration that turns free-text series names and lesson titles into series and topic rows, then back-fills `lesson_topic_id`.
  - Fresh uuids come from an injected supply `mint: nat -> string` and a counter.
  - An INSERT whose primary key is already taken is an error, as the engine would raise it.
- `StatusRebuild` (src/db/client.ts): the check whose definition text must contain `'EXPORTED'`, and the table rebuild.
  - The rebuild is a state machine over the live table and its shadow.
  - The set `faults` names the statements the engine fails.
  - `applyMigrations` runs the transactional version of the rebuild, `RebuildAtomically`, for the reason given under "## Findings".
- `Client` (src/db/client.ts): `applyMigrations`, `insertDefaultRecords` and `initializeDatabase`.
  - The first error stops the sequence, and what earlier statements wrote stays.
- `Cpf` (src/utils/cpf.ts): normalisation, mod-11 check-digit validation and display formatting of a Brazilian CPF number.
- `ProfessorForm` (app/professors/new.tsx): the input mask `formatCpfInput`.
- `Dates` (src/utils/date.ts): parsing `YYYY-MM-DD` and `YYYY-MMM-DD` with Portuguese month abbreviations, and formatting back. A date is a (year, month, day) triple.
- `Color` (src/utils/color.ts): `hexToRgba`, including JavaScript's `parseInt(_, 16)`, `String.replace` with a string pattern, `slice`, and the leftmost match of the `rgba?(` regular expression.

Where the code and its description disagree, the model follows the code:

- The status rebuild is not a separate start-up step. `applyMigrations` calls it after the column additions (src/db/client.ts:67-74).
- `applyMigrations` fails when `lessons_data` does not exist, because `ALTER TABLE` throws. `initializeDatabase` always creates the table first, so the start-up itself never reaches that case.
- `normalizeText` is only said to collapse spaces. The code collapses every whitespace run to one space (src/utils/text.ts:14).

Two places where the code does not do what it evidently means are listed under "## Findings":

- the topic lookup of the legacy migration (src/db/migrations.ts:158);
- the rollback of the status rebuild (src/db/client.ts:171-181).

For each, the model keeps the code as written next to a corrected version, and the rest of the model uses the corrected one.

## Model

| member | source | states |
|---|---|---|
| Text.NormalizeText | src/utils/text.ts:9-15 | null, undefined and `''` give `''`. The output has no edge whitespace, no lower-case letter and no whitespace run other than single spaces. It is empty exactly when the input is all whitespace. |
| Text.NormalizeShape | src/utils/text.ts:11-14 | trim, then upper-case, then collapse always gives a canonical string, and that string is empty exactly when the input is whitespace only |
| Text.CanonicalFixpoint | src/utils/text.ts:11-14 | a canonical string is left unchanged by `normalizeText` |
| Text.NormalizeIdempotent | src/utils/text.ts:9-15 | applying `normalizeText` twice gives the same result as applying it once |
| Text.NormalizeTrim | src/utils/text.ts:12 | trimming the input first does not change the result |
| Text.NormalizeDocExample | src/utils/text.ts:7 | `"  EB354  - tempo  "` normalises to `"EB354 - TEMPO"` |
| Text.ExtractSeriesCode | src/utils/text.ts:22-35 | the code is never longer than 20 characters, `SEM-SERIE` included |
| Text.SeriesCodeSpec | src/utils/text.ts:22-35 | null or `''` gives `SEM-SERIE`. Otherwise the code is a prefix of the normalised name, at most 20 long. If the name starts with `[A-Z0-9-]`, the code is the maximal such run cut at 20. If not, the code is the first 20 characters of the normalised name. |
| Text.LeadingCodeIsRun | src/utils/text.ts:28 | the leading code is the unique maximal prefix of code characters |
| Text.BlankSeriesNameCode | src/utils/text.ts:23-34 | a whitespace-only, non-empty name yields the empty code, not `SEM-SERIE` |
| Text.SeriesCodeExample | src/utils/text.ts:19 | `"EB354 - Tempo de Despertar"` yields `"EB354"` |
| Text.ExtractSeriesTitle | src/utils/text.ts:41-54 | the title never has leading or trailing whitespace |
| Text.SeriesTitleSpec | src/utils/text.ts:41-54 | null or `''` gives `Sem Série`. With `" - "` in the trimmed name, the title is the trimmed text after its first occurrence. Without it, the title is the trimmed name. |
| Text.SeparatorInsideTrimmed | src/utils/text.ts:47-48 | in a trimmed name, every `" - "` starts after index 0 and has a character after it, so the guard at line 48 always holds |
| Text.NoBlankTitle | src/utils/text.ts:47-53 | a name without spaces is its own title, so a bare `-` is not a separator |
| Assoc.PutIfAbsentSpec | src/db/migrations.ts:67-72 | "set if absent" keeps keys unique, adds exactly the new key, keeps an existing key's value, and leaves other keys alone |
| Assoc.FirstByKeyKeys | src/db/migrations.ts:64-73 | the map's keys are exactly the keys of the kept elements |
| Assoc.FirstByKeyFirstWins | src/db/migrations.ts:67-72 | each key maps to the value of the first kept element with that key |
| Store.FindSeriesByCode | src/db/migrations.ts:88-91 | the lookup is empty exactly when no series has that code, and otherwise returns the id of a series with that code |
| Store.FindTopic | src/db/migrations.ts:157-160 | the lookup is empty exactly when no topic of that series has a title with the searched normal form, and otherwise returns the id of one that does (the corrected comparison) |
| Store.SqlTitleMissesInnerRun | src/db/migrations.ts:158 | a stored title with two adjacent spaces inside matches its own normal form, yet `UPPER(TRIM(title)) = ?` does not find it |
| Store.SqlTitleMissesExample | src/db/migrations.ts:158 | the stored title `Aula  1` (two spaces) is not found by the query as written when searched as `AULA 1` |
| Store.SqlFindTopic | src/db/migrations.ts:157-160 | the query as written returns nothing exactly when no topic of the series has an upper-cased, space-trimmed title equal to the searched text, and otherwise the id of one that does |
| Store.SqlLookupMissesStoredTitle | src/db/migrations.ts:157-172 | with a topic `Aula  1` stored, the query as written finds nothing for the draft `Aula  1`, so a second topic would be inserted, while the corrected lookup finds the stored topic |
| Store.TableDefinitionAdmitsExported | src/db/schema.ts:18 | every table definition the model writes contains `'EXPORTED'` |
| Legacy.MarkMigrationComplete | src/db/migrations.ts:26-51 | `isMigrationComplete` holds afterwards, nothing else changes, no other flag changes, and marking twice changes nothing (INSERT OR IGNORE) |
| Legacy.ExtractUniqueSeriesSpec | src/db/migrations.ts:56-76 | there is one entry per distinct normalised code over non-empty names. Each entry's code equals its key, and its title comes from the first name with that key. |
| Legacy.CreateSeriesRecords | src/db/migrations.ts:81-106 | existing series are kept as a prefix and the supply only moves forward. Each appended series has a freshly drawn id, no description, the code and title of one of the drafts, and a code no earlier series has. |
| Legacy.CreateSeriesMapsEveryKey | src/db/migrations.ts:87-103 | on success the returned map has exactly the input keys |
| Legacy.CreateSeriesMapsToCode | src/db/migrations.ts:87-103 | every key maps to the id of a series whose code is the key's code |
| Legacy.CreateSeriesReusesExisting | src/db/migrations.ts:88-94 | a code already present in the table is mapped to the id the lookup finds, so no series is inserted for it |
| Legacy.CreateSeriesKeepsConstraints | src/db/migrations.ts:87-103 | unique ids and unique codes are preserved, so one pass never creates two series with one code |
| Legacy.CreateSeriesSucceeds | src/db/migrations.ts:95-101 | with distinct fresh ids that are not already taken, the pass cannot fail |
| Legacy.ExtractUniqueTopicsSpec | src/db/migrations.ts:111-138 | keys are (resolved series id, normalised title) over rows with a title, with the default series as fallback. Each entry agrees with its key, and the first trimmed title wins. |
| Legacy.CreateTopicRecords | src/db/migrations.ts:143-178 | existing topics are kept as a prefix and the supply only moves forward. Each appended topic has a freshly drawn id, no suggested date, the series and title of one of the drafts, and no earlier topic of its series has a title with the same normal form. |
| Legacy.CreateTopicsKeepsTitlesUnique | src/db/migrations.ts:153-175 | if no two topics of one series have titles with the same normal form before the pass, none do after it |
| Legacy.CreateTopicsNumbersDensely | src/db/migrations.ts:151-166 | within one pass, the topics created for a series are numbered 1, 2, 3, … in creation order |
| Legacy.CreateTopicsMapsEveryKey | src/db/migrations.ts:153-175 | on success the map has exactly the input keys, each mapped to a topic of that series whose title normalises to the key's title |
| Legacy.CreateTopicsReusesExisting | src/db/migrations.ts:157-163 | a key whose series already has a matching topic is mapped to the topic the lookup finds |
| Legacy.CreateTopicsKeepsIds | src/db/migrations.ts:168-172 | topic ids stay unique |
| Legacy.CreateTopicsSucceeds | src/db/migrations.ts:168-172 | with distinct fresh ids that are not already taken, the pass cannot fail |
| Legacy.UpdateLessonsWithTopicId | src/db/migrations.ts:183-219 | every row ends with a topic id. A row that had one is unchanged. Only `lesson_topic_id` changes. A null topic id becomes the row's link. |
| Legacy.UpdateCountsUnlinked | src/db/migrations.ts:194-215 | the returned count is the number of rows whose topic id was null |
| Legacy.LinkForSpec | src/db/migrations.ts:199-208 | a null or blank title links to the default topic. Any other title links to the id mapped for its (series, title) key when that id is not `''`, and to the default topic when the key is unmapped or mapped to `''` (the fallback of JavaScript's `or`). |
| Legacy.MigrateLegacyData | src/db/migrations.ts:225-264 | with the flag set, nothing happens. Success sets the flag and failure leaves the flags as they were. Series and topics only grow at the end, and the shadow table is untouched. |
| Legacy.MigrationBackfillsLessons | src/db/migrations.ts:234-257 | on success every lesson has a topic id, lessons that had one are unchanged, and the rest of the table is kept |
| Legacy.MigrationLinksLessons | src/db/migrations.ts:199-208 | a lesson that had no topic gets the default topic if its title is blank. Otherwise it gets a topic whose title has the same normal form as the lesson's and whose series has the lesson's series code. So the fallback at line 208 is never taken. |
| Legacy.LinkForStored | src/db/migrations.ts:199-208 | the topic id chosen for a lesson is the default one or the id of a topic the topic pass stored, whatever the ids look like |
| Legacy.MigrationLinksStoredOrDefault | src/db/migrations.ts:199-208 | after a successful migration, a lesson that had no topic has one: the default id or the id of a topic in the store, with no assumption on the ids |
| Legacy.MigrationSucceeds | src/db/migrations.ts:234-263 | with a lessons table that has `lesson_topic_id` and a fresh id supply, the migration cannot fail |
| StatusRebuild.CheckIfStatusMigrationNeeded | src/db/client.ts:77-99 | a failing query says "needed". A missing table or an empty definition says "not needed". Otherwise the answer is "needed" exactly when the definition lacks `'EXPORTED'`. |
| StatusRebuild.CoerceStatus | src/db/client.ts:151-154 | the result is always an admitted status. An admitted status is kept, and anything else, NULL included, becomes `IN_PROGRESS`. |
| StatusRebuild.CoerceStatusIdempotent | src/db/client.ts:151-154 | coercing twice is coercing once |
| StatusRebuild.CopyAll | src/db/client.ts:132-157 | row i of the copy is row i of the old table with its status coerced to an admitted one and every other column the same |
| StatusRebuild.RebuildSuccess | src/db/client.ts:101-170 | on success there are as many rows as before, each with an admitted status. A row with an admitted status is unchanged, and every other column is copied. The table has every column and the four indexes, the definition admits `EXPORTED`, no shadow is left, and series, topics and flags are untouched. |
| StatusRebuild.RebuildSettlesCheck | src/db/client.ts:90-93 | after a successful rebuild the check says no rebuild is needed |
| StatusRebuild.RebuildKeepsOtherTables | src/db/client.ts:101-182 | whichever statement fails, the rebuild changes only the lessons table and its shadow, and the rest of the store is kept |
| StatusRebuild.FailureDropsShadow | src/db/client.ts:172-181 | whichever statement fails, the catch block leaves no shadow table behind unless its own DROP fails |
| StatusRebuild.RebuildFailsOnlyOnError | src/db/client.ts:101-182 | the rebuild fails exactly when a statement fails, or when the live table is missing or lacks a copied column |
| StatusRebuild.FailureBeforeDropKeepsLiveTable | src/db/client.ts:104-181 | a failure before the live table is dropped leaves that table untouched. The shadow is removed unless the rollback's own DROP fails, and the rest of the store is kept. |
| StatusRebuild.RenameFailureLosesRows | src/db/client.ts:160-181 | if only the rename fails, the rollback drops the only copy of the rows and no lessons table remains |
| StatusRebuild.RebuildAtomically | src/db/client.ts:101-182 | the rebuild run as one transaction fails at the same statement as the code, leaves the store as it was on failure, and on success gives the code's result |
| StatusRebuild.AtomicRebuildKeepsLessons | src/db/client.ts:171-181 | with the transactional rebuild, whichever statement fails, the lessons table survives with all its rows, and a failure leaves the shadow as it was |
| Client.CreateTables | src/db/client.ts:203-205 | afterwards the lessons table exists with the status and date indexes. An existing table keeps its definition, columns and rows, and a new table is the schema's empty table. |
| Client.AddProfessorId | src/db/client.ts:52-56 | the column and its index are added and every row gains a NULL `professor_id`. The stored definition text is kept as it was (an abstraction, see "## Left out"). |
| Client.AddTopicId | src/db/client.ts:61-65 | the column and its index are added and every row gains a NULL `lesson_topic_id`. The stored definition text is kept as it was (an abstraction, see "## Left out"). |
| Client.AddMissingColumns | src/db/client.ts:50-65 | afterwards both columns are present and no other column is added. Existing indexes and the definition text are kept, and each column that was added comes with its index. |
| Client.AddMissingColumnsRows | src/db/client.ts:50-65 | every row keeps its position and contents, except that a column that was missing is NULL |
| Client.ApplyMigrations | src/db/client.ts:44-75 | a missing table is an error. On success both columns are present and the check says no rebuild is needed. Series, topics and flags are untouched. An existing lessons table keeps all its rows, even when the rebuild fails. |
| Client.ApplyMigrationsKeepsRows | src/db/client.ts:44-75 | on success the row count is kept. Only status and the two added columns change. A present column keeps its values, an added one is NULL, and the status is kept or coerced. |
| Client.ApplyMigrationsSucceeds | src/db/client.ts:44-75 | on a table with the base columns, and with no rebuild statement failing, it cannot fail |
| Client.ApplyMigrationsIdempotent | src/db/client.ts:50-74 | a second run after a successful one changes nothing, when the second run's status query succeeds |
| Client.MigratedTableIsLeftAlone | src/db/client.ts:50-74 | a table that has both columns and admits `EXPORTED` is not touched by a run whose status query succeeds |
| Client.InsertDefaultRecords | src/db/client.ts:184-198 | the default series is added only when neither its id nor its code is taken, and the default topic only when its id is free. Lessons, shadow and flags are untouched. |
| Client.InsertDefaultsSpec | src/db/client.ts:184-198 | afterwards the default topic id exists and the default series' id or code exists. Existing rows are a prefix, no other id appears, and uniqueness is kept. |
| Client.InsertDefaultsIdempotent | src/db/client.ts:184-198 | seeding twice is seeding once |
| Client.InitializeDatabase | src/db/client.ts:200-228 | on success the lessons table has both columns and both indexes and admits `EXPORTED`. The default topic exists, the default series' id or code exists, and the migration flag is set. |
| Client.InitializationSucceeds | src/db/client.ts:200-228 | with a well-formed lessons table, no failing rebuild statement and a fresh id supply, start-up cannot fail |
| Client.InitializationLinksLessons | src/db/client.ts:219-225 | after a successful first start-up, every lesson that had no topic links to a topic id that exists in the topics table |
| Client.LegacyInputReady | src/db/client.ts:203-222 | by the time the legacy migration runs, the lesson still has a null topic id and the default topic exists. Ids that were non-empty are still non-empty. |
| Client.LegacyLinksToExistingTopic | src/db/migrations.ts:199-208 | when the default topic exists, the migration links each unlinked lesson to a topic id that exists |
| Client.InitializationIdempotent | src/db/client.ts:200-228 | a second start-up after a successful one changes nothing, when the second start-up's status query succeeds |
| Cpf.NormalizeCpf | src/utils/cpf.ts:6-8 | the output contains no `.`, `-` or whitespace and is no longer than the input |
| Cpf.NormalizeCpfKeeps | src/utils/cpf.ts:7 | every other character is kept as often as it occurs |
| Cpf.NormalizeCpfConcat | src/utils/cpf.ts:7 | normalisation distributes over concatenation, so the order of kept characters is preserved |
| Cpf.NormalizeCpfIdempotent | src/utils/cpf.ts:6-8 | normalising twice is normalising once |
| Cpf.AccumulateSum | src/utils/cpf.ts:29-43 | the loop yields a number exactly when the prefix is all digits, and that number is the weighted sum |
| Cpf.ValidateCpf | src/utils/cpf.ts:15-51 | the result agrees with the declarative validity: 11 characters, all digits, not one repeated digit, and both check digits matching |
| Cpf.ValidIffCompleted | src/utils/cpf.ts:15-51 | a CPF is valid exactly when its normal form is 11 digits that are not all the same and that equal the completion of their first nine |
| Cpf.CompleteCpf | src/utils/cpf.ts:28-48 | appending the two computed check digits to any nine digits yields 11 digits whose check digits match |
| Cpf.ValidityFollowsNormalForm | src/utils/cpf.ts:16 | validity depends only on the normalised string |
| Cpf.AcceptedExample | tests/unit/professorService.test.ts:37-43 | `111.444.777-35` normalises to `11144477735` and is valid |
| Cpf.RejectedExample | tests/unit/professorService.test.ts:48-54 | `123.456.789-00` is invalid |
| Cpf.FormatCpfDisplay | src/utils/cpf.ts:60-64 | input without exactly 11 digits is returned unchanged. Otherwise the result is the digits in the `ddd.ddd.ddd-dd` mask. |
| Cpf.FormatCpfDisplayRoundTrip | src/utils/cpf.ts:60-64 | for 11 digits, normalising the display gives the digits back, and validity is unchanged |
| Cpf.FormatCpfDisplayIdempotent | src/utils/cpf.ts:60-64 | formatting a displayed CPF again changes nothing |
| ProfessorForm.KeptDigits | app/professors/new.tsx:27-28 | the kept text is a prefix of the input's digits, all of them when there are at most 11 and the first 11 otherwise |
| Cpf.OnlyDigitsKeeps | app/professors/new.tsx:27 | `replace(/\D/g, "")` keeps every digit of the input as often as it occurs and no other character |
| ProfessorForm.FormatCpfInput | app/professors/new.tsx:26-39 | the output is the kept digits with `.` at 3 and 7 and `-` at 11, placed as far as the digits reach, and digits everywhere else |
| ProfessorForm.FormatCpfInputDigits | app/professors/new.tsx:27-38 | removing separators from the output gives exactly the kept digits |
| ProfessorForm.FormatCpfInputFits | app/professors/new.tsx:37 | the output is at most 14 characters |
| ProfessorForm.FormatCpfInputIdempotent | app/professors/new.tsx:26-39 | masking the masked text again changes nothing |
| ProfessorForm.FormatCpfInputMatchesDisplay | app/professors/new.tsx:37 | with exactly 11 digits the mask equals `formatCpfDisplay` |
| Dates.MonthTablesInverse | src/utils/date.ts:7-16 | the abbreviation list and the abbreviation-to-number table are inverse bijections on 1..12 |
| Dates.DaysInMonth | src/utils/date.ts:84-93 | a month has 28 to 31 days, and 29 exactly for February of a Gregorian leap year |
| Dates.IsValidDateFormat | src/utils/date.ts:23-33 | accepted text is 10 or 11 characters long, and `''` is rejected |
| Dates.ParseInputDate | src/utils/date.ts:40-96 | a rejected format gives null, and a parsed date is a real calendar date with a year in 1900..2100 |
| Dates.ParseInputDateSpec | src/utils/date.ts:40-96 | parsing succeeds exactly when the shape is right, the year is in range, and the (year, month, day) is a calendar date. The result is that triple. |
| Dates.FormattedFields | src/utils/date.ts:103-112 | the formatted text is in the alphabetic shape and carries the year, the month's abbreviation and the day |
| Dates.ParseFormatRoundTrip | src/utils/date.ts:40-112 | parsing a formatted date gives the date back, for years 1900..2100 |
| Dates.FormatParseRoundTrip | tests/unit/date.test.ts:162-186 | formatting a parsed text gives it back with the numeric month replaced by its abbreviation, and alphabetic text comes back unchanged |
| Dates.AcceptedLeapDay | tests/unit/date.test.ts:98-101 | `2024-02-29` parses |
| Dates.RejectedImpossibleDays | tests/unit/date.test.ts:93-102 | `2026-02-00`, `2026-02-32`, `2026-04-31` and `2026-02-29` do not parse |
| Dates.RejectedEnglishMonth | tests/unit/date.test.ts:84 | `2026-FEB-15` does not parse, and the format check rejects it too, as line 35 of the same file expects |
| Dates.FormattedExample | tests/unit/date.test.ts:126-129 | 15 February 2026 formats as `2026-FEV-15` |
| Dates.PaddedExample | tests/unit/date.test.ts:131-134 | 5 March 2026 formats as `2026-MAR-05` |
| Color.ParseHexDigits | src/utils/color.ts:28-46 | `parseInt(_, 16)` of one or more hexadecimal digits is the number they spell in base 16, most significant first. This covers the one-digit slice a 5- or 7-character input gives. |
| Color.ParseHexPair | src/utils/color.ts:28-38 | `parseInt` of two hex digits in base 16 is their byte value |
| Color.ReplaceFirstHash | src/utils/color.ts:24 | text without `#` is unchanged, and text with one loses exactly one character |
| Color.ReplaceFirstHashSpec | src/utils/color.ts:24 | only the first `#` is removed |
| Color.HexToRgba | src/utils/color.ts:10-51 | an `rgb…` input gives back the input or an `rgba(…)` text with the given alpha. Anything else gives an `rgba(…)` text with the given alpha. |
| Color.ShortForm | src/utils/color.ts:27-36 | in the 3- and 4-character forms each component is 17 times its nibble, and a fourth character is ignored |
| Color.LongForm | src/utils/color.ts:37-47 | in the 6- and 8-character forms the components are the first three byte pairs |
| Color.ComponentsAreBytes | src/utils/color.ts:26-48 | for 3, 4, 6 or 8 hex digits every component is in 0..255 |
| Color.HexColourIsRgba | src/utils/color.ts:24-50 | `#` plus 3, 4, 6 or 8 hex digits gives `rgba(r, g, b, alpha)`, with the bytes in decimal and the alpha untouched |
| Color.SystemBlue | src/utils/color.ts:6 | `#007AFF` gives components 0, 122 and 255 |
| Color.ShortWhite | src/utils/color.ts:27-31 | `#FFF` gives 255, 255, 255 |
| Color.SecondHashReadsAsNaN | src/utils/color.ts:24-31 | in `##FFF` only the first `#` goes, so the red component reads as `NaN` |
| Color.RgbPassthrough | src/utils/color.ts:12-15 | an `rgb(` or `rgba(` text with three decimal fields keeps those digit strings and takes the new alpha |
| Color.RgbWithoutParenthesis | src/utils/color.ts:12-17 | an `rgb…` text with no `(` is returned unchanged |

## Left out

- `getDatabase` and its memoised opening (src/db/client.ts:28-42): this is asynchronous handle management with no sequential logic.
- SQL engine semantics:
  - Tables are sequences of rows.
  - `SELECT DISTINCT` is modelled as first-occurrence order over the lesson rows.
  - Foreign keys and the `professors` table are not modelled.
  - The professors, series and topics DDL at src/db/client.ts:207-216 is assumed to succeed and to leave existing tables alone.
- The topic lookup at src/db/migrations.ts:158 compares `UPPER(TRIM(title))` with `normalizeText` of the new title. The migration in the model compares normal form with normal form (Store.TitleMatches) instead, as "## Findings" explains. The query as written is Store.SqlTitleMatches: ASCII upper-casing of the space-trimmed stored title. SQLite's `UPPER` folds only ASCII letters while `toUpperCase` folds all, which is a second way for the query to miss. It is not modelled, because upper-casing in the model is ASCII-only.
- Text.ExtractSeriesCode: the 20-character cut counts Unicode scalar values, while `substring(0, 20)` (src/utils/text.ts:34) counts UTF-16 code units. A name with characters outside the Basic Multilingual Plane, such as emoji, gives a longer code in the model, and the source can split a surrogate pair.
- Text.SeriesCodeSpec: states the same scalar-counted cut, so the same inputs diverge from the source.
- Color.HexToRgba: the switch on `clean.length` (src/utils/color.ts:26) and the slices count Unicode scalar values, where JavaScript counts UTF-16 code units. An input with a character outside the Basic Multilingual Plane, such as `#😀F`, takes a different case in the model. Hex colours themselves are ASCII and are not affected.
- Unicode: upper-casing and whitespace cover ASCII only. `\s` in `normalizeText` is ASCII whitespace, and `trim` is JavaScript whitespace restricted to ASCII.
- The topic key `seriesId|title` is modelled as a pair. This is the same key as long as series ids contain no `|`, which holds for uuids.
- uuid generation is replaced by the injected supply `mint`. The two default ids are one string in two tables, as in src/db/client.ts:22-23.
- Engine faults outside the rebuild are not modelled. The model fails only when:
  - the status query fails (`queryFails`);
  - a rebuild statement fails (`faults`);
  - `lessons_data` is missing when `applyMigrations` or the legacy migration reads it;
  - `lesson_topic_id` is missing at the UPDATE;
  - a series or topic INSERT meets a uuid that is already taken.
- All other statements are assumed to succeed:
  - `CREATE TABLE IF NOT EXISTS lessons_data` and its two indexes;
  - the two `ALTER TABLE … ADD COLUMN` statements and their indexes;
  - the two INSERT OR IGNOREs of the defaults;
  - the migration's flag-table DDL, its SELECTs, any other failure of its series and topic INSERTs, its lesson UPDATEs and the flag INSERT.
- `CREATE_INDEX_LESSON_TOPIC_ID` and the four index statements of the rebuild are each modelled as one step.
- JavaScript `Date`: a date is a (year, month, day) triple with the Gregorian calendar. Time zones and the `Date` overflow that the code guards against are not modelled.
- `MONTH_TO_NUMBER` lookups of inherited object keys such as `constructor` are not modelled. Only the 12 abbreviations can reach that lookup after the format check.
- `parseInt(_, 16)` is modelled for the inputs the colour code gives it. It skips leading JavaScript whitespace (Strings.IsJsSpace: the ASCII set plus the Unicode space separators, line and paragraph separators and the byte-order mark), then reads a sign, an optional `0x`, and hex digits.
- The `alpha` number of `hexToRgba` is an opaque, already rendered string. Its numeric formatting is left out.
- All `console.log` / `console.error` output.
- The CRUD services, React screens and components, theme, `useThemePreference`, `scripts/reset-database.js` and the build configuration.
- Client.AddProfessorId: keeps the stored definition text. SQLite's `ADD COLUMN` splices the new column into the `CREATE TABLE` text kept in `sqlite_master`, and the model does not rewrite it. That text is read only for being empty and for containing `'EXPORTED'` (src/db/client.ts:84-90). Splicing in `professor_id TEXT` changes neither, so every decision the model makes is the same.
- Client.AddTopicId: keeps the stored definition text, for the same reason. Splicing in `lesson_topic_id TEXT` neither empties the text nor adds `'EXPORTED'`.
- Client.InsertDefaultsSpec: states that the default series' id or its code is present, not that a `SEM-SERIE` row with the default id exists. INSERT OR IGNORE skips the row when another series already holds the code (or the id).
- Color.LeadingDigits, Color.LeadingSpace and Color.SkipSpace: their contracts bound the length of the run they take and say what it contains, but do not state that the run is maximal. The lemmas that use them fix the runs on concrete shapes.
- Client.ApplyMigrationsIdempotent: holds only when the second run's status query succeeds. When that query throws, `checkIfStatusMigrationNeeded` answers true (src/db/client.ts:94-98), so a second run rebuilds the table again. That rebuild keeps the rows (Client.ApplyMigrationsKeepsRows) but may fail at one of its statements.
- Client.MigratedTableIsLeftAlone: holds only for a run whose status query succeeds, for the same reason.
- Client.InitializationIdempotent: holds only when the second start-up's status query succeeds, for the same reason.
- Legacy.MigrationLinksLessons: requires every stored and freshly drawn id to be non-empty, as a uuid is. The migration itself keeps JavaScript's `||`, which would treat an empty id as missing and fall back to the default, but the lemma does not describe that case.

## Findings

| source | as written | input that shows it | evidently intended | confidence | as-written member | corrected member |
|---|---|---|---|---|---|---|
| src/db/migrations.ts:157-160 | the lookup for an existing topic compares `UPPER(TRIM(title))` of the stored title with `normalizeText` of the new one. `normalizeText` collapses inner whitespace runs but the SQL side keeps them, so a stored title with a double space never matches. | a topic `Aula  1` (two spaces) is already stored, for example by an earlier migration run that failed after creating topics. The lesson title `Aula  1` normalises to `AULA 1`, the query finds nothing, and a second topic for the same title is inserted. | find a topic of the series whose title has the same normal form, so that the migration never creates two topics of one series with one normalised title | not executed | Store.SqlLookupMissesStoredTitle | Legacy.CreateTopicsKeepsTitlesUnique |
| src/db/client.ts:171-181 | the status rebuild drops `lessons_data` and then renames `lessons_data_new` to take its place. When a statement after the DROP fails, the catch block drops `lessons_data_new`, which by then holds the only copy of the rows. | a lessons table whose status constraint lacks `EXPORTED`, with the `ALTER TABLE … RENAME` failing (a locked or full database). The live table is gone, the rollback drops the copy, and start-up ends with no lessons table and every lesson lost. | a failed rebuild leaves the store as it was, for instance by running the statements in one transaction and rolling it back | not executed | StatusRebuild.RenameFailureLosesRows | StatusRebuild.AtomicRebuildKeepsLessons |

=== FILE: assoc.dfy ===
/**
 * Insertion-ordered maps: a JavaScript `Map` as the sequence of its
 * entries, in the order `for ... of map.entries()` visits them.
 */
module Assoc {
  import opened Wrappers

  predicate HasKey<K(==), V>(m: seq<(K, V)>, k: K) {
    exists i :: 0 <= i < |m| && m[i].0 == k
  }

  /** No key appears twice, as in every JavaScript `Map`. */
  predicate UniqueKeys<K(==), V>(m: seq<(K, V)>) {
    forall i, j :: 0 <= i < j < |m| ==> m[i].0 != m[j].0
  }

  /** `map.get(k)`, with `None` for `undefined`. */
  function Get<K(==), V>(m: seq<(K, V)>, k: K): (r: Option<V>)
    ensures r.Some? <==> HasKey(m, k)
    ensures r.Some? ==> exists i :: 0 <= i < |m| && m[i] == (k, r.value)
  {
    if |m| == 0 then None
    else if m[|m| - 1].0 == k then
      assert m[|m| - 1] == (k, m[|m| - 1].1);
      Some(m[|m| - 1].1)
    else
      var r := Get(m[..|m| - 1], k);
      assert HasKey(m, k) ==> HasKey(m[..|m| - 1], k) by {
        if HasKey(m, k) {
          var i :| 0 <= i < |m| && m[i].0 == k;
          assert m[..|m| - 1][i].0 == k;
        }
      }
      r
  }

  /** `if (!m.has(k)) m.set(k, v)`: the first value stored under a key stays. */
  function PutIfAbsent<K(==), V>(m: seq<(K, V)>, k: K, v: V): seq<(K, V)>
  {
    if HasKey(m, k) then m else m + [(k, v)]
  }

  /** In a map without repeated keys, every entry is what `get` finds under its key. */
  lemma {:induction false} GetEntry<K, V>(m: seq<(K, V)>, i: int)
    requires UniqueKeys(m) && 0 <= i < |m|
    ensures Get(m, m[i].0) == Some(m[i].1)
    decreases |m|
  {
    if i < |m| - 1 {
      assert m[..|m| - 1][i] == m[i];
      GetEntry(m[..|m| - 1], i);
    }
  }

  /** `PutIfAbsent` keeps keys unique, adds exactly `k`, and changes no other lookup. */
  lemma PutIfAbsentSpec<K, V>(m: seq<(K, V)>, k: K, v: V)
    requires UniqueKeys(m)
    ensures UniqueKeys(PutIfAbsent(m, k, v))
    ensures HasKey(PutIfAbsent(m, k, v), k)
    ensures forall k' :: HasKey(PutIfAbsent(m, k, v), k') <==> k' == k || HasKey(m, k')
    ensures Get(PutIfAbsent(m, k, v), k) == (if HasKey(m, k) then Get(m, k) else Some(v))
    ensures forall k' :: k' != k ==> Get(PutIfAbsent(m, k, v), k') == Get(m, k')
  {
    var r := PutIfAbsent(m, k, v);
    if !HasKey(m, k) {
      assert r[|m|] == (k, v);
      assert r[..|r| - 1] == m;
      forall k' | HasKey(r, k') ensures k' == k || HasKey(m, k') {
        var i :| 0 <= i < |r| && r[i].0 == k';
        if i < |m| {
          assert m[i].0 == k';
        }
      }
      forall k' | HasKey(m, k') ensures HasKey(r, k') {
        var i :| 0 <= i < |m| && m[i].0 == k';
        assert r[i].0 == k';
      }
    }
  }

  /**
   * The loop `for (x of xs) if (keep(x) && !m.has(key(x))) m.set(key(x), value(x))`
   * over a fresh map: one entry per key, holding the value of the first
   * element that has it.
   */
  function FirstByKey<T, K(==), V>(xs: seq<T>, keep: T -> bool, key: T -> K, value: T -> V): (r: seq<(K, V)>)
    ensures UniqueKeys(r)
  {
    if |xs| == 0 then []
    else
      var prev := FirstByKey(xs[..|xs| - 1], keep, key, value);
      var x := xs[|xs| - 1];
      if keep(x) then
        PutIfAbsentSpec(prev, key(x), value(x));
        PutIfAbsent(prev, key(x), value(x))
      else prev
  }

  /** Element `i` is kept, and no kept element before it has its key. */
  predicate FirstOfKey<T, K(==)>(xs: seq<T>, keep: T -> bool, key: T -> K, i: int) {
    0 <= i < |xs| && keep(xs[i]) && forall j :: 0 <= j < i && keep(xs[j]) ==> key(xs[j]) != key(xs[i])
  }

  /** The keys of `FirstByKey` are exactly the keys of the kept elements. */
  lemma {:induction false} FirstByKeyKeys<T, K, V>(xs: seq<T>, keep: T -> bool, key: T -> K, value: T -> V)
    ensures forall k :: HasKey(FirstByKey(xs, keep, key, value), k) <==> exists i :: 0 <= i < |xs| && keep(xs[i]) && key(xs[i]) == k
  {
    if |xs| > 0 {
      var init := xs[..|xs| - 1];
      var prev := FirstByKey(init, keep, key, value);
      var x := xs[|xs| - 1];
      FirstByKeyKeys(init, keep, key, value);
      if keep(x) {
        PutIfAbsentSpec(prev, key(x), value(x));
      }
      forall k | HasKey(FirstByKey(xs, keep, key, value), k)
        ensures exists i :: 0 <= i < |xs| && keep(xs[i]) && key(xs[i]) == k
      {
        if !(keep(x) && key(x) == k) {
          var i :| 0 <= i < |init| && keep(init[i]) && key(init[i]) == k;
          assert xs[i] == init[i];
        }
      }
      forall k | exists i :: 0 <= i < |xs| && keep(xs[i]) && key(xs[i]) == k
        ensures HasKey(FirstByKey(xs, keep, key, value), k)
      {
        var i :| 0 <= i < |xs| && keep(xs[i]) && key(xs[i]) == k;
        if i < |init| {
          assert init[i] == xs[i];
        }
      }
    }
  }

  /** Every entry of `FirstByKey` holds the value of the first element with that key. */
  lemma {:induction false} FirstByKeyFirstWins<T, K, V>(xs: seq<T>, keep: T -> bool, key: T -> K, value: T -> V, i: int)
    requires FirstOfKey(xs, keep, key, i)
    ensures Get(FirstByKey(xs, keep, key, value), key(xs[i])) == Some(value(xs[i]))
  {
    var init := xs[..|xs| - 1];
    var prev := FirstByKey(init, keep, key, value);
    var x := xs[|xs| - 1];
    if i < |init| {
      assert init[i] == xs[i];
      assert FirstOfKey(init, keep, key, i) by {
        forall j | 0 <= j < i && keep(init[j]) ensures key(init[j]) != key(init[i]) {
          assert init[j] == xs[j];
        }
      }
      FirstByKeyFirstWins(init, keep, key, value, i);
      if keep(x) {
        PutIfAbsentSpec(prev, key(x), value(x));
      }
    } else {
      FirstByKeyKeys(init, keep, key, value);
      assert !HasKey(prev, key(x)) by {
        forall j | 0 <= j < |init| && keep(init[j]) ensures key(init[j]) != key(x) {
          assert init[j] == xs[j];
        }
      }
      PutIfAbsentSpec(prev, key(x), value(x));
    }
  }

  /** Every entry of `FirstByKey` comes from some kept element. */
  lemma {:induction false} FirstByKeyEntries<T, K, V>(xs: seq<T>, keep: T -> bool, key: T -> K, value: T -> V)
    ensures forall e :: e in FirstByKey(xs, keep, key, value) ==>
      exists i :: 0 <= i < |xs| && keep(xs[i]) && e == (key(xs[i]), value(xs[i]))
  {
    if |xs| > 0 {
      var init := xs[..|xs| - 1];
      var prev := FirstByKey(init, keep, key, value);
      FirstByKeyEntries(init, keep, key, value);
      forall e | e in FirstByKey(xs, keep, key, value)
        ensures exists i :: 0 <= i < |xs| && keep(xs[i]) && e == (key(xs[i]), value(xs[i]))
      {
        if e in prev {
          var i :| 0 <= i < |init| && keep(init[i]) && e == (key(init[i]), value(init[i]));
          assert init[i] == xs[i];
        } else {
          assert e == (key(xs[|xs| - 1]), value(xs[|xs| - 1]));
        }
      }
    }
  }

  /** Lookups in a non-empty map: the last entry, or else the entries before it. */
  lemma GetLast<K, V>(m: seq<(K, V)>)
    requires |m| > 0
    ensures forall k :: Get(m, k) == if k == m[|m| - 1].0 then Some(m[|m| - 1].1) else Get(m[..|m| - 1], k)
    ensures forall k :: HasKey(m, k) <==> k == m[|m| - 1].0 || HasKey(m[..|m| - 1], k)
  {
    forall k | HasKey(m[..|m| - 1], k) ensures HasKey(m, k) {
      var i :| 0 <= i < |m| - 1 && m[..|m| - 1][i].0 == k;
      assert m[i] == m[..|m| - 1][i];
    }
  }
}

=== FILE: client.dfy ===
/**
 * Database start-up (src/db/client.ts): table creation, the column
 * migrations and the status rebuild, the default series and topic, and
 * then the legacy-data migration, in that order. The first error stops
 * the sequence; what earlier statements wrote stays.
 */
module Client {
  import opened Wrappers
  import opened Strings
  import opened Store
  import opened Legacy
  import opened StatusRebuild

  /** The store after the column migrations, and the error they rethrew, if any. */
  datatype Applied = Applied(db: Db, failure: Option<string>)

  /** The table `CREATE TABLE IF NOT EXISTS lessons_data` makes on a database without one. */
  const FreshLessons := LessonTable(LessonsDefinition, BaseColumns, [], {})

  /**
   * The lessons-table statements at the head of `initializeDatabase`: the
   * table is created only when absent (an existing one keeps its old
   * definition and columns), then the status and date indexes.
   */
  function CreateTables(db: Db): (r: Db)
    ensures r.lessons.Some? && {StatusIndex, DateIndex} <= r.lessons.value.indexes
    ensures db.lessons.Some? ==> r.lessons.value.(indexes := db.lessons.value.indexes) == db.lessons.value
    ensures db.lessons.None? ==> r.lessons.value.(indexes := {}) == FreshLessons
    ensures r.(lessons := db.lessons) == db
  {
    var t := if db.lessons.Some? then db.lessons.value else FreshLessons;
    db.(lessons := Some(t.(indexes := t.indexes + {StatusIndex, DateIndex})))
  }

  /** `ALTER TABLE lessons_data ADD COLUMN professor_id TEXT` and its index: the new column is NULL in every row. */
  function AddProfessorId(t: LessonTable): (r: LessonTable)
    ensures r.columns == t.columns + {ProfessorIdColumn} && r.indexes == t.indexes + {ProfessorIdIndex}
    ensures r.definition == t.definition && |r.rows| == |t.rows|
    ensures forall i :: 0 <= i < |t.rows| ==> r.rows[i] == t.rows[i].(professorId := None)
  {
    t.(columns := t.columns + {ProfessorIdColumn},
       rows := seq(|t.rows|, i requires 0 <= i < |t.rows| => t.rows[i].(professorId := None)),
       indexes := t.indexes + {ProfessorIdIndex})
  }

  /** `ALTER TABLE lessons_data ADD COLUMN lesson_topic_id TEXT` and its index: the new column is NULL in every row. */
  function AddTopicId(t: LessonTable): (r: LessonTable)
    ensures r.columns == t.columns + {TopicIdColumn} && r.indexes == t.indexes + {TopicIdIndex}
    ensures r.definition == t.definition && |r.rows| == |t.rows|
    ensures forall i :: 0 <= i < |t.rows| ==> r.rows[i] == t.rows[i].(topicId := None)
  {
    t.(columns := t.columns + {TopicIdColumn},
       rows := seq(|t.rows|, i requires 0 <= i < |t.rows| => t.rows[i].(topicId := None)),
       indexes := t.indexes + {TopicIdIndex})
  }

  /** The table after the two column migrations, which read the column list once, up front. */
  function AddMissingColumns(t: LessonTable): (r: LessonTable)
    ensures r.columns == t.columns + {ProfessorIdColumn, TopicIdColumn}
    ensures t.indexes <= r.indexes && r.definition == t.definition
    ensures ProfessorIdColumn !in t.columns ==> ProfessorIdIndex in r.indexes
    ensures TopicIdColumn !in t.columns ==> TopicIdIndex in r.indexes
  {
    var t1 := if ProfessorIdColumn in t.columns then t else AddProfessorId(t);
    if TopicIdColumn in t.columns then t1 else AddTopicId(t1)
  }

  /**
   * `applyMigrations`: add `professor_id` and `lesson_topic_id` when the
   * column list lacks them, then rebuild the table when the status check
   * asks for it. Without a lessons table the column list is empty and the
   * first ALTER TABLE throws. The rebuild is the transactional one
   * (`RebuildAtomically`): the code's own rollback can lose the table.
   */
  function ApplyMigrations(db: Db, queryFails: bool, faults: set<Statement>): (r: Applied)
    ensures db.lessons.None? ==> r == Applied(db, Some("no such table: lessons_data"))
    ensures r.failure.None? ==>
      && r.db.lessons.Some?
      && {ProfessorIdColumn, TopicIdColumn} <= r.db.lessons.value.columns
      && !CheckIfStatusMigrationNeeded(r.db, false)
      && (db.lessons.value.indexes <= r.db.lessons.value.indexes || RebuildIndexes <= r.db.lessons.value.indexes)
    ensures r.db.series == db.series && r.db.topics == db.topics && r.db.flags == db.flags
    ensures db.lessons.Some? ==> r.db.lessons.Some? && |r.db.lessons.value.rows| == |db.lessons.value.rows|
  {
    if db.lessons.None? then Applied(db, Some("no such table: lessons_data"))
    else
      var db2 := db.(lessons := Some(AddMissingColumns(db.lessons.value)));
      if !CheckIfStatusMigrationNeeded(db2, queryFails) then Applied(db2, None)
      else
        var rb := RebuildAtomically(db2, faults);
        assert rb.failedAt.None? ==>
          && rb.db.lessons.Some?
          && rb.db.lessons.value.columns == LessonColumns
          && RebuildIndexes <= rb.db.lessons.value.indexes
          && !CheckIfStatusMigrationNeeded(rb.db, false) by {
          RebuildSuccess(db2, faults);
          RebuildSettlesCheck(db2, faults);
        }
        assert rb.db.series == db.series && rb.db.topics == db.topics && rb.db.flags == db.flags by {
          RebuildKeepsOtherTables(db2, faults);
        }
        assert rb.db.lessons.Some? && |rb.db.lessons.value.rows| == |db.lessons.value.rows| by {
          AtomicRebuildKeepsLessons(db2, faults);
        }
        Applied(rb.db, if rb.failedAt.Some? then Some("status constraint migration failed") else None)
  }

  /**
   * Each row keeps its position and every column except the two that were
   * added (now NULL) and the status, which only the rebuild changes and
   * only when the constraint does not admit it.
   */
  lemma ApplyMigrationsKeepsRows(db: Db, queryFails: bool, faults: set<Statement>)
    ensures var r := ApplyMigrations(db, queryFails, faults);
      r.failure.None? ==>
        && db.lessons.Some? && r.db.lessons.Some?
        && var before := db.lessons.value.rows;
           var after := r.db.lessons.value.rows;
           && |after| == |before|
           && forall i :: 0 <= i < |before| ==>
                && after[i].(status := before[i].status, professorId := before[i].professorId, topicId := before[i].topicId) == before[i]
                && (ProfessorIdColumn in db.lessons.value.columns ==> after[i].professorId == before[i].professorId)
                && (ProfessorIdColumn !in db.lessons.value.columns ==> after[i].professorId.None?)
                && (TopicIdColumn in db.lessons.value.columns ==> after[i].topicId == before[i].topicId)
                && (TopicIdColumn !in db.lessons.value.columns ==> after[i].topicId.None?)
                && (after[i].status == before[i].status || after[i].status == CoerceStatus(before[i].status))
                && (before[i].status.Some? && before[i].status.value in ValidStatuses ==> after[i].status == before[i].status)
  {
    var r := ApplyMigrations(db, queryFails, faults);
    if r.failure.None? {
      var t := db.lessons.value;
      var mid := AddMissingColumns(t).rows;
      var db2 := db.(lessons := Some(AddMissingColumns(t)));
      var after := r.db.lessons.value.rows;
      assert |after| == |mid| && forall i :: 0 <= i < |mid| ==>
        && after[i].(status := mid[i].status) == mid[i]
        && (after[i].status == mid[i].status || after[i].status == CoerceStatus(mid[i].status))
        && (mid[i].status.Some? && mid[i].status.value in ValidStatuses ==> after[i] == mid[i])
      by {
        if CheckIfStatusMigrationNeeded(db2, queryFails) {
          RebuildSuccess(db2, faults);
        }
      }
      AddMissingColumnsRows(t);
    }
  }

  /** The column migrations keep every row in place, with each added column NULL. */
  lemma AddMissingColumnsRows(t: LessonTable)
    ensures var rows := AddMissingColumns(t).rows;
      && |rows| == |t.rows|
      && forall i :: 0 <= i < |t.rows| ==>
           rows[i] == t.rows[i].(professorId := if ProfessorIdColumn in t.columns then t.rows[i].professorId else None,
                                 topicId := if TopicIdColumn in t.columns then t.rows[i].topicId else None)
  {
  }

  /** The migrations fail only on a missing table, a table too old for the rebuild's copy, or a statement of the rebuild that fails. */
  lemma ApplyMigrationsSucceeds(db: Db, queryFails: bool, faults: set<Statement>)
    requires db.lessons.Some? && LessonColumns - {ProfessorIdColumn, TopicIdColumn} <= db.lessons.value.columns
    requires DropLeftover !in faults && CreateShadow !in faults && CopyRows !in faults
    requires DropLive !in faults && RenameShadow !in faults && RecreateIndexes !in faults
    ensures ApplyMigrations(db, queryFails, faults).failure.None?
  {
    var db2 := db.(lessons := Some(AddMissingColumns(db.lessons.value)));
    RebuildFailsOnlyOnError(db2, faults);
  }

  /**
   * Once the migrations succeeded, a second run whose status query
   * succeeds changes nothing, whatever statement the engine would fail at.
   * A second run whose status query throws rebuilds the table again.
   */
  lemma ApplyMigrationsIdempotent(db: Db, queryFails: bool, faults: set<Statement>, faults': set<Statement>)
    ensures var r := ApplyMigrations(db, queryFails, faults);
      r.failure.None? ==> ApplyMigrations(r.db, false, faults') == Applied(r.db, None)
  {
    var r := ApplyMigrations(db, queryFails, faults);
    if r.failure.None? {
      MigratedTableIsLeftAlone(r.db, faults');
    }
  }

  /** A table that has both columns and whose definition admits `EXPORTED` is left as it is by a run whose status query succeeds. */
  lemma MigratedTableIsLeftAlone(db: Db, faults: set<Statement>)
    requires db.lessons.Some? && {ProfessorIdColumn, TopicIdColumn} <= db.lessons.value.columns
    requires !CheckIfStatusMigrationNeeded(db, false)
    ensures ApplyMigrations(db, false, faults) == Applied(db, None)
  {
    assert AddMissingColumns(db.lessons.value) == db.lessons.value;
    assert db.(lessons := Some(AddMissingColumns(db.lessons.value))) == db;
  }

  /** The default series, as `INSERT OR IGNORE` writes it. */
  const DefaultSeries := Series(DefaultSeriesId, DefaultSeriesCode, DefaultSeriesTitle, Some(DefaultSeriesDescription))

  /** The default topic: no suggested date, first in its series. */
  const DefaultTopic := Topic(DefaultTopicId, DefaultSeriesId, DefaultTopicTitle, None, 1)

  /**
   * `insertDefaultRecords`: each row is inserted unless it would break a
   * key (the series id or its unique code, the topic id), in which case
   * `OR IGNORE` drops it silently.
   */
  function InsertDefaultRecords(db: Db): (r: Db)
    ensures r.lessons == db.lessons && r.shadow == db.shadow && r.flags == db.flags
    ensures !SeriesIdTaken(db.series, DefaultSeriesId) && !SeriesCodeTaken(db.series, DefaultSeriesCode) ==> r.series == db.series + [DefaultSeries]
    ensures SeriesIdTaken(db.series, DefaultSeriesId) || SeriesCodeTaken(db.series, DefaultSeriesCode) ==> r.series == db.series
    ensures !TopicIdTaken(db.topics, DefaultTopicId) ==> r.topics == db.topics + [DefaultTopic]
    ensures TopicIdTaken(db.topics, DefaultTopicId) ==> r.topics == db.topics
  {
    var series := if SeriesIdTaken(db.series, DefaultSeriesId) || SeriesCodeTaken(db.series, DefaultSeriesCode) then db.series else db.series + [DefaultSeries];
    var topics := if TopicIdTaken(db.topics, DefaultTopicId) then db.topics else db.topics + [DefaultTopic];
    db.(series := series, topics := topics)
  }

  /**
   * After the inserts the default topic exists; the default series id and
   * the `SEM-SERIE` code each exist unless the other one was already taken
   * by a different row; no row that was there is changed, the keys stay unique, and only the
   * default ids can be new.
   */
  lemma InsertDefaultsSpec(db: Db)
    ensures var r := InsertDefaultRecords(db);
      && TopicIdTaken(r.topics, DefaultTopicId)
      && (!SeriesIdTaken(db.series, DefaultSeriesId) ==> SeriesCodeTaken(r.series, DefaultSeriesCode))
      && (!SeriesCodeTaken(db.series, DefaultSeriesCode) ==> SeriesIdTaken(r.series, DefaultSeriesId))
      && |db.series| <= |r.series| && r.series[..|db.series|] == db.series
      && |db.topics| <= |r.topics| && r.topics[..|db.topics|] == db.topics
      && (forall id :: SeriesIdTaken(r.series, id) ==> SeriesIdTaken(db.series, id) || id == DefaultSeriesId)
      && (forall id :: TopicIdTaken(r.topics, id) ==> TopicIdTaken(db.topics, id) || id == DefaultTopicId)
      && (UniqueSeriesIds(db.series) ==> UniqueSeriesIds(r.series))
      && (UniqueSeriesCodes(db.series) ==> UniqueSeriesCodes(r.series))
      && (UniqueTopicIds(db.topics) ==> UniqueTopicIds(r.topics))
  {
    var r := InsertDefaultRecords(db);
    var n := |db.series|;
    if r.series != db.series {
      assert r.series[n] == DefaultSeries;
      forall id | SeriesIdTaken(r.series, id) ensures SeriesIdTaken(db.series, id) || id == DefaultSeriesId {
        var i :| 0 <= i < |r.series| && r.series[i].id == id;
        if i < n { assert db.series[i] == r.series[i]; }
      }
    }
    if r.topics != db.topics {
      assert r.topics[|db.topics|] == DefaultTopic;
      forall id | TopicIdTaken(r.topics, id) ensures TopicIdTaken(db.topics, id) || id == DefaultTopicId {
        var i :| 0 <= i < |r.topics| && r.topics[i].id == id;
        if i < |db.topics| { assert db.topics[i] == r.topics[i]; }
      }
    }
  }

  /** Inserting the defaults a second time changes nothing. */
  lemma InsertDefaultsIdempotent(db: Db)
    ensures InsertDefaultRecords(InsertDefaultRecords(db)) == InsertDefaultRecords(db)
  {
    InsertDefaultsSpec(db);
  }

  /**
   * `initializeDatabase`: create, migrate columns and status, insert the
   * defaults, migrate the legacy data. `queryFails` and `faults` stand for
   * the engine errors of the status check and the rebuild.
   */
  function InitializeDatabase(db: Db, mint: nat -> string, next: nat, queryFails: bool, faults: set<Statement>): (o: Outcome)
    ensures o.failure.None? ==>
      && o.db.lessons.Some?
      && {ProfessorIdColumn, TopicIdColumn} <= o.db.lessons.value.columns
      && {StatusIndex, DateIndex} <= o.db.lessons.value.indexes
      && !CheckIfStatusMigrationNeeded(o.db, false)
      && TopicIdTaken(o.db.topics, DefaultTopicId)
      && (SeriesIdTaken(o.db.series, DefaultSeriesId) || SeriesCodeTaken(o.db.series, DefaultSeriesCode))
      && IsMigrationComplete(o.db)
  {
    var a := ApplyMigrations(CreateTables(db), queryFails, faults);
    if a.failure.Some? then Outcome(a.db, next, a.failure)
    else
      var db3 := InsertDefaultRecords(a.db);
      InsertDefaultsSpec(a.db);
      var o := MigrateLegacyData(db3, mint, next);
      PrefixKeepsTopic(db3.topics, o.db.topics, DefaultTopicId);
      PrefixKeepsSeries(db3.series, o.db.series, DefaultSeriesId, DefaultSeriesCode);
      o
  }

  lemma PrefixKeepsTopic(topics: seq<Topic>, topics': seq<Topic>, id: string)
    requires |topics| <= |topics'| && topics'[..|topics|] == topics
    ensures TopicIdTaken(topics, id) ==> TopicIdTaken(topics', id)
  {
    if TopicIdTaken(topics, id) {
      var i :| 0 <= i < |topics| && topics[i].id == id;
      assert topics'[i] == topics[i];
    }
  }

  lemma PrefixKeepsSeries(series: seq<Series>, series': seq<Series>, id: string, code: string)
    requires |series| <= |series'| && series'[..|series|] == series
    ensures SeriesIdTaken(series, id) ==> SeriesIdTaken(series', id)
    ensures SeriesCodeTaken(series, code) ==> SeriesCodeTaken(series', code)
  {
    if SeriesIdTaken(series, id) {
      var i :| 0 <= i < |series| && series[i].id == id;
      assert series'[i] == series[i];
    }
    if SeriesCodeTaken(series, code) {
      var i :| 0 <= i < |series| && series[i].code == code;
      assert series'[i] == series[i];
    }
  }

  /**
   * With a fault-free engine, a lessons table recent enough for the
   * rebuild's copy, and a uuid supply that yields distinct ids unused by
   * the store and different from the default ids, start-up succeeds.
   */
  lemma InitializationSucceeds(db: Db, mint: nat -> string, next: nat, queryFails: bool, faults: set<Statement>)
    requires db.lessons.None? || LessonColumns - {ProfessorIdColumn, TopicIdColumn} <= db.lessons.value.columns
    requires DropLeftover !in faults && CreateShadow !in faults && CopyRows !in faults
    requires DropLive !in faults && RenameShadow !in faults && RecreateIndexes !in faults
    requires DistinctFrom(mint, next)
    requires forall n: nat :: next <= n ==>
      && mint(n) != DefaultSeriesId
      && !SeriesIdTaken(db.series, mint(n)) && !TopicIdTaken(db.topics, mint(n))
    ensures InitializeDatabase(db, mint, next, queryFails, faults).failure.None?
  {
    var db1 := CreateTables(db);
    ApplyMigrationsSucceeds(db1, queryFails, faults);
    var a := ApplyMigrations(db1, queryFails, faults);
    InsertDefaultsSpec(a.db);
    MigrationSucceeds(InsertDefaultRecords(a.db), mint, next);
  }

  /**
   * A lesson that had no topic when start-up began (or predates the topic
   * column) ends up linked to a topic that exists in the store: the
   * defaults are inserted before the legacy pass links blank titles to
   * the default topic.
   */
  lemma InitializationLinksLessons(db: Db, mint: nat -> string, next: nat, queryFails: bool, faults: set<Statement>, i: int)
    requires !IsMigrationComplete(db) && db.lessons.Some?
    requires 0 <= i < |db.lessons.value.rows|
    requires TopicIdColumn !in db.lessons.value.columns || db.lessons.value.rows[i].topicId.None?
    ensures var o := InitializeDatabase(db, mint, next, queryFails, faults);
      o.failure.None? ==>
        && |o.db.lessons.value.rows| == |db.lessons.value.rows|
        && o.db.lessons.value.rows[i].topicId.Some?
        && TopicIdTaken(o.db.topics, o.db.lessons.value.rows[i].topicId.value)
  {
    var a := ApplyMigrations(CreateTables(db), queryFails, faults);
    if a.failure.None? {
      LegacyInputReady(db, mint, next, queryFails, faults, i);
      LegacyLinksToExistingTopic(InsertDefaultRecords(a.db), mint, next, i);
    }
  }

  /**
   * The store the legacy pass starts from still holds the lesson, still
   * without a topic, next to the default topic. Seeding adds only the
   * default ids, so ids that were non-empty stay so.
   */
  lemma LegacyInputReady(db: Db, mint: nat -> string, next: nat, queryFails: bool, faults: set<Statement>, i: int)
    requires !IsMigrationComplete(db) && db.lessons.Some?
    requires 0 <= i < |db.lessons.value.rows|
    requires TopicIdColumn !in db.lessons.value.columns || db.lessons.value.rows[i].topicId.None?
    ensures var a := ApplyMigrations(CreateTables(db), queryFails, faults);
      a.failure.None? ==>
        var db3 := InsertDefaultRecords(a.db);
        && !IsMigrationComplete(db3) && db3.lessons.Some?
        && |db3.lessons.value.rows| == |db.lessons.value.rows|
        && db3.lessons.value.rows[i].topicId.None?
        && (NonEmptyIds(db, mint, next) ==> NonEmptyIds(db3, mint, next))
        && TopicIdTaken(db3.topics, DefaultTopicId)
  {
    var db1 := CreateTables(db);
    var a := ApplyMigrations(db1, queryFails, faults);
    if a.failure.None? {
      ApplyMigrationsKeepsRows(db1, queryFails, faults);
      var db3 := InsertDefaultRecords(a.db);
      InsertDefaultsSpec(a.db);
      if NonEmptyIds(db, mint, next) {
        assert a.db.series == db.series && a.db.topics == db.topics;
        forall k | 0 <= k < |db3.series| ensures db3.series[k].id != "" {
          if k < |db.series| { assert db3.series[k] == db.series[k]; }
        }
        forall k | 0 <= k < |db3.topics| ensures db3.topics[k].id != "" {
          if k < |db.topics| { assert db3.topics[k] == db.topics[k]; }
        }
      }
    }
  }

  /**
   * The legacy pass, run on a store that already holds the default topic,
   * links an unlinked lesson to a topic of the store: a blank title gets the
   * default topic, and any other title gets the topic filed under its key,
   * or the default one when that id is empty.
   */
  lemma LegacyLinksToExistingTopic(db: Db, mint: nat -> string, next: nat, i: int)
    requires !IsMigrationComplete(db) && db.lessons.Some?
    requires 0 <= i < |db.lessons.value.rows| && db.lessons.value.rows[i].topicId.None?
    requires TopicIdTaken(db.topics, DefaultTopicId)
    ensures var o := MigrateLegacyData(db, mint, next);
      o.failure.None? ==>
        && |o.db.lessons.value.rows| == |db.lessons.value.rows|
        && o.db.lessons.value.rows[i].topicId.Some?
        && TopicIdTaken(o.db.topics, o.db.lessons.value.rows[i].topicId.value)
  {
    var o := MigrateLegacyData(db, mint, next);
    MigrationLinksStoredOrDefault(db, mint, next, i);
    PrefixKeepsTopic(db.topics, o.db.topics, DefaultTopicId);
  }

  /** Starting up again after a successful start-up, with a status query that succeeds, changes nothing and fails at nothing. */
  lemma InitializationIdempotent(db: Db, mint: nat -> string, next: nat, queryFails: bool, faults: set<Statement>, faults': set<Statement>)
    ensures var o := InitializeDatabase(db, mint, next, queryFails, faults);
      o.failure.None? ==> InitializeDatabase(o.db, mint, o.next, false, faults') == Outcome(o.db, o.next, None)
  {
    var o := InitializeDatabase(db, mint, next, queryFails, faults);
    if o.failure.None? {
      var t := o.db.lessons.value;
      assert t.indexes + {StatusIndex, DateIndex} == t.indexes;
      assert CreateTables(o.db) == o.db;
      MigratedTableIsLeftAlone(o.db, faults');
      assert InsertDefaultRecords(o.db) == o.db;
    }
  }
}

=== FILE: color.dfy ===
/**
 * `hexToRgba` (src/utils/color.ts): a colour written as `#RGB`, `#RGBA`,
 * `#RRGGBB`, `#RRGGBBAA` or `rgb(…)`/`rgba(…)` becomes an `rgba(…)`
 * string with the given alpha. The alpha is the text JavaScript renders
 * for the number, carried through untouched.
 */
module Color {
  import opened Wrappers
  import opened Strings

  /** A JavaScript number as `parseInt` produces it: an integer or NaN. */
  datatype Num = NaN | Int(value: int)

  /** Template-literal rendering of a `parseInt` result. */
  function RenderNum(n: Num): string {
    match n
    case NaN => "NaN"
    case Int(v) => IntToString(v)
  }

  predicate IsHexDigit(c: char) {
    IsDigit(c) || 'a' <= c <= 'f' || 'A' <= c <= 'F'
  }

  predicate AllHex(s: string) {
    forall i :: 0 <= i < |s| ==> IsHexDigit(s[i])
  }

  function HexDigitValue(c: char): (v: nat)
    requires IsHexDigit(c)
    ensures v < 16
  {
    if IsDigit(c) then c as int - '0' as int
    else if 'a' <= c <= 'f' then c as int - 'a' as int + 10
    else c as int - 'A' as int + 10
  }

  /**
   * Reads hexadecimal digits from the front of `w` onto `acc` until the
   * first other character; NaN when not one was read, `any` telling
   * whether one already had been.
   */
  function ReadHex(w: string, acc: nat, any: bool): (n: Num)
    ensures n.Int? <==> any || (|w| > 0 && IsHexDigit(w[0]))
    ensures n.Int? ==> n.value >= acc
  {
    if |w| > 0 && IsHexDigit(w[0]) then ReadHex(w[1..], 16 * acc + HexDigitValue(w[0]), true)
    else if any then Int(acc)
    else NaN
  }

  /** `s` without its leading JavaScript whitespace. */
  function SkipSpace(s: string): string
  {
    if |s| == 0 || !IsJsSpace(s[0]) then s else SkipSpace(s[1..])
  }

  /** `t` without a leading `+` or `-`. */
  function Unsigned(t: string): string {
    if |t| > 0 && (t[0] == '-' || t[0] == '+') then t[1..] else t
  }

  /** `u` without a leading `0x` or `0X`. */
  function WithoutRadixPrefix(u: string): string {
    if |u| >= 2 && u[0] == '0' && (u[1] == 'x' || u[1] == 'X') then u[2..] else u
  }

  /**
   * `parseInt(s, 16)`: skip leading whitespace, read an optional sign and
   * an optional `0x`, then as many hexadecimal digits as there are; none
   * at all gives NaN.
   */
  function ParseHex(s: string): (n: Num)
    ensures s == "" ==> n == NaN
  {
    var t := SkipSpace(s);
    var n := ReadHex(WithoutRadixPrefix(Unsigned(t)), 0, false);
    if n.Int? && |t| > 0 && t[0] == '-' then Int(-n.value) else n
  }

  lemma HexDigitIsNotSpace(c: char)
    requires IsHexDigit(c)
    ensures !IsJsSpace(c) && c != '-' && c != '+' && c != 'x' && c != 'X'
  {
  }

  /** On a pair of hexadecimal digits `parseInt` reads the byte they spell. */
  lemma ParseHexPair(a: char, b: char)
    requires IsHexDigit(a) && IsHexDigit(b)
    ensures ParseHex([a, b]) == Int(16 * HexDigitValue(a) + HexDigitValue(b))
  {
    var s := [a, b];
    HexDigitIsNotSpace(a);
    HexDigitIsNotSpace(b);
    assert SkipSpace(s) == s;
    assert Unsigned(s) == s;
    assert WithoutRadixPrefix(s) == s;
    assert s[1..] == [b] && [b][1..] == [];
    assert ReadHex(s, 0, false) == ReadHex([b], HexDigitValue(a), true);
    assert ReadHex([b], HexDigitValue(a), true) == ReadHex([], 16 * HexDigitValue(a) + HexDigitValue(b), true);
  }

  /** The number the hexadecimal digits of `s` spell, most significant first. */
  function HexValue(s: string): nat
    requires AllHex(s)
  {
    if |s| == 0 then 0 else 16 * HexValue(s[..|s| - 1]) + HexDigitValue(s[|s| - 1])
  }

  function Pow16(n: nat): (r: nat)
    ensures r > 0
  {
    if n == 0 then 1 else 16 * Pow16(n - 1)
  }

  /** Read from the front, the leading digit is worth its value times 16 to the number of digits after it. */
  lemma {:induction false} HexValueFront(s: string)
    requires |s| > 0 && AllHex(s)
    ensures HexValue(s) == HexDigitValue(s[0]) * Pow16(|s| - 1) + HexValue(s[1..])
  {
    if |s| > 1 {
      var u, t := s[..|s| - 1], s[1..];
      assert u[0] == s[0] && AllHex(u);
      assert AllHex(t) by {
        forall i | 0 <= i < |t| ensures IsHexDigit(t[i]) { assert t[i] == s[i + 1]; }
      }
      HexValueFront(u);
      assert u[1..] == t[..|t| - 1];
      var v0, p, x, l := HexDigitValue(s[0]), Pow16(|s| - 2), HexValue(u[1..]), HexDigitValue(s[|s| - 1]);
      assert HexValue(u) == v0 * p + x;
      assert HexValue(t) == 16 * x + l;
      assert HexValue(s) == 16 * HexValue(u) + l;
      var q := Pow16(|s| - 1);
      assert q == 16 * p;
      ShiftDigit(v0, p, q, x, l);
      assert HexValue(s) == v0 * q + HexValue(t);
    } else {
      assert s[..0] == [] && s[1..] == [];
    }
  }

  lemma ShiftDigit(v0: int, p: int, q: int, x: int, l: int)
    requires q == 16 * p
    ensures 16 * (v0 * p + x) + l == v0 * q + (16 * x + l)
  {
  }

  lemma ShiftAccumulator(acc: int, v0: int, p: int)
    ensures (16 * acc + v0) * p == acc * (16 * p) + v0 * p
  {
  }

  /** Reading a run of digits to its end adds their value to the shifted accumulator. */
  lemma {:induction false} ReadHexRun(w: string, acc: nat, any: bool)
    requires AllHex(w) && (any || |w| > 0)
    ensures ReadHex(w, acc, any) == Int(acc * Pow16(|w|) + HexValue(w))
  {
    if |w| > 0 {
      var t := w[1..];
      assert AllHex(t) by {
        forall i | 0 <= i < |t| ensures IsHexDigit(t[i]) { assert t[i] == w[i + 1]; }
      }
      var v0, p := HexDigitValue(w[0]), Pow16(|t|);
      ReadHexRun(t, 16 * acc + v0, true);
      assert ReadHex(w, acc, any) == Int((16 * acc + v0) * p + HexValue(t));
      HexValueFront(w);
      assert HexValue(w) == v0 * p + HexValue(t);
      assert Pow16(|w|) == 16 * p;
      ShiftAccumulator(acc, v0, p);
    }
  }

  /** `parseInt(s, 16)` of a non-empty run of hexadecimal digits is the number they spell. */
  lemma ParseHexDigits(s: string)
    requires |s| > 0 && AllHex(s)
    ensures ParseHex(s) == Int(HexValue(s))
  {
    HexDigitIsNotSpace(s[0]);
    assert SkipSpace(s) == s;
    assert Unsigned(s) == s;
    if |s| >= 2 {
      HexDigitIsNotSpace(s[1]);
    }
    assert WithoutRadixPrefix(s) == s;
    ReadHexRun(s, 0, false);
  }

  /** `hex.replace('#', '')`: a string pattern, so only the first `#` goes. */
  function ReplaceFirstHash(s: string): (r: string)
    ensures Lacks(s, '#') ==> r == s
    ensures !Lacks(s, '#') ==> |r| == |s| - 1
  {
    if |s| == 0 then ""
    else if s[0] == '#' then s[1..]
    else
      assert s == [s[0]] + s[1..];
      [s[0]] + ReplaceFirstHash(s[1..])
  }

  lemma {:induction false} ReplaceFirstHashSpec(a: string, b: string)
    requires Lacks(a, '#')
    ensures ReplaceFirstHash(a + "#" + b) == a + b
  {
    if |a| == 0 {
      assert a + "#" + b == "#" + b;
      assert ("#" + b)[1..] == b;
    } else {
      var t := a[1..];
      assert Lacks(t, '#') by {
        forall i | 0 <= i < |t| ensures t[i] != '#' {
          assert t[i] == a[i + 1];
        }
      }
      ReplaceFirstHashSpec(t, b);
      assert a + "#" + b == [a[0]] + (t + "#" + b) by {
        assert a == [a[0]] + t;
      }
      ReplaceFirstHashCons(a[0], t + "#" + b);
      assert a + b == [a[0]] + (t + b) by {
        assert a == [a[0]] + t;
      }
    }
  }

  lemma ReplaceFirstHashCons(c: char, t: string)
    requires c != '#'
    ensures ReplaceFirstHash([c] + t) == [c] + ReplaceFirstHash(t)
  {
    assert ([c] + t)[0] == c;
    assert ([c] + t)[1..] == t;
  }

  /** `s.slice(i, j)` with `0 <= i <= j`: the bounds are clamped to the length. */
  function Slice(s: string, i: nat, j: nat): string
    requires i <= j
  {
    var lo := if i <= |s| then i else |s|;
    var hi := if j <= |s| then j else |s|;
    s[lo..hi]
  }

  /**
   * The switch on the length of the cleaned string: the short forms double
   * each of the first three characters, every other length reads the first
   * three character pairs.
   */
  function Components(clean: string): (Num, Num, Num) {
    if |clean| == 3 || |clean| == 4 then DoubledComponents(clean) else PairedComponents(clean)
  }

  /** `#RGB` and `#RGBA`: each of the first three characters, doubled. */
  function DoubledComponents(clean: string): (Num, Num, Num)
    requires |clean| >= 3
  {
    (ParseHex([clean[0], clean[0]]), ParseHex([clean[1], clean[1]]), ParseHex([clean[2], clean[2]]))
  }

  /** Every other length: the first three character pairs, sliced as JavaScript slices. */
  function PairedComponents(clean: string): (Num, Num, Num) {
    (ParseHex(Slice(clean, 0, 2)), ParseHex(Slice(clean, 2, 4)), ParseHex(Slice(clean, 4, 6)))
  }

  // The rgb()/rgba() match: /rgba?\((\d+),\s*(\d+),\s*(\d+)/, leftmost match.

  /** The longest prefix of ASCII digits. */
  function LeadingDigits(s: string): (r: string)
    ensures |r| <= |s| && AllDigits(r)
  {
    if |s| == 0 || !IsDigit(s[0]) then "" else [s[0]] + LeadingDigits(s[1..])
  }

  /** The longest prefix of whitespace. */
  function LeadingSpace(s: string): (r: string)
    ensures |r| <= |s|
  {
    if |s| == 0 || !IsJsSpace(s[0]) then "" else [s[0]] + LeadingSpace(s[1..])
  }

  /** `(\d+),` at the head of `t`: the digits, and what follows the comma. */
  function NumberThenComma(t: string): Option<(string, string)> {
    var d := LeadingDigits(t);
    if d == "" || |d| == |t| || t[|d|] != ',' then None else Some((d, t[|d| + 1..]))
  }

  /** The length of the `rgb(` or `rgba(` at the head of `t`, or 0 when there is none. */
  function OpeningLength(t: string): nat {
    if |t| >= 5 && t[..5] == "rgba(" then 5
    else if |t| >= 4 && t[..4] == "rgb(" then 4
    else 0
  }

  /** `s` after its leading whitespace: what `\s*` leaves. */
  function AfterSpace(s: string): string {
    s[|LeadingSpace(s)|..]
  }

  /** `\s*(\d+)` at the head of `u`: the last capture. */
  function LastField(u: string): Option<string> {
    var d := LeadingDigits(AfterSpace(u));
    if d == "" then None else Some(d)
  }

  /** `\s*(\d+),\s*(\d+)` at the head of `u`: the last two captures. */
  function LaterFields(u: string): Option<(string, string)> {
    var second := NumberThenComma(AfterSpace(u));
    if second.None? then None
    else
      var third := LastField(second.value.1);
      if third.None? then None else Some((second.value.0, third.value))
  }

  /** `(\d+),\s*(\d+),\s*(\d+)` at the head of `u`: the three captures. */
  function Fields(u: string): Option<(string, string, string)> {
    var first := NumberThenComma(u);
    if first.None? then None
    else
      var later := LaterFields(first.value.1);
      if later.None? then None else Some((first.value.0, later.value.0, later.value.1))
  }

  /** The captures of a match that starts exactly at the head of `t`. */
  function MatchHere(t: string): Option<(string, string, string)> {
    var open := OpeningLength(t);
    if open == 0 || open > |t| then None else Fields(t[open..])
  }

  /** The leftmost match at or after position `i`. */
  function SearchFrom(s: string, i: nat): Option<(string, string, string)>
    requires i <= |s|
    decreases |s| - i
  {
    var here := MatchHere(s[i..]);
    if here.Some? then here
    else if i == |s| then None
    else SearchFrom(s, i + 1)
  }

  predicate StartsWith(s: string, p: string) {
    |p| <= |s| && s[..|p|] == p
  }

  /** The output for three components and the caller's alpha. */
  function Rgba(r: string, g: string, b: string, alpha: string): string {
    "rgba(" + r + ", " + g + ", " + b + ", " + alpha + ")"
  }

  /** An `rgb…` colour: the first match's captures with the new alpha, or the colour unchanged. */
  function FromRgb(hex: string, alpha: string): string {
    var m := SearchFrom(hex, 0);
    if m.Some? then Rgba(m.value.0, m.value.1, m.value.2, alpha) else hex
  }

  /** Anything else: the components read from the hexadecimal form. */
  function FromHex(hex: string, alpha: string): string {
    var c := Components(ReplaceFirstHash(hex));
    Rgba(RenderNum(c.0), RenderNum(c.1), RenderNum(c.2), alpha)
  }

  /** `hexToRgba`. */
  function HexToRgba(hex: string, alpha: string): (out: string)
    ensures StartsWith(hex, "rgb") ==> out == hex || exists r, g, b :: out == Rgba(r, g, b, alpha)
    ensures !StartsWith(hex, "rgb") ==> exists r, g, b :: out == Rgba(r, g, b, alpha)
  {
    if StartsWith(hex, "rgb") then FromRgb(hex, alpha) else FromHex(hex, alpha)
  }

  // What the forms promise.

  /** `#RGB` and `#RGBA`: each component is its nibble doubled, 17 times its value; a fourth character is ignored. */
  lemma ShortForm(clean: string)
    requires |clean| == 3 || |clean| == 4
    requires IsHexDigit(clean[0]) && IsHexDigit(clean[1]) && IsHexDigit(clean[2])
    ensures Components(clean) == (Int(17 * HexDigitValue(clean[0])), Int(17 * HexDigitValue(clean[1])), Int(17 * HexDigitValue(clean[2])))
  {
    var c := Components(clean);
    assert c.0 == ParseHex([clean[0], clean[0]]);
    assert c.1 == ParseHex([clean[1], clean[1]]);
    assert c.2 == ParseHex([clean[2], clean[2]]);
    DoubledNibble(clean[0]);
    DoubledNibble(clean[1]);
    DoubledNibble(clean[2]);
    assert c.0 == Int(17 * HexDigitValue(clean[0]));
    assert c.1 == Int(17 * HexDigitValue(clean[1]));
    assert c.2 == Int(17 * HexDigitValue(clean[2]));
  }

  /** A doubled hexadecimal digit reads as 17 times its value. */
  lemma DoubledNibble(a: char)
    requires IsHexDigit(a)
    ensures ParseHex([a, a]) == Int(17 * HexDigitValue(a))
  {
    ParseHexPair(a, a);
  }

  /** `#RRGGBB` and `#RRGGBBAA`: the components are the first three byte pairs; a fourth pair is ignored. */
  lemma LongForm(clean: string)
    requires |clean| >= 6
    requires IsHexDigit(clean[0]) && IsHexDigit(clean[1]) && IsHexDigit(clean[2])
    requires IsHexDigit(clean[3]) && IsHexDigit(clean[4]) && IsHexDigit(clean[5])
    ensures PairedComponents(clean).0 == Int(16 * HexDigitValue(clean[0]) + HexDigitValue(clean[1]))
    ensures PairedComponents(clean).1 == Int(16 * HexDigitValue(clean[2]) + HexDigitValue(clean[3]))
    ensures PairedComponents(clean).2 == Int(16 * HexDigitValue(clean[4]) + HexDigitValue(clean[5]))
  {
    SlicedPair(clean, 0);
    SlicedPair(clean, 2);
    SlicedPair(clean, 4);
  }

  /** Two hexadecimal digits sliced out of a longer string read as the byte they spell. */
  lemma SlicedPair(clean: string, i: nat)
    requires i + 2 <= |clean| && IsHexDigit(clean[i]) && IsHexDigit(clean[i + 1])
    ensures ParseHex(Slice(clean, i, i + 2)) == Int(16 * HexDigitValue(clean[i]) + HexDigitValue(clean[i + 1]))
  {
    var pair := [clean[i], clean[i + 1]];
    assert Slice(clean, i, i + 2) == pair;
    ParseHexPair(clean[i], clean[i + 1]);
    assert ParseHex(pair) == Int(16 * HexDigitValue(clean[i]) + HexDigitValue(clean[i + 1]));
  }

  /** A component `parseInt` read as a number from 0 to 255. */
  predicate IsByte(n: Num) {
    n.Int? && 0 <= n.value <= 255
  }

  /** For 3, 4, 6 or 8 hexadecimal digits every component is a byte. */
  lemma ComponentsAreBytes(clean: string)
    requires |clean| in {3, 4, 6, 8} && AllHex(clean)
    ensures IsByte(Components(clean).0) && IsByte(Components(clean).1) && IsByte(Components(clean).2)
  {
    if |clean| <= 4 {
      ShortForm(clean);
    } else {
      LongForm(clean);
    }
  }

  /** A colour that starts with `#` is read as hexadecimal. */
  lemma HexBranch(clean: string, alpha: string)
    ensures HexToRgba("#" + clean, alpha) == FromHex("#" + clean, alpha)
  {
    assert !StartsWith("#" + clean, "rgb") by {
      assert ("#" + clean)[0] == '#';
    }
  }

  /** The cleaning drops exactly a leading `#`. */
  lemma LeadingHashDropped(clean: string)
    ensures ReplaceFirstHash("#" + clean) == clean
  {
    assert ("#" + clean)[0] == '#';
    assert ("#" + clean)[1..] == clean;
  }

  /**
   * For a `#` followed by 3, 4, 6 or 8 hexadecimal digits the output is
   * `rgba(r, g, b, alpha)` with each component a byte written in decimal
   * and the alpha text untouched.
   */
  lemma HexColourIsRgba(clean: string, alpha: string)
    requires |clean| in {3, 4, 6, 8} && AllHex(clean)
    ensures var c := Components(clean);
      && IsByte(c.0) && IsByte(c.1) && IsByte(c.2)
      && HexToRgba("#" + clean, alpha) == Rgba(IntToString(c.0.value), IntToString(c.1.value), IntToString(c.2.value), alpha)
  {
    HexBranch(clean, alpha);
    LeadingHashDropped(clean);
    ComponentsAreBytes(clean);
  }

  lemma SystemBlueComponents(clean: string)
    requires clean == "007AFF"
    ensures Components(clean) == (Int(0), Int(122), Int(255))
  {
    assert clean[0] == '0' && clean[1] == '0' && clean[2] == '7';
    assert clean[3] == 'A' && clean[4] == 'F' && clean[5] == 'F';
    LongForm(clean);
  }

  lemma RenderedSmall()
    ensures IntToString(0) == "0" && IntToString(122) == "122"
  {
    assert NatToString(122) == NatToString(12) + [DigitChar(2)];
    assert NatToString(12) == NatToString(1) + [DigitChar(2)];
  }

  /** The documented example: `#007AFF` becomes `rgba(0, 122, 255, alpha)`. */
  lemma SystemBlue(alpha: string)
    ensures HexToRgba("#007AFF", alpha) == Rgba("0", "122", "255", alpha)
  {
    var clean := "007AFF";
    assert "#" + clean == "#007AFF";
    assert HexToRgba("#007AFF", alpha) == FromHex("#007AFF", alpha) by {
      HexBranch(clean, alpha);
    }
    assert ReplaceFirstHash("#007AFF") == clean by {
      LeadingHashDropped(clean);
    }
    assert Components(clean) == (Int(0), Int(122), Int(255)) by {
      SystemBlueComponents(clean);
    }
    assert RenderNum(Int(0)) == "0" && RenderNum(Int(122)) == "122" && RenderNum(Int(255)) == "255" by {
      RenderedByte();
      RenderedSmall();
    }
  }

  /** The documented short form: `#FFF` becomes `rgba(255, 255, 255, alpha)`. */
  lemma ShortWhite(alpha: string)
    ensures HexToRgba("#FFF", alpha) == Rgba("255", "255", "255", alpha)
  {
    assert "#" + "FFF" == "#FFF";
    assert HexToRgba("#FFF", alpha) == FromHex("#FFF", alpha) by {
      HexBranch("FFF", alpha);
    }
    assert ReplaceFirstHash("#FFF") == "FFF" by {
      LeadingHashDropped("FFF");
    }
    assert Components("FFF") == (Int(255), Int(255), Int(255)) by {
      ShortForm("FFF");
    }
    assert RenderNum(Int(255)) == "255" by {
      RenderedByte();
    }
  }

  lemma RenderedByte()
    ensures IntToString(255) == "255"
  {
    assert NatToString(255) == NatToString(25) + [DigitChar(5)];
    assert NatToString(25) == NatToString(2) + [DigitChar(5)];
  }

  lemma SecondHashComponents()
    ensures Components("#FFF") == (NaN, Int(255), Int(255))
  {
    assert ParseHex(['#', '#']) == NaN by {
      assert SkipSpace(['#', '#']) == ['#', '#'];
    }
    DoubledNibble('F');
  }

  /** A second `#` survives the cleaning and reads as NaN. */
  lemma SecondHashReadsAsNaN(alpha: string)
    ensures HexToRgba("##FFF", alpha) == Rgba("NaN", "255", "255", alpha)
  {
    HexBranch("#FFF", alpha);
    LeadingHashDropped("#FFF");
    assert "#" + "#FFF" == "##FFF";
    SecondHashComponents();
    RenderedByte();
  }

  lemma DigitsBeforeComma(d: string, rest: string)
    requires |d| > 0 && AllDigits(d)
    ensures NumberThenComma(d + "," + rest) == Some((d, rest))
  {
    var t := d + "," + rest;
    LeadingDigitsOf(d, "," + rest);
    assert d + ("," + rest) == t;
    assert t[|d|] == ',';
    assert t[|d| + 1..] == rest;
  }

  lemma {:induction false} LeadingDigitsOf(d: string, rest: string)
    requires AllDigits(d) && (rest == "" || !IsDigit(rest[0]))
    ensures LeadingDigits(d + rest) == d
  {
    if |d| > 0 {
      assert (d + rest)[1..] == d[1..] + rest;
      LeadingDigitsOf(d[1..], rest);
      assert [d[0]] + d[1..] == d;
    } else {
      assert d + rest == rest;
    }
  }

  lemma {:induction false} LeadingSpaceOf(w: string, rest: string)
    requires (forall i :: 0 <= i < |w| ==> IsJsSpace(w[i])) && (rest == "" || !IsJsSpace(rest[0]))
    ensures LeadingSpace(w + rest) == w
  {
    if |w| > 0 {
      assert (w + rest)[1..] == w[1..] + rest;
      LeadingSpaceOf(w[1..], rest);
      assert [w[0]] + w[1..] == w;
    } else {
      assert w + rest == rest;
    }
  }

  /** Digits, then whitespace that is not followed by more whitespace. */
  predicate SpacedField(w: string, d: string, rest: string) {
    && (forall i :: 0 <= i < |w| ==> IsJsSpace(w[i]))
    && |d| > 0 && AllDigits(d)
    && (rest == "" || !IsDigit(rest[0]))
  }

  lemma AfterSpaceOf(w: string, rest: string)
    requires forall i :: 0 <= i < |w| ==> IsJsSpace(w[i])
    requires rest == "" || !IsJsSpace(rest[0])
    ensures AfterSpace(w + rest) == rest
  {
    LeadingSpaceOf(w, rest);
    assert (w + rest)[|w|..] == rest;
  }

  lemma DigitIsNotSpace(c: char)
    requires IsDigit(c)
    ensures !IsJsSpace(c)
  {
  }

  lemma LastFieldOf(w: string, b: string, rest: string)
    requires SpacedField(w, b, rest)
    ensures LastField(w + b + rest) == Some(b)
  {
    DigitIsNotSpace(b[0]);
    assert (b + rest)[0] == b[0];
    AfterSpaceOf(w, b + rest);
    assert w + b + rest == w + (b + rest);
    LeadingDigitsOf(b, rest);
  }

  lemma LaterFieldsOf(w1: string, g: string, w2: string, b: string, rest: string)
    requires SpacedField(w1, g, "," + w2 + b + rest)
    requires SpacedField(w2, b, rest)
    ensures LaterFields(w1 + g + "," + w2 + b + rest) == Some((g, b))
  {
    var tail := w2 + b + rest;
    assert w1 + g + "," + w2 + b + rest == w1 + (g + "," + tail);
    assert AfterSpace(w1 + (g + "," + tail)) == g + "," + tail by {
      DigitIsNotSpace(g[0]);
      assert (g + "," + tail)[0] == g[0];
      AfterSpaceOf(w1, g + "," + tail);
    }
    assert NumberThenComma(g + "," + tail) == Some((g, tail)) by {
      DigitsBeforeComma(g, tail);
    }
    assert LastField(tail) == Some(b) by {
      LastFieldOf(w2, b, rest);
    }
  }

  /** The three fields of the pattern, each followed by what the pattern demands. */
  lemma FieldsOf(r: string, w1: string, g: string, w2: string, b: string, rest: string)
    requires |r| > 0 && AllDigits(r)
    requires SpacedField(w1, g, "," + w2 + b + rest)
    requires SpacedField(w2, b, rest)
    ensures Fields(r + "," + w1 + g + "," + w2 + b + rest) == Some((r, g, b))
  {
    var tail := w1 + g + "," + w2 + b + rest;
    assert r + "," + w1 + g + "," + w2 + b + rest == r + "," + tail by {
      var y := r + ",";
      Regroup(y, w1, g);
      Regroup(y, w1 + g, ",");
      Regroup(y, w1 + g + ",", w2);
      Regroup(y, w1 + g + "," + w2, b);
      Regroup(y, w1 + g + "," + w2 + b, rest);
    }
    assert NumberThenComma(r + "," + tail) == Some((r, tail)) by {
      DigitsBeforeComma(r, tail);
    }
    assert LaterFields(tail) == Some((g, b)) by {
      LaterFieldsOf(w1, g, w2, b, rest);
    }
  }

  lemma OpeningOf(open: string, u: string)
    requires open == "rgb(" || open == "rgba("
    ensures OpeningLength(open + u) == |open|
    ensures StartsWith(open + u, "rgb")
  {
    var t := open + u;
    assert t[..|open|] == open;
    assert t[..3] == open[..3];
    if open == "rgb(" && |t| >= 5 {
      assert t[..5][3] == '(';
    }
  }

  /**
   * An `rgb(` or `rgba(` colour whose first three fields are numbers keeps
   * their digits verbatim and gets the caller's alpha, whatever alpha or
   * text it had after them.
   */
  lemma RgbPassthrough(open: string, r: string, w1: string, g: string, w2: string, b: string, rest: string, alpha: string)
    requires open == "rgb(" || open == "rgba("
    requires |r| > 0 && AllDigits(r)
    requires SpacedField(w1, g, "," + w2 + b + rest)
    requires SpacedField(w2, b, rest)
    ensures HexToRgba(open + r + "," + w1 + g + "," + w2 + b + rest, alpha) == Rgba(r, g, b, alpha)
  {
    var u := r + "," + w1 + g + "," + w2 + b + rest;
    var s := open + u;
    assert open + r + "," + w1 + g + "," + w2 + b + rest == s;
    OpeningOf(open, u);
    FieldsOf(r, w1, g, w2, b, rest);
    assert s[|open|..] == u;
    assert s[0..] == s;
    assert MatchHere(s) == Some((r, g, b));
  }

  /** An `rgb…` string with no `(` is returned as it is. */
  lemma RgbWithoutParenthesis(hex: string, alpha: string)
    requires StartsWith(hex, "rgb") && Lacks(hex, '(')
    ensures HexToRgba(hex, alpha) == hex
  {
    NoMatchWithoutParenthesis(hex, 0);
  }

  lemma NoOpeningWithoutParenthesis(t: string)
    requires Lacks(t, '(')
    ensures OpeningLength(t) == 0
  {
    if |t| >= 4 {
      assert t[..4][3] == t[3];
    }
    if |t| >= 5 {
      assert t[..5][4] == t[4];
    }
  }

  lemma {:induction false} NoMatchWithoutParenthesis(s: string, i: nat)
    requires i <= |s| && Lacks(s, '(')
    ensures SearchFrom(s, i).None?
    decreases |s| - i
  {
    LacksSuffix(s, '(', i);
    NoOpeningWithoutParenthesis(s[i..]);
    if i < |s| {
      NoMatchWithoutParenthesis(s, i + 1);
    }
  }
}

=== FILE: cpf.dfy ===
/**
 * Brazilian CPF numbers (src/utils/cpf.ts): normalisation, the mod-11
 * check-digit validation and the display mask.
 */
module Cpf {
  import opened Wrappers
  import opened Strings

  /** The characters `normalizeCpf` removes: `.`, `-` and whitespace. */
  predicate Stripped(c: char) {
    c == '.' || c == '-' || IsJsSpace(c)
  }

  predicate NoneStripped(s: string) {
    forall i :: 0 <= i < |s| ==> !Stripped(s[i])
  }

  /** `normalizeCpf`: every character except `.`, `-` and whitespace, in order. */
  function NormalizeCpf(s: string): (r: string)
    ensures |r| <= |s|
    ensures NoneStripped(r)
  {
    if |s| == 0 then "" else (if Stripped(s[0]) then "" else [s[0]]) + NormalizeCpf(s[1..])
  }

  /** Every character that is not stripped is kept, as often as it occurs. */
  lemma {:induction false} NormalizeCpfKeeps(s: string, c: char)
    requires !Stripped(c)
    ensures multiset(NormalizeCpf(s))[c] == multiset(s)[c]
  {
    if |s| > 0 {
      assert s == [s[0]] + s[1..];
      NormalizeCpfKeeps(s[1..], c);
    }
  }

  lemma {:induction false} NormalizeCpfConcat(a: string, b: string)
    ensures NormalizeCpf(a + b) == NormalizeCpf(a) + NormalizeCpf(b)
  {
    if |a| > 0 {
      assert (a + b)[1..] == a[1..] + b;
      NormalizeCpfConcat(a[1..], b);
    } else {
      assert a + b == b;
    }
  }

  /** A string with nothing to strip is its own normal form. */
  lemma {:induction false} NormalizeCpfNoop(s: string)
    requires NoneStripped(s)
    ensures NormalizeCpf(s) == s
  {
    if |s| > 0 {
      NormalizeCpfNoop(s[1..]);
    }
  }

  lemma NormalizeCpfIdempotent(s: string)
    ensures NormalizeCpf(NormalizeCpf(s)) == NormalizeCpf(s)
  {
    NormalizeCpfNoop(NormalizeCpf(s));
  }

  /** `s.replace(/\D/g, '')`: the ASCII digits of `s`, in order. */
  function OnlyDigits(s: string): (r: string)
    ensures |r| <= |s|
    ensures AllDigits(r)
  {
    if |s| == 0 then "" else (if IsDigit(s[0]) then [s[0]] else "") + OnlyDigits(s[1..])
  }

  /** Every digit of `s` is kept as often as it occurs, and nothing else is. */
  lemma {:induction false} OnlyDigitsKeeps(s: string)
    ensures forall c :: IsDigit(c) ==> multiset(OnlyDigits(s))[c] == multiset(s)[c]
    ensures forall c :: !IsDigit(c) ==> multiset(OnlyDigits(s))[c] == 0
  {
    if |s| > 0 {
      OnlyDigitsKeeps(s[1..]);
      assert s == [s[0]] + s[1..];
      assert multiset(s) == multiset([s[0]]) + multiset(s[1..]);
    }
  }

  lemma {:induction false} OnlyDigitsConcat(a: string, b: string)
    ensures OnlyDigits(a + b) == OnlyDigits(a) + OnlyDigits(b)
  {
    if |a| > 0 {
      assert (a + b)[1..] == a[1..] + b;
      OnlyDigitsConcat(a[1..], b);
    } else {
      assert a + b == b;
    }
  }

  lemma {:induction false} OnlyDigitsNoop(s: string)
    requires AllDigits(s)
    ensures OnlyDigits(s) == s
  {
    if |s| > 0 {
      OnlyDigitsNoop(s[1..]);
    }
  }

  /** On a string of digits and the mask's separators, normalising and keeping the digits agree. */
  lemma {:induction false} NormalizeMasked(s: string)
    requires forall i :: 0 <= i < |s| ==> IsDigit(s[i]) || s[i] == '.' || s[i] == '-'
    ensures NormalizeCpf(s) == OnlyDigits(s)
  {
    if |s| > 0 {
      NormalizeMasked(s[1..]);
    }
  }

  // Check digits.

  /** The digit values of a digit string. */
  function Values(s: string): (v: seq<nat>)
    requires AllDigits(s)
    ensures |v| == |s| && forall i :: 0 <= i < |s| ==> v[i] == DigitValue(s[i]) && v[i] < 10
  {
    seq(|s|, i requires 0 <= i < |s| => DigitValue(s[i]))
  }

  /** Σ d[i]·(top − i), accumulated in index order as the validation loops do. */
  function WeightedSum(d: seq<nat>, top: int): int {
    if |d| == 0 then 0 else WeightedSum(d[..|d| - 1], top) + d[|d| - 1] * (top - (|d| - 1))
  }

  /** `(sum * 10) % 11`, with 10 read as 0; the sum is never negative here, so JavaScript's `%` agrees with Dafny's. */
  function CheckOf(sum: int): (r: nat)
    ensures r < 10
  {
    var m := (sum * 10) % 11;
    if m == 10 then 0 else m
  }

  /** The check digit of `d` with weights starting at `top`. */
  function CheckDigit(d: seq<nat>, top: int): (r: nat)
    ensures r < 10
  {
    CheckOf(WeightedSum(d, top))
  }

  /** `/^(\d)\1{10}$/`: eleven copies of one digit. */
  predicate SameDigitRun(c: string) {
    |c| == 11 && IsDigit(c[0]) && forall k :: 1 <= k < 11 ==> c[k] == c[0]
  }

  /** Both check digits of an 11-digit string match. */
  predicate CheckDigitsMatch(c: string)
    requires |c| == 11 && AllDigits(c)
  {
    var v := Values(c);
    CheckDigit(v[..9], 10) == v[9] && CheckDigit(v[..10], 11) == v[10]
  }

  /** The definition a valid CPF meets: eleven digits once normalised, not all equal, both check digits right. */
  predicate IsValidCpf(s: string) {
    var c := NormalizeCpf(s);
    |c| == 11 && AllDigits(c) && !SameDigitRun(c) && CheckDigitsMatch(c)
  }

  /** `parseInt` of one character: its value, or NaN (`None`). */
  function ParseDigit(c: char): (r: Option<nat>)
    ensures r.Some? <==> IsDigit(c)
    ensures r.Some? ==> r.value == DigitValue(c)
  {
    if IsDigit(c) then Some(DigitValue(c)) else None
  }

  /** JavaScript `===` on numbers that may be NaN: NaN equals nothing. */
  predicate SameNumber(a: Option<nat>, b: Option<nat>) {
    a.Some? && b.Some? && a.value == b.value
  }

  /** One step of the accumulation: NaN absorbs. */
  function AddTerm(sum: Option<int>, digit: Option<nat>, weight: int): Option<int> {
    if sum.Some? && digit.Some? then Some(sum.value + digit.value * weight) else None
  }

  /** The remainder computation on a sum that may be NaN. */
  function RemainderOf(sum: Option<int>): Option<nat> {
    if sum.Some? then Some(CheckOf(sum.value)) else None
  }

  /**
   * One accumulation loop of `validateCpf`: Σ parseInt(c[i])·(top − i)
   * over the first `count` characters, NaN as soon as one is not a digit.
   */
  method AccumulateSum(clean: string, count: nat, top: int) returns (sum: Option<int>)
    requires count <= |clean|
    ensures sum.Some? <==> AllDigits(clean[..count])
    ensures sum.Some? ==> sum.value == WeightedSum(Values(clean[..count]), top)
  {
    sum := Some(0);
    var i := 0;
    while i < count
      invariant 0 <= i <= count
      invariant sum.Some? <==> AllDigits(clean[..i])
      invariant sum.Some? ==> sum.value == WeightedSum(Values(clean[..i]), top)
    {
      assert clean[..i + 1] == clean[..i] + [clean[i]];
      if AllDigits(clean[..i + 1]) {
        assert Values(clean[..i + 1])[..i] == Values(clean[..i]);
      }
      sum := AddTerm(sum, ParseDigit(clean[i]), top - i);
      i := i + 1;
    }
  }

  /** The first `n` digit values of a digit string are the values of its first `n` characters. */
  lemma ValuesPrefix(c: string, n: nat)
    requires n <= |c| && AllDigits(c)
    ensures AllDigits(c[..n]) && Values(c)[..n] == Values(c[..n])
  {
  }

  /**
   * `validateCpf`, step by step as written: the length test, the
   * same-digit test, then two accumulation loops in which a non-digit
   * turns the sum into NaN and fails the comparison.
   */
  method ValidateCpf(cpf: string) returns (ok: bool)
    ensures ok <==> IsValidCpf(cpf)
  {
    var clean := NormalizeCpf(cpf);
    if |clean| != 11 {
      return false;
    }
    if IsDigit(clean[0]) && forall k :: 1 <= k < 11 ==> clean[k] == clean[0] {
      return false;
    }
    var sum := AccumulateSum(clean, 9, 10);
    if !SameNumber(RemainderOf(sum), ParseDigit(clean[9])) {
      if AllDigits(clean) {
        ValuesPrefix(clean, 9);
      }
      return false;
    }
    sum := AccumulateSum(clean, 10, 11);
    if !SameNumber(RemainderOf(sum), ParseDigit(clean[10])) {
      if AllDigits(clean) {
        ValuesPrefix(clean, 10);
      }
      return false;
    }
    assert clean[..10] + [clean[10]] == clean;
    ValuesPrefix(clean, 9);
    ValuesPrefix(clean, 10);
    return true;
  }

  /** Validity depends on the normal form alone. */
  lemma ValidityFollowsNormalForm(s: string)
    ensures IsValidCpf(NormalizeCpf(s)) == IsValidCpf(s)
  {
    NormalizeCpfIdempotent(s);
  }

  /** The two check digits a nine-digit base calls for, appended to it. */
  function CompleteCpf(base: string): (r: string)
    requires |base| == 9 && AllDigits(base)
    ensures |r| == 11 && AllDigits(r) && r[..9] == base
    ensures CheckDigitsMatch(r)
  {
    var v := Values(base);
    var d1 := CheckDigit(v, 10);
    var d2 := CheckDigit(v + [d1], 11);
    var r := base + [DigitChar(d1), DigitChar(d2)];
    assert Values(r)[..9] == v;
    assert Values(r)[..10] == v + [d1];
    r
  }

  /**
   * The check digits are determined by the first nine: a string is a
   * valid CPF exactly when its normal form is the completion of its own
   * first nine digits and not one repeated digit.
   */
  lemma ValidIffCompleted(s: string)
    ensures IsValidCpf(s) <==>
      var c := NormalizeCpf(s);
      && |c| == 11 && AllDigits(c)
      && c == CompleteCpf(c[..9])
      && !SameDigitRun(c)
  {
    var c := NormalizeCpf(s);
    if |c| == 11 && AllDigits(c) {
      var k := CompleteCpf(c[..9]);
      var v := Values(c);
      assert Values(c[..9]) == v[..9];
      if CheckDigitsMatch(c) {
        assert Values(c[..9]) + [v[9]] == v[..10];
        assert DigitChar(v[9]) == c[9] && DigitChar(v[10]) == c[10];
        assert c == c[..9] + [c[9], c[10]];
      }
    }
  }

  /** The digit values of the accepted example. */
  lemma AcceptedValues(c: string)
    requires c == "11144477735"
    ensures AllDigits(c) && Values(c) == [1, 1, 1, 4, 4, 4, 7, 7, 7, 3, 5]
  {
  }

  /** Appending a digit adds its weighted term. */
  lemma WeightedSumSnoc(d: seq<nat>, x: nat, top: int)
    ensures WeightedSum(d + [x], top) == WeightedSum(d, top) + x * (top - |d|)
  {
    assert (d + [x])[..|d|] == d;
  }

  /** The weighted sum of a digit list, step by step from the empty list. */
  lemma {:induction false} WeightedSumSteps(v: seq<nat>, top: int, n: nat)
    requires n <= |v|
    ensures WeightedSum(v[..n], top) == if n == 0 then 0 else WeightedSum(v[..n - 1], top) + v[n - 1] * (top - (n - 1))
  {
    if n > 0 {
      assert v[..n] == v[..n - 1] + [v[n - 1]];
      WeightedSumSnoc(v[..n - 1], v[n - 1], top);
    }
  }

  lemma AcceptedSums(v: seq<nat>)
    requires v == [1, 1, 1, 4, 4, 4, 7, 7, 7, 3, 5]
    ensures WeightedSum(v[..9], 10) == 162 && WeightedSum(v[..10], 11) == 204
  {
    for n := 0 to 9
      invariant WeightedSum(v[..n], 10) == [0, 10, 19, 27, 55, 79, 99, 127, 148, 162][n]
      invariant WeightedSum(v[..n], 11) == [0, 11, 21, 30, 62, 90, 114, 149, 177, 198][n]
    {
      WeightedSumSteps(v, 10, n + 1);
      WeightedSumSteps(v, 11, n + 1);
    }
    WeightedSumSteps(v, 11, 10);
  }

  /** `'111.444.777-35'` is accepted and normalised to `'11144477735'`. */
  lemma AcceptedExample(s: string)
    requires s == "111.444.777-35"
    ensures NormalizeCpf(s) == "11144477735"
    ensures IsValidCpf(s)
  {
    var c := "11144477735";
    assert Mask(c) == s by {
      assert c[..3] == "111" && c[3..6] == "444" && c[6..9] == "777" && c[9..] == "35";
    }
    MaskDigits(c);
    AcceptedDigits(c);
  }

  lemma AcceptedDigits(c: string)
    requires c == "11144477735"
    ensures |c| == 11 && AllDigits(c) && !SameDigitRun(c) && CheckDigitsMatch(c)
  {
    AcceptedValues(c);
    AcceptedSums(Values(c));
    assert c[3] != c[0];
  }

  lemma RejectedValues(c: string)
    requires c == "12345678900"
    ensures AllDigits(c) && Values(c) == [1, 2, 3, 4, 5, 6, 7, 8, 9, 0, 0]
  {
  }

  lemma RejectedSum(v: seq<nat>)
    requires v == [1, 2, 3, 4, 5, 6, 7, 8, 9, 0, 0]
    ensures WeightedSum(v[..10], 11) == 255
  {
    for n := 0 to 10
      invariant WeightedSum(v[..n], 11) == [0, 11, 31, 58, 90, 125, 161, 196, 228, 255, 255][n]
    {
      WeightedSumSteps(v, 11, n + 1);
    }
  }

  /** `'123.456.789-00'` is rejected: its second check digit should be 9. */
  lemma RejectedExample(s: string)
    requires s == "123.456.789-00"
    ensures NormalizeCpf(s) == "12345678900"
    ensures !IsValidCpf(s)
  {
    var c := "12345678900";
    assert Mask(c) == s by {
      assert c[..3] == "123" && c[3..6] == "456" && c[6..9] == "789" && c[9..] == "00";
    }
    MaskDigits(c);
    RejectedDigits(c);
  }

  lemma RejectedDigits(c: string)
    requires c == "12345678900"
    ensures |c| == 11 && AllDigits(c) && !CheckDigitsMatch(c)
  {
    RejectedValues(c);
    RejectedSum(Values(c));
  }

  // The display mask.

  /** `XXX.XXX.XXX-XX` over eleven digits. */
  function Mask(d: string): string
    requires |d| == 11
  {
    d[..3] + "." + d[3..6] + "." + d[6..9] + "-" + d[9..]
  }

  /** `formatCpfDisplay`: the mask over the digits when there are exactly eleven, the input itself otherwise. */
  function FormatCpfDisplay(cpf: string): (r: string)
    ensures |OnlyDigits(cpf)| != 11 ==> r == cpf
    ensures |OnlyDigits(cpf)| == 11 ==>
      && |r| == 14 && r[3] == '.' && r[7] == '.' && r[11] == '-'
      && r[..3] + r[4..7] + r[8..11] + r[12..] == OnlyDigits(cpf)
  {
    var d := OnlyDigits(cpf);
    if |d| != 11 then cpf
    else
      var r := Mask(d);
      assert r[..3] == d[..3] && r[4..7] == d[3..6] && r[8..11] == d[6..9] && r[12..] == d[9..];
      assert d[..3] + d[3..6] + d[6..9] + d[9..] == d;
      r
  }

  /** Removing the separators from a mask gives back the digits under it. */
  lemma MaskDigits(d: string)
    requires |d| == 11 && AllDigits(d)
    ensures OnlyDigits(Mask(d)) == d
    ensures NormalizeCpf(Mask(d)) == d
  {
    var a, b, c, e := d[..3], d[3..6], d[6..9], d[9..];
    assert OnlyDigits(Mask(d)) == a + b + c + e by {
      DigitSlice(d, 0, 3);
      DigitSlice(d, 3, 6);
      DigitSlice(d, 6, 9);
      DigitSlice(d, 9, 11);
      assert d[0..3] == a && d[9..11] == e;
      OnlyDigitsNoop(a);
      DigitsThenSeparator(a, '.');
      AppendDigits(a + ".", a, b);
      DigitsThenSeparator(a + "." + b, '.');
      AppendDigits(a + "." + b + ".", a + b, c);
      DigitsThenSeparator(a + "." + b + "." + c, '-');
      AppendDigits(a + "." + b + "." + c + "-", a + b + c, e);
    }
    assert a + b + c + e == d by {
      assert d[..6] == a + b;
      assert d[..9] == d[..6] + c;
      assert d == d[..9] + e;
    }
    assert NormalizeCpf(Mask(d)) == OnlyDigits(Mask(d)) by {
      MaskCharacters(d);
      NormalizeMasked(Mask(d));
    }
  }

  lemma DigitSlice(d: string, i: nat, j: nat)
    requires i <= j <= |d| && AllDigits(d)
    ensures AllDigits(d[i..j])
  {
    forall k | 0 <= k < j - i ensures IsDigit(d[i..j][k]) {
      assert d[i..j][k] == d[i + k];
    }
  }

  /** A separator adds nothing to the digits of what precedes it. */
  lemma DigitsThenSeparator(x: string, sep: char)
    requires !IsDigit(sep)
    ensures OnlyDigits(x + [sep]) == OnlyDigits(x)
  {
    OnlyDigitsConcat(x, [sep]);
    assert OnlyDigits([sep]) == OnlyDigits([sep][1..]);
  }

  /** Appending a run of digits appends it to the digits. */
  lemma AppendDigits(x: string, dx: string, y: string)
    requires OnlyDigits(x) == dx && AllDigits(y)
    ensures OnlyDigits(x + y) == dx + y
  {
    OnlyDigitsConcat(x, y);
    OnlyDigitsNoop(y);
  }

  /** A mask holds only digits, dots and the dash. */
  lemma MaskCharacters(d: string)
    requires |d| == 11 && AllDigits(d)
    ensures forall i :: 0 <= i < |Mask(d)| ==> IsDigit(Mask(d)[i]) || Mask(d)[i] == '.' || Mask(d)[i] == '-'
  {
    var m := Mask(d);
    assert |m| == 14;
    forall i | 0 <= i < 14 ensures IsDigit(m[i]) || m[i] == '.' || m[i] == '-' {
      if i < 3 {
        assert m[i] == d[i];
      } else if 3 < i < 7 {
        assert m[i] == d[i - 1];
      } else if 7 < i < 11 {
        assert m[i] == d[i - 2];
      } else if 11 < i {
        assert m[i] == d[i - 3];
      }
    }
  }

  /** For eleven digits, normalising the display form gives the digits back. */
  lemma FormatCpfDisplayRoundTrip(d: string)
    requires |d| == 11 && AllDigits(d)
    ensures NormalizeCpf(FormatCpfDisplay(d)) == d
    ensures IsValidCpf(FormatCpfDisplay(d)) == IsValidCpf(d)
  {
    OnlyDigitsNoop(d);
    MaskDigits(d);
    NormalizeCpfNoop(d);
  }

  lemma FormatCpfDisplayIdempotent(s: string)
    ensures FormatCpfDisplay(FormatCpfDisplay(s)) == FormatCpfDisplay(s)
  {
    var d := OnlyDigits(s);
    if |d| == 11 {
      MaskDigits(d);
    }
  }
}

=== FILE: dates.dfy ===
/**
 * Date input and display (src/utils/date.ts): `YYYY-MM-DD` and
 * `YYYY-MMM-DD` with Portuguese month abbreviations, parsed to a calendar
 * date and formatted back as `YYYY-MMM-DD`. A JavaScript `Date` is
 * modelled by the (year, month, day) it denotes, month counted from 1.
 */
module Dates {
  import opened Wrappers
  import opened Strings

  /** `MONTHS_PT_BR`. */
  const MonthsPtBr: seq<string> := ["JAN", "FEV", "MAR", "ABR", "MAI", "JUN", "JUL", "AGO", "SET", "OUT", "NOV", "DEZ"]

  /** `MONTH_TO_NUMBER`. */
  const MonthToNumber: map<string, int> := map[
    "JAN" := 1, "FEV" := 2, "MAR" := 3, "ABR" := 4, "MAI" := 5, "JUN" := 6,
    "JUL" := 7, "AGO" := 8, "SET" := 9, "OUT" := 10, "NOV" := 11, "DEZ" := 12]

  datatype CalendarDate = CalendarDate(year: int, month: int, day: int)

  /** The two month tables are inverse to each other. */
  lemma MonthTablesInverse()
    ensures |MonthsPtBr| == 12
    ensures forall i :: 0 <= i < 12 ==> MonthsPtBr[i] in MonthToNumber && MonthToNumber[MonthsPtBr[i]] == i + 1
    ensures forall k :: k in MonthToNumber ==> 1 <= MonthToNumber[k] <= 12 && MonthsPtBr[MonthToNumber[k] - 1] == k
  {
  }

  predicate IsLeapYear(y: int) {
    y % 4 == 0 && (y % 100 != 0 || y % 400 == 0)
  }

  /** Days in month `m` (1..12) of the proleptic Gregorian calendar `Date` follows. */
  function DaysInMonth(y: int, m: int): (n: int)
    requires 1 <= m <= 12
    ensures 28 <= n <= 31
    ensures n == 29 <==> m == 2 && IsLeapYear(y)
  {
    if m == 2 then (if IsLeapYear(y) then 29 else 28)
    else if m == 4 || m == 6 || m == 9 || m == 11 then 30
    else 31
  }

  /** A day that exists: what a `Date` whose fields did not roll over denotes. */
  predicate IsCalendarDate(d: CalendarDate) {
    1 <= d.month <= 12 && 1 <= d.day <= DaysInMonth(d.year, d.month)
  }

  /** `/^\d{4}-\d{2}-\d{2}$/`. */
  predicate NumericShape(s: string) {
    && |s| == 10 && AllDigits(s[..4]) && s[4] == '-'
    && AllDigits(s[5..7]) && s[7] == '-' && AllDigits(s[8..])
  }

  /** `/^\d{4}-(JAN|…|DEZ)-\d{2}$/`. */
  predicate AlphaShape(s: string) {
    && |s| == 11 && AllDigits(s[..4]) && s[4] == '-'
    && s[5..8] in MonthToNumber && s[8] == '-' && AllDigits(s[9..])
  }

  /** `isValidDateFormat`. */
  function IsValidDateFormat(input: string): (r: bool)
    ensures r ==> |input| == 10 || |input| == 11
    ensures input == "" ==> !r
  {
    input != "" && (NumericShape(input) || AlphaShape(input))
  }

  /** `s.split(c)`: the pieces between occurrences of `c`, always at least one. */
  function Split(s: string, c: char): (parts: seq<string>)
    ensures |parts| >= 1
  {
    if |s| == 0 then [""]
    else
      var rest := Split(s[1..], c);
      if s[0] == c then [""] + rest else [[s[0]] + rest[0]] + rest[1..]
  }

  lemma {:induction false} SplitNoSeparator(s: string, c: char)
    requires Lacks(s, c)
    ensures Split(s, c) == [s]
  {
    if |s| > 0 {
      SplitNoSeparator(s[1..], c);
      assert [s[0]] + s[1..] == s;
    }
  }

  lemma {:induction false} SplitAt(a: string, c: char, b: string)
    requires Lacks(a, c)
    ensures Split(a + [c] + b, c) == [a] + Split(b, c)
  {
    if |a| == 0 {
      assert a + [c] + b == [c] + b;
      assert ([c] + b)[1..] == b;
    } else {
      assert (a + [c] + b)[1..] == a[1..] + [c] + b;
      SplitAt(a[1..], c, b);
      assert [a[0]] + a[1..] == a;
    }
  }

  /** Every abbreviation is three upper-case letters. */
  lemma MonthKeysAreLetters()
    ensures forall k :: k in MonthToNumber ==> |k| == 3 && forall i :: 0 <= i < 3 ==> 'A' <= k[i] <= 'Z'
  {
  }

  /** What the parser relies on about an abbreviation: three letters, already upper case. */
  lemma MonthKeyFacts(k: string)
    requires k in MonthToNumber
    ensures |k| == 3 && !IsDigit(k[0]) && Lacks(k, '-') && ToUpper(k) == k
  {
    assert |k| == 3 && forall i :: 0 <= i < 3 ==> 'A' <= k[i] <= 'Z' by {
      MonthKeysAreLetters();
    }
    assert ToUpper(k) == k;
  }

  lemma DigitsLackDash(t: string)
    requires AllDigits(t)
    ensures Lacks(t, '-')
  {
  }

  /** None of the three fields of a well-formed input holds a `-`. */
  lemma FieldsHaveNoDash(s: string)
    requires NumericShape(s) || AlphaShape(s)
    ensures Lacks(s[..4], '-') && Lacks(s[5..|s| - 3], '-') && Lacks(s[|s| - 2..], '-')
  {
    DigitsLackDash(s[..4]);
    if NumericShape(s) {
      assert s[5..|s| - 3] == s[5..7];
      assert s[|s| - 2..] == s[8..];
      DigitsLackDash(s[5..7]);
      DigitsLackDash(s[8..]);
    } else {
      assert s[5..|s| - 3] == s[5..8];
      assert s[|s| - 2..] == s[9..];
      DigitsLackDash(s[9..]);
      MonthKeyFacts(s[5..8]);
    }
  }

  /** Cutting a string at two positions and putting it back together gives the string. */
  lemma Decompose(s: string, i: nat, j: nat)
    requires i < j < |s|
    ensures s == s[..i] + [s[i]] + (s[i + 1..j] + [s[j]] + s[j + 1..])
  {
    var t := s[..i] + [s[i]] + (s[i + 1..j] + [s[j]] + s[j + 1..]);
    assert |t| == |s|;
    forall k | 0 <= k < |s| ensures t[k] == s[k] {
      if k < i {
        assert t[k] == s[..i][k];
      } else if k == i {
      } else if k < j {
        assert t[k] == s[i + 1..j][k - i - 1];
      } else if k == j {
      } else {
        assert t[k] == s[j + 1..][k - j - 1];
      }
    }
  }

  /** A well-formed input splits into exactly its year, month and day fields. */
  lemma SplitFields(s: string)
    requires NumericShape(s) || AlphaShape(s)
    ensures Split(s, '-') == [s[..4], s[5..|s| - 3], s[|s| - 2..]]
  {
    FieldsHaveNoDash(s);
    SplitCut(s, 4, |s| - 3);
  }

  /** Cutting at two dashes with no dash elsewhere gives the three pieces. */
  lemma SplitCut(s: string, i: nat, j: nat)
    requires i < j < |s| && s[i] == '-' && s[j] == '-'
    requires Lacks(s[..i], '-') && Lacks(s[i + 1..j], '-') && Lacks(s[j + 1..], '-')
    ensures Split(s, '-') == [s[..i], s[i + 1..j], s[j + 1..]]
  {
    Decompose(s, i, j);
    SplitThree(s[..i], s[i + 1..j], s[j + 1..]);
  }

  lemma SplitThree(y: string, m: string, d: string)
    requires Lacks(y, '-') && Lacks(m, '-') && Lacks(d, '-')
    ensures Split(y + ['-'] + (m + ['-'] + d), '-') == [y, m, d]
  {
    SplitAt(y, '-', m + ['-'] + d);
    SplitAt(m, '-', d);
    SplitNoSeparator(d, '-');
  }

  /** `/^\d{2}$/`. */
  predicate TwoDigits(s: string) {
    |s| == 2 && AllDigits(s)
  }

  /** `parseInt` of a field the format check has shown to be digits. */
  function FieldValue(s: string): nat {
    if AllDigits(s) then DecimalValue(s) else 0
  }

  /** The month of the middle field: its digits, or the number of its upper-cased abbreviation, or 0 (`undefined`). */
  function ParsedMonth(monthPart: string): int {
    if TwoDigits(monthPart) then FieldValue(monthPart)
    else if ToUpper(monthPart) in MonthToNumber then MonthToNumber[ToUpper(monthPart)]
    else 0
  }

  /**
   * `parseInputDate`: the format check, the split, the year range, the
   * month from its digits or its abbreviation, the day range, and the
   * `Date` round-trip check that rejects days past the end of the month.
   */
  function ParseInputDate(input: string): (r: Option<CalendarDate>)
    ensures !IsValidDateFormat(input) ==> r.None?
    ensures r.Some? ==> IsCalendarDate(r.value) && 1900 <= r.value.year <= 2100
  {
    if input == "" || !IsValidDateFormat(input) then None
    else
      var parts := Split(input, '-');
      if |parts| != 3 then None
      else
        var year := FieldValue(parts[0]);
        var monthPart := parts[1];
        var day := FieldValue(parts[2]);
        if year < 1900 || year > 2100 then None
        else
          var month := ParsedMonth(monthPart);
          if month == 0 then None
          else if month < 1 || month > 12 then None
          else if day < 1 || day > 31 then None
          else if day > DaysInMonth(year, month) then None
          else Some(CalendarDate(year, month, day))
  }

  /** The month an input's middle field names: its number, or the abbreviation's number. */
  function MonthOf(s: string): int
    requires NumericShape(s) || AlphaShape(s)
  {
    if NumericShape(s) then DecimalValue(s[5..7]) else MonthToNumber[s[5..8]]
  }

  /**
   * The parser accepts exactly the well-formed inputs that denote a day
   * of a year in 1900..2100, and returns that day.
   */
  lemma ParseInputDateSpec(s: string)
    ensures ParseInputDate(s).Some? <==>
      && (NumericShape(s) || AlphaShape(s))
      && 1900 <= DecimalValue(s[..4]) <= 2100
      && IsCalendarDate(CalendarDate(DecimalValue(s[..4]), MonthOf(s), DecimalValue(s[|s| - 2..])))
    ensures ParseInputDate(s).Some? ==>
      ParseInputDate(s).value == CalendarDate(DecimalValue(s[..4]), MonthOf(s), DecimalValue(s[|s| - 2..]))
  {
    if NumericShape(s) || AlphaShape(s) {
      SplitFields(s);
      MonthFieldValue(s);
    }
  }

  /** The middle field of a well-formed input parses to the month it names. */
  lemma MonthFieldValue(s: string)
    requires NumericShape(s) || AlphaShape(s)
    ensures ParsedMonth(s[5..|s| - 3]) == MonthOf(s)
  {
    var m := s[5..|s| - 3];
    if AlphaShape(s) {
      assert m == s[5..8];
      MonthKeyFacts(m);
      assert !TwoDigits(m);
    }
  }

  /** `day.toString().padStart(2, "0")`. */
  function PadDay(day: nat): (r: string)
    ensures |r| >= 2 && AllDigits(r)
  {
    var t := NatToString(day);
    if |t| < 2 then "0" + t else t
  }

  /** `formatToYYYYMMMDD`: year, month abbreviation and zero-padded day, joined by `-`. */
  function FormatToYYYYMMMDD(d: CalendarDate): (r: string)
    requires IsCalendarDate(d)
  {
    IntToString(d.year) + "-" + MonthsPtBr[d.month - 1] + "-" + PadDay(d.day)
  }

  /** A year of four digits renders as four digits. */
  lemma FourDigitYear(y: int)
    requires 1000 <= y < 10000
    ensures |IntToString(y)| == 4
  {
    var c := y / 10;
    var b := c / 10;
    var a := b / 10;
    assert 1 <= a < 10 && |NatToString(a)| == 1;
    NatToStringStep(a, b % 10);
    NatToStringStep(b, c % 10);
    NatToStringStep(c, y % 10);
  }

  /** Days of the month render as two digits whose value is the day. */
  lemma PadDayValue(day: int)
    requires 1 <= day <= 31
    ensures |PadDay(day)| == 2 && DecimalValue(PadDay(day)) == day
  {
    var t := NatToString(day);
    if day < 10 {
      assert t == [DigitChar(day)];
      var r := "0" + t;
      assert r[..1] == "0";
    } else {
      assert t == NatToString(day / 10) + [DigitChar(day % 10)];
    }
  }

  /** The formatted text of a day in 1900..2100 is in the abbreviated form, field by field. */
  lemma FormattedFields(d: CalendarDate)
    requires IsCalendarDate(d) && 1900 <= d.year <= 2100
    ensures var s := FormatToYYYYMMMDD(d);
      && AlphaShape(s)
      && DecimalValue(s[..4]) == d.year
      && s[5..8] == MonthsPtBr[d.month - 1]
      && DecimalValue(s[|s| - 2..]) == d.day
  {
    var y := IntToString(d.year);
    var abbr := MonthsPtBr[d.month - 1];
    assert |y| == 4 by {
      FourDigitYear(d.year);
    }
    assert |PadDay(d.day)| == 2 && DecimalValue(PadDay(d.day)) == d.day by {
      PadDayValue(d.day);
    }
    assert abbr in MonthToNumber && |abbr| == 3 by {
      MonthTablesInverse();
      MonthKeyFacts(abbr);
    }
    JoinedFields(y, abbr, PadDay(d.day));
  }

  /** The pieces of `y-m-d` with a four-character `y` and a three-character `m`. */
  lemma JoinedFields(y: string, m: string, d: string)
    requires |y| == 4 && |m| == 3
    ensures var s := y + "-" + m + "-" + d;
      && |s| == 9 + |d| && s[..4] == y && s[4] == '-' && s[5..8] == m && s[8] == '-' && s[9..] == d
  {
    var s := y + "-" + m + "-" + d;
    assert s == (y + "-") + (m + "-" + d);
    assert s[..4] == y;
    assert s[5..8] == m;
  }

  /** Formatting a day in 1900..2100 and parsing the text gives the day back. */
  lemma ParseFormatRoundTrip(d: CalendarDate)
    requires IsCalendarDate(d) && 1900 <= d.year <= 2100
    ensures ParseInputDate(FormatToYYYYMMMDD(d)) == Some(d)
  {
    var s := FormatToYYYYMMMDD(d);
    FormattedFields(d);
    MonthTablesInverse();
    ParseInputDateSpec(s);
  }

  /** A digit string that starts with a non-zero digit renders back to itself. */
  lemma {:induction false} CanonicalDigits(t: string)
    requires |t| >= 1 && AllDigits(t) && t[0] != '0'
    ensures DecimalValue(t) >= 1 && NatToString(DecimalValue(t)) == t
  {
    var n := |t|;
    if n == 1 {
      assert DecimalValue(t) == 10 * DecimalValue(t[..0]) + DigitValue(t[0]);
    } else {
      var p := t[..n - 1];
      var x := DecimalValue(p);
      var dg := DigitValue(t[n - 1]);
      CanonicalDigits(p);
      assert DecimalValue(t) == 10 * x + dg;
      NatToStringStep(x, dg);
      assert t == p + [t[n - 1]];
    }
  }

  /** A year field worth at least 1900 is the year's own rendering. */
  lemma YearFieldCanonical(yt: string)
    requires |yt| == 4 && AllDigits(yt) && DecimalValue(yt) >= 1900
    ensures IntToString(DecimalValue(yt)) == yt
  {
    FourDigitValue(yt);
    CanonicalDigits(yt);
  }

  /** A day field worth at least 1 is the day's padded rendering. */
  lemma DayFieldCanonical(dt: string)
    requires |dt| == 2 && AllDigits(dt) && DecimalValue(dt) >= 1
    ensures PadDay(DecimalValue(dt)) == dt
  {
    TwoDigitValue(dt);
    if dt[0] == '0' {
      CanonicalDigits(dt[1..]);
      assert DecimalValue(dt[1..]) == DigitValue(dt[1]);
      assert dt == "0" + dt[1..];
    } else {
      CanonicalDigits(dt);
    }
  }

  /**
   * Parsing and formatting again rewrites a numeric month as its
   * abbreviation and leaves the rest of the text as it was; an input with
   * an abbreviation comes back unchanged.
   */
  lemma FormatParseRoundTrip(s: string)
    requires ParseInputDate(s).Some?
    ensures var r := FormatToYYYYMMMDD(ParseInputDate(s).value);
      && r == s[..5] + MonthsPtBr[ParseInputDate(s).value.month - 1] + s[|s| - 3..]
      && (AlphaShape(s) ==> r == s)
  {
    ParseInputDateSpec(s);
    FormatFields(s, ParseInputDate(s).value);
  }

  /** Formatting the day a well-formed input denotes gives its text with the month abbreviated. */
  lemma FormatFields(s: string, d: CalendarDate)
    requires NumericShape(s) || AlphaShape(s)
    requires IsCalendarDate(d) && 1900 <= d.year
    requires d == CalendarDate(DecimalValue(s[..4]), MonthOf(s), DecimalValue(s[|s| - 2..]))
    ensures FormatToYYYYMMMDD(d) == s[..5] + MonthsPtBr[d.month - 1] + s[|s| - 3..]
    ensures AlphaShape(s) ==> FormatToYYYYMMMDD(d) == s
  {
    var n := |s|;
    var abbr := MonthsPtBr[d.month - 1];
    assert IntToString(d.year) == s[..4] by {
      YearFieldCanonical(s[..4]);
    }
    assert PadDay(d.day) == s[n - 2..] by {
      DayFieldCanonical(s[n - 2..]);
    }
    assert s[..5] + abbr + s[n - 3..] == s[..4] + "-" + abbr + "-" + s[n - 2..] by {
      assert s[..5] == s[..4] + "-";
      assert s[n - 3..] == "-" + s[n - 2..];
    }
    if AlphaShape(s) {
      assert abbr == s[5..8] by {
        MonthTablesInverse();
      }
      assert s == s[..5] + s[5..8] + s[8..];
    }
  }

  // Cases from the unit tests.

  lemma AcceptedLeapDay(s: string)
    requires s == "2024-02-29"
    ensures ParseInputDate(s) == Some(CalendarDate(2024, 2, 29))
  {
    ParseInputDateSpec(s);
    DigitExamples(s);
  }

  lemma TwoDigitValue(t: string)
    requires |t| == 2 && AllDigits(t)
    ensures DecimalValue(t) == 10 * DigitValue(t[0]) + DigitValue(t[1])
  {
    assert DecimalValue(t) == 10 * DecimalValue(t[..1]) + DigitValue(t[1]);
    assert t[..1][..0] == [];
    assert DecimalValue(t[..1]) == 10 * DecimalValue(t[..1][..0]) + DigitValue(t[0]);
  }

  lemma FourDigitValue(t: string)
    requires |t| == 4 && AllDigits(t)
    ensures DecimalValue(t) == 1000 * DigitValue(t[0]) + 100 * DigitValue(t[1]) + 10 * DigitValue(t[2]) + DigitValue(t[3])
  {
    assert t[..3][..2] == t[..2];
    TwoDigitValue(t[..2]);
  }

  /** The field values of a numeric-form input, digit by digit. */
  lemma DigitExamples(s: string)
    requires NumericShape(s)
    ensures DecimalValue(s[..4]) == 1000 * DigitValue(s[0]) + 100 * DigitValue(s[1]) + 10 * DigitValue(s[2]) + DigitValue(s[3])
    ensures DecimalValue(s[5..7]) == 10 * DigitValue(s[5]) + DigitValue(s[6])
    ensures DecimalValue(s[8..]) == 10 * DigitValue(s[8]) + DigitValue(s[9])
  {
    FourDigitValue(s[..4]);
    TwoDigitValue(s[5..7]);
    TwoDigitValue(s[8..]);
  }

  /** Days the calendar does not have: day 0, day 32, 31 April and 29 February of a common year. */
  lemma RejectedImpossibleDays(s: string)
    requires s == "2026-02-00" || s == "2026-02-32" || s == "2026-04-31" || s == "2026-02-29"
    ensures ParseInputDate(s).None?
  {
    ParseInputDateSpec(s);
    DigitExamples(s);
  }

  lemma RejectedEnglishMonth(s: string)
    requires s == "2026-FEB-15"
    ensures !IsValidDateFormat(s) && ParseInputDate(s).None?
  {
    assert s[5..8] == "FEB";
    assert !AllDigits(s[5..7]) by { assert s[5] == 'F'; }
  }

  lemma YearText(y: string)
    requires y == "2026"
    ensures NatToString(2026) == y
  {
    FourDigitValue(y);
    CanonicalDigits(y);
  }

  lemma FormattedExample(d: CalendarDate)
    requires d == CalendarDate(2026, 2, 15)
    ensures FormatToYYYYMMMDD(d) == "2026-FEV-15"
  {
    YearText("2026");
    assert NatToString(15) == NatToString(1) + [DigitChar(5)];
  }

  lemma PaddedExample(d: CalendarDate)
    requires d == CalendarDate(2026, 3, 5)
    ensures FormatToYYYYMMMDD(d) == "2026-MAR-05"
  {
    YearText("2026");
  }
}

=== FILE: legacy.dfy ===
/**
 * The legacy-data migration (src/db/migrations.ts): free-text series
 * names and lesson titles become deduplicated series and topic rows, and
 * every lesson without a topic is linked to one. Each step is a function
 * from store to store; uuids come from an injected supply `mint`, read
 * from position `next` on.
 */
module Legacy {
  import opened Wrappers
  import opened Strings
  import opened Text
  import opened Assoc
  import opened Store

  /** JavaScript `a || b` where `a` is a string or undefined: `""` is falsy too. */
  function OrElse(a: Option<string>, b: string): (r: string)
    ensures a.Some? && a.value != "" ==> r == a.value
    ensures a.None? || a.value == "" ==> r == b
  {
    if a.Some? && a.value != "" then a.value else b
  }

  function MapGet<K, V>(m: map<K, V>, k: K): Option<V> {
    if k in m then Some(m[k]) else None
  }

  /** The canonical key of a series name: `normalizeText(extractSeriesCode(name))`. */
  function SeriesKey(name: string): string {
    NormalizeText(Some(ExtractSeriesCode(Some(name))))
  }

  // ---------------------------------------------------------------------------
  // Step 1: extractUniqueSeries

  /** A series draft: what step 1 collects for one code. */
  datatype SeriesDraft = SeriesDraft(code: string, title: string)

  /** The rows `SELECT DISTINCT series_name ... WHERE series_name IS NOT NULL AND series_name != ''` returns. */
  predicate NamesSeries(l: Lesson) {
    l.seriesName.Some? && l.seriesName.value != ""
  }

  /** The key step 1 files a row under; `series_name || ''` as step 3 and step 5 write it. */
  function RowSeriesKey(l: Lesson): string {
    SeriesKey(OrElse(l.seriesName, ""))
  }

  function RowSeriesDraft(l: Lesson): SeriesDraft {
    SeriesDraft(RowSeriesKey(l), ExtractSeriesTitle(l.seriesName))
  }

  /**
   * One draft per series key, in order of first appearance. DISTINCT only
   * removes repeats, which the first-wins loop ignores anyway, so visiting
   * every row in table order gives the same map.
   */
  function ExtractUniqueSeries(rows: seq<Lesson>): seq<(string, SeriesDraft)> {
    FirstByKey(rows, NamesSeries, RowSeriesKey, RowSeriesDraft)
  }

  /**
   * Exactly one entry per key of a non-empty series name; each entry's code
   * is its key, and its title is `extractSeriesTitle` of the first name with
   * that key.
   */
  lemma ExtractUniqueSeriesSpec(rows: seq<Lesson>)
    ensures UniqueKeys(ExtractUniqueSeries(rows))
    ensures forall k :: HasKey(ExtractUniqueSeries(rows), k) <==>
      exists i :: 0 <= i < |rows| && NamesSeries(rows[i]) && SeriesKey(rows[i].seriesName.value) == k
    ensures forall e :: e in ExtractUniqueSeries(rows) ==> e.1.code == e.0
    ensures forall i :: FirstOfKey(rows, NamesSeries, RowSeriesKey, i) ==>
      Get(ExtractUniqueSeries(rows), SeriesKey(rows[i].seriesName.value))
        == Some(SeriesDraft(SeriesKey(rows[i].seriesName.value), ExtractSeriesTitle(rows[i].seriesName)))
  {
    FirstByKeyKeys(rows, NamesSeries, RowSeriesKey, RowSeriesDraft);
    FirstByKeyEntries(rows, NamesSeries, RowSeriesKey, RowSeriesDraft);
    forall i | FirstOfKey(rows, NamesSeries, RowSeriesKey, i)
      ensures Get(ExtractUniqueSeries(rows), SeriesKey(rows[i].seriesName.value))
        == Some(SeriesDraft(SeriesKey(rows[i].seriesName.value), ExtractSeriesTitle(rows[i].seriesName)))
    {
      FirstByKeyFirstWins(rows, NamesSeries, RowSeriesKey, RowSeriesDraft, i);
    }
  }

  // ---------------------------------------------------------------------------
  // Step 2: createSeriesRecords

  /** The state of the series loop: the table, the code-to-id map, the next uuid, and an error once thrown. */
  datatype SeriesPass = SeriesPass(series: seq<Series>, codeToId: map<string, string>, next: nat, failure: Option<string>)

  /**
   * For each draft in order: reuse the series with that code, or insert a
   * new one under a fresh uuid. An insert whose uuid is already a series id
   * fails the primary key, and the loop stops there (rows inserted so far stay).
   */
  function CreateSeriesRecords(series: seq<Series>, drafts: seq<(string, SeriesDraft)>, mint: nat -> string, next: nat): (p: SeriesPass)
    ensures |series| <= |p.series| && p.series[..|series|] == series
    ensures next <= p.next
    ensures forall i :: |series| <= i < |p.series| ==> p.series[i].description.None? && Minted(mint, next, p.next, p.series[i].id)
    ensures SeriesFromDrafts(p.series, |series|, drafts)
  {
    if |drafts| == 0 then SeriesPass(series, map[], next, None)
    else
      var p := CreateSeriesRecords(series, drafts[..|drafts| - 1], mint, next);
      var key := drafts[|drafts| - 1].0;
      var d := drafts[|drafts| - 1].1;
      var q :=
        if p.failure.Some? then p
        else
          match FindSeriesByCode(p.series, d.code)
          case Some(id) => p.(codeToId := p.codeToId[key := id])
          case None =>
            var id := mint(p.next);
            if SeriesIdTaken(p.series, id) then p.(next := p.next + 1, failure := Some("UNIQUE constraint failed: lesson_series.id"))
            else SeriesPass(p.series + [Series(id, d.code, d.title, None)], p.codeToId[key := id], p.next + 1, None);
      SeriesFromDraftsStep(p.series, q.series, |series|, drafts);
      q
  }

  /** Series `s` carries the code and the title of one of the drafts. */
  predicate DraftedSeries(drafts: seq<(string, SeriesDraft)>, s: Series) {
    exists j :: 0 <= j < |drafts| && drafts[j].1 == SeriesDraft(s.code, s.title)
  }

  /**
   * Every series of `ss` from position `n` on carries a draft's code and
   * title, and its code was not in the table when it was inserted.
   */
  predicate SeriesFromDrafts(ss: seq<Series>, n: int, drafts: seq<(string, SeriesDraft)>) {
    forall i :: 0 <= n <= i < |ss| ==> DraftedSeries(drafts, ss[i]) && !SeriesCodeTaken(ss[..i], ss[i].code)
  }

  /** One more draft, and at most one series appended for it under a code not yet taken. */
  lemma SeriesFromDraftsStep(ss: seq<Series>, us: seq<Series>, n: int, drafts: seq<(string, SeriesDraft)>)
    requires |drafts| > 0 && SeriesFromDrafts(ss, n, drafts[..|drafts| - 1])
    requires |ss| <= |us| <= |ss| + 1 && us[..|ss|] == ss
    requires |us| > |ss| ==>
      us[|ss|].code == drafts[|drafts| - 1].1.code && us[|ss|].title == drafts[|drafts| - 1].1.title
      && !SeriesCodeTaken(ss, us[|ss|].code)
    ensures SeriesFromDrafts(us, n, drafts)
  {
    var init := drafts[..|drafts| - 1];
    forall i | 0 <= n <= i < |us| ensures DraftedSeries(drafts, us[i]) && !SeriesCodeTaken(us[..i], us[i].code) {
      if i < |ss| {
        assert us[i] == ss[i] && us[..i] == ss[..i] by {
          assert us[..|ss|][i] == us[i];
          assert us[..|ss|][..i] == us[..i];
        }
        assert DraftedSeries(init, ss[i]);
        var j :| 0 <= j < |init| && init[j].1 == SeriesDraft(ss[i].code, ss[i].title);
        assert drafts[j] == init[j];
      } else {
        assert us[..i] == ss;
        assert drafts[|drafts| - 1].1 == SeriesDraft(us[i].code, us[i].title);
      }
    }
  }

  /** `id` is one of the uuids drawn from positions `from` to `to` (exclusive) of the supply. */
  ghost predicate Minted(mint: nat -> string, from: nat, to: nat, id: string) {
    exists n: nat :: from <= n < to && mint(n) == id
  }

  /** Inserting series keeps the primary key and the UNIQUE code constraint. */
  lemma {:induction false} CreateSeriesKeepsConstraints(series: seq<Series>, drafts: seq<(string, SeriesDraft)>, mint: nat -> string, next: nat)
    requires UniqueSeriesIds(series) && UniqueSeriesCodes(series)
    ensures UniqueSeriesIds(CreateSeriesRecords(series, drafts, mint, next).series)
    ensures UniqueSeriesCodes(CreateSeriesRecords(series, drafts, mint, next).series)
  {
    if |drafts| > 0 {
      var init := drafts[..|drafts| - 1];
      var p := CreateSeriesRecords(series, init, mint, next);
      CreateSeriesKeepsConstraints(series, init, mint, next);
      if p.failure.None? {
        var d := drafts[|drafts| - 1].1;
        var id := mint(p.next);
        if FindSeriesByCode(p.series, d.code).None? && !SeriesIdTaken(p.series, id) {
          var s := p.series + [Series(id, d.code, d.title, None)];
          forall i, j | 0 <= i < j < |s| ensures s[i].id != s[j].id && s[i].code != s[j].code {
            if j == |p.series| {
              assert s[i] == p.series[i];
            }
          }
        }
      }
    }
  }

  predicate SeriesWith(series: seq<Series>, id: string, code: string) {
    exists i :: 0 <= i < |series| && series[i].id == id && series[i].code == code
  }

  /** A pass that did not fail maps exactly the draft keys. */
  lemma {:induction false} CreateSeriesMapsEveryKey(series: seq<Series>, drafts: seq<(string, SeriesDraft)>, mint: nat -> string, next: nat)
    ensures var p := CreateSeriesRecords(series, drafts, mint, next);
      p.failure.None? ==> forall k :: k in p.codeToId <==> HasKey(drafts, k)
  {
    var p := CreateSeriesRecords(series, drafts, mint, next);
    if |drafts| > 0 && p.failure.None? {
      CreateSeriesMapsEveryKey(series, drafts[..|drafts| - 1], mint, next);
      GetLast(drafts);
    }
  }

  /** ... and maps each key to the id of a series in the table that has the draft's code. */
  lemma {:induction false} CreateSeriesMapsToCode(series: seq<Series>, drafts: seq<(string, SeriesDraft)>, mint: nat -> string, next: nat)
    ensures var p := CreateSeriesRecords(series, drafts, mint, next);
      p.failure.None? ==> forall k :: k in p.codeToId ==> HasKey(drafts, k) && SeriesWith(p.series, p.codeToId[k], Get(drafts, k).value.code)
  {
    var p := CreateSeriesRecords(series, drafts, mint, next);
    if |drafts| > 0 && p.failure.None? {
      var init := drafts[..|drafts| - 1];
      var q := CreateSeriesRecords(series, init, mint, next);
      CreateSeriesMapsToCode(series, init, mint, next);
      GetLast(drafts);
      var key := drafts[|drafts| - 1].0;
      var d := drafts[|drafts| - 1].1;
      forall k | k in q.codeToId && k != key ensures SeriesWith(p.series, p.codeToId[k], Get(drafts, k).value.code) {
        var i :| 0 <= i < |q.series| && q.series[i].id == q.codeToId[k] && q.series[i].code == Get(init, k).value.code;
        assert p.series[i] == q.series[i];
      }
      assert SeriesWith(p.series, p.codeToId[key], d.code) by {
        var found := FindSeriesByCode(q.series, d.code);
        if found.Some? {
          var i :| 0 <= i < |q.series| && q.series[i].code == d.code && q.series[i].id == found.value;
          assert p.series[i] == q.series[i];
        } else {
          assert p.series[|q.series|].id == p.codeToId[key];
        }
      }
    }
  }

  /** A draft whose code a series already had before the pass gets that series' id. */
  lemma CreateSeriesReusesExisting(series: seq<Series>, drafts: seq<(string, SeriesDraft)>, mint: nat -> string, next: nat, k: string)
    requires UniqueSeriesIds(series) && UniqueSeriesCodes(series)
    requires HasKey(drafts, k) && SeriesCodeTaken(series, Get(drafts, k).value.code)
    ensures var p := CreateSeriesRecords(series, drafts, mint, next);
      p.failure.None? ==> k in p.codeToId && p.codeToId[k] == FindSeriesByCode(series, Get(drafts, k).value.code).value
  {
    var p := CreateSeriesRecords(series, drafts, mint, next);
    if p.failure.None? {
      var code := Get(drafts, k).value.code;
      assert k in p.codeToId by {
        CreateSeriesMapsEveryKey(series, drafts, mint, next);
      }
      assert SeriesWith(p.series, p.codeToId[k], code) by {
        CreateSeriesMapsToCode(series, drafts, mint, next);
      }
      assert UniqueSeriesCodes(p.series) by {
        CreateSeriesKeepsConstraints(series, drafts, mint, next);
      }
      var i :| 0 <= i < |p.series| && p.series[i].id == p.codeToId[k] && p.series[i].code == code;
      var j :| 0 <= j < |series| && series[j].code == code && series[j].id == FindSeriesByCode(series, code).value;
      assert p.series[j] == series[j] by {
        assert p.series[..|series|][j] == p.series[j];
      }
      assert i == j;
    }
  }

  /** Uuids drawn from position `next` on are pairwise distinct. */
  ghost predicate DistinctFrom(mint: nat -> string, next: nat) {
    forall n: nat, m: nat :: next <= n < m ==> mint(n) != mint(m)
  }

  /** With uuids that are distinct and no series id yet, the series pass never fails. */
  lemma {:induction false} CreateSeriesSucceeds(series: seq<Series>, drafts: seq<(string, SeriesDraft)>, mint: nat -> string, next: nat)
    requires DistinctFrom(mint, next)
    requires forall n: nat :: next <= n ==> !SeriesIdTaken(series, mint(n))
    ensures CreateSeriesRecords(series, drafts, mint, next).failure.None?
  {
    if |drafts| > 0 {
      var init := drafts[..|drafts| - 1];
      var q := CreateSeriesRecords(series, init, mint, next);
      CreateSeriesSucceeds(series, init, mint, next);
      var id := mint(q.next);
      assert !SeriesIdTaken(q.series, id) by {
        forall i | 0 <= i < |q.series| ensures q.series[i].id != id {
          if i < |series| {
            assert q.series[i] == series[i];
          } else {
            assert Minted(mint, next, q.next, q.series[i].id);
            var n: nat :| next <= n < q.next && mint(n) == q.series[i].id;
          }
        }
      }
    }
  }

  // ---------------------------------------------------------------------------
  // Step 3: extractUniqueTopics

  /** A topic key: the resolved series id and the canonical title (joined with `|` in the source). */
  datatype TopicKey = TopicKey(seriesId: string, normalizedTitle: string)

  /** A topic draft: the series it belongs to and the trimmed title of its first lesson. */
  datatype TopicDraft = TopicDraft(seriesId: string, title: string)

  /** The rows `SELECT DISTINCT ... WHERE lesson_title IS NOT NULL AND lesson_title != ''` returns. */
  predicate HasTitle(l: Lesson) {
    l.lessonTitle.Some? && l.lessonTitle.value != ""
  }

  /** `seriesCodeToId.get(normalizeText(extractSeriesCode(series_name || ''))) || DEFAULT_SERIES_ID`. */
  function ResolveSeriesId(codeToId: map<string, string>, l: Lesson): string {
    OrElse(MapGet(codeToId, RowSeriesKey(l)), DefaultSeriesId)
  }

  function RowTopicKey(codeToId: map<string, string>, l: Lesson): TopicKey {
    TopicKey(ResolveSeriesId(codeToId, l), NormalizeText(l.lessonTitle))
  }

  function RowTopicDraft(codeToId: map<string, string>, l: Lesson): TopicDraft {
    TopicDraft(ResolveSeriesId(codeToId, l), Trim(l.lessonTitle.GetOr("")))
  }

  function TopicKeyOf(codeToId: map<string, string>): Lesson -> TopicKey {
    l => RowTopicKey(codeToId, l)
  }

  function TopicDraftOf(codeToId: map<string, string>): Lesson -> TopicDraft {
    l => RowTopicDraft(codeToId, l)
  }

  /** One draft per topic key, in order of first appearance. */
  function ExtractUniqueTopics(rows: seq<Lesson>, codeToId: map<string, string>): seq<(TopicKey, TopicDraft)> {
    FirstByKey(rows, HasTitle, TopicKeyOf(codeToId), TopicDraftOf(codeToId))
  }

  /**
   * Exactly one entry per key of a titled row; each entry's draft belongs to
   * the key's series, and its title is the trimmed title of the first row
   * with that key.
   */
  lemma ExtractUniqueTopicsSpec(rows: seq<Lesson>, codeToId: map<string, string>)
    ensures UniqueKeys(ExtractUniqueTopics(rows, codeToId))
    ensures forall k :: HasKey(ExtractUniqueTopics(rows, codeToId), k) <==>
      exists i :: 0 <= i < |rows| && HasTitle(rows[i]) && RowTopicKey(codeToId, rows[i]) == k
    ensures forall e :: e in ExtractUniqueTopics(rows, codeToId) ==>
      e.1.seriesId == e.0.seriesId && NormalizeText(Some(e.1.title)) == e.0.normalizedTitle
    ensures forall i :: FirstOfKey(rows, HasTitle, TopicKeyOf(codeToId), i) ==>
      Get(ExtractUniqueTopics(rows, codeToId), RowTopicKey(codeToId, rows[i]))
        == Some(TopicDraft(ResolveSeriesId(codeToId, rows[i]), Trim(rows[i].lessonTitle.value)))
  {
    FirstByKeyKeys(rows, HasTitle, TopicKeyOf(codeToId), TopicDraftOf(codeToId));
    FirstByKeyEntries(rows, HasTitle, TopicKeyOf(codeToId), TopicDraftOf(codeToId));
    forall e | e in ExtractUniqueTopics(rows, codeToId) ensures NormalizeText(Some(e.1.title)) == e.0.normalizedTitle {
      var i :| 0 <= i < |rows| && HasTitle(rows[i]) && e == (RowTopicKey(codeToId, rows[i]), RowTopicDraft(codeToId, rows[i]));
      NormalizeTrim(rows[i].lessonTitle.value);
    }
    forall i | FirstOfKey(rows, HasTitle, TopicKeyOf(codeToId), i)
      ensures Get(ExtractUniqueTopics(rows, codeToId), RowTopicKey(codeToId, rows[i]))
        == Some(TopicDraft(ResolveSeriesId(codeToId, rows[i]), Trim(rows[i].lessonTitle.value)))
    {
      FirstByKeyFirstWins(rows, HasTitle, TopicKeyOf(codeToId), TopicDraftOf(codeToId), i);
    }
  }

  // ---------------------------------------------------------------------------
  // Step 4: createTopicRecords

  /** The state of the topic loop: the table, the key-to-id map, the per-series counter, the next uuid, and an error once thrown. */
  datatype TopicPass = TopicPass(topics: seq<Topic>, keyToId: map<TopicKey, string>, sequence: map<string, int>, next: nat, failure: Option<string>)

  /** `(seriesSequence.get(seriesId) || 0) + 1`. */
  function NextOrder(sequence: map<string, int>, seriesId: string): int {
    (if seriesId in sequence && sequence[seriesId] != 0 then sequence[seriesId] else 0) + 1
  }

  /**
   * For each draft in order: reuse a topic of the same series whose title
   * has the draft title's normal form (the corrected lookup, FindTopic), or insert a new
   * topic under a fresh uuid with the series' next sequence number. A
   * primary-key clash on the uuid fails the pass.
   */
  function CreateTopicRecords(topics: seq<Topic>, drafts: seq<(TopicKey, TopicDraft)>, mint: nat -> string, next: nat): (p: TopicPass)
    ensures |topics| <= |p.topics| && p.topics[..|topics|] == topics
    ensures next <= p.next
    ensures forall i :: |topics| <= i < |p.topics| ==> p.topics[i].suggestedDate.None? && Minted(mint, next, p.next, p.topics[i].id)
    ensures TopicsFromDrafts(p.topics, |topics|, drafts)
  {
    if |drafts| == 0 then TopicPass(topics, map[], map[], next, None)
    else
      var p := CreateTopicRecords(topics, drafts[..|drafts| - 1], mint, next);
      var d := drafts[|drafts| - 1].1;
      var q := VisitTopic(p, drafts[|drafts| - 1].0, d, NormalizeText(Some(d.title)), mint);
      TopicPassGrows(topics, p, q, mint, next);
      TopicsFromDraftsStep(p.topics, q.topics, |topics|, drafts);
      q
  }

  /** Topic `t` carries the series and the title of one of the drafts. */
  predicate DraftedTopic(drafts: seq<(TopicKey, TopicDraft)>, t: Topic) {
    exists j :: 0 <= j < |drafts| && drafts[j].1 == TopicDraft(t.seriesId, t.title)
  }

  /**
   * Every topic of `ts` from position `n` on carries a draft's series and
   * title, and no topic before it matched that series and title when it
   * was inserted.
   */
  predicate TopicsFromDrafts(ts: seq<Topic>, n: int, drafts: seq<(TopicKey, TopicDraft)>) {
    forall i :: 0 <= n <= i < |ts| ==>
      DraftedTopic(drafts, ts[i]) && !HasTopicMatch(ts[..i], ts[i].seriesId, NormalizeText(Some(ts[i].title)))
  }

  /** One more draft, and at most one topic appended for it when the lookup found none. */
  lemma TopicsFromDraftsStep(ts: seq<Topic>, us: seq<Topic>, n: int, drafts: seq<(TopicKey, TopicDraft)>)
    requires |drafts| > 0 && TopicsFromDrafts(ts, n, drafts[..|drafts| - 1])
    requires |ts| <= |us| <= |ts| + 1 && us[..|ts|] == ts
    requires |us| > |ts| ==>
      us[|ts|].seriesId == drafts[|drafts| - 1].1.seriesId && us[|ts|].title == drafts[|drafts| - 1].1.title
      && !HasTopicMatch(ts, us[|ts|].seriesId, NormalizeText(Some(us[|ts|].title)))
    ensures TopicsFromDrafts(us, n, drafts)
  {
    var init := drafts[..|drafts| - 1];
    forall i | 0 <= n <= i < |us|
      ensures DraftedTopic(drafts, us[i]) && !HasTopicMatch(us[..i], us[i].seriesId, NormalizeText(Some(us[i].title)))
    {
      if i < |ts| {
        assert us[i] == ts[i] && us[..i] == ts[..i] by {
          assert us[..|ts|][i] == us[i];
          assert us[..|ts|][..i] == us[..i];
        }
        assert DraftedTopic(init, ts[i]);
        var j :| 0 <= j < |init| && init[j].1 == TopicDraft(ts[i].seriesId, ts[i].title);
        assert drafts[j] == init[j];
      } else {
        assert us[..i] == ts;
        assert drafts[|drafts| - 1].1 == TopicDraft(us[i].seriesId, us[i].title);
      }
    }
  }

  /** A step that appends at most one topic, under the uuid it draws, keeps the created topics drawn from the supply. */
  lemma TopicPassGrows(topics: seq<Topic>, p: TopicPass, q: TopicPass, mint: nat -> string, next: nat)
    requires |topics| <= |p.topics| && p.topics[..|topics|] == topics
    requires |p.topics| <= |q.topics| <= |p.topics| + 1 && q.topics[..|p.topics|] == p.topics
    requires next <= p.next <= q.next
    requires forall i :: |topics| <= i < |p.topics| ==> p.topics[i].suggestedDate.None? && Minted(mint, next, p.next, p.topics[i].id)
    requires |q.topics| > |p.topics| ==>
      q.topics[|p.topics|].suggestedDate.None? && q.topics[|p.topics|].id == mint(p.next) && q.next == p.next + 1
    ensures |topics| <= |q.topics| && q.topics[..|topics|] == topics
    ensures forall i :: |topics| <= i < |q.topics| ==> q.topics[i].suggestedDate.None? && Minted(mint, next, q.next, q.topics[i].id)
  {
    forall i | |topics| <= i < |q.topics| ensures q.topics[i].suggestedDate.None? && Minted(mint, next, q.next, q.topics[i].id) {
      if i < |p.topics| {
        assert q.topics[i] == q.topics[..|p.topics|][i];
        var n: nat :| next <= n < p.next && mint(n) == p.topics[i].id;
        assert next <= n < q.next && mint(n) == q.topics[i].id;
      } else {
        assert next <= p.next < q.next && mint(p.next) == q.topics[i].id;
      }
    }
    assert q.topics[..|topics|] == q.topics[..|p.topics|][..|topics|];
  }

  /** One iteration of the topic loop; `normalized` is `normalizeText(topic.title)`. */
  function VisitTopic(p: TopicPass, key: TopicKey, d: TopicDraft, normalized: string, mint: nat -> string): (q: TopicPass)
    ensures p.failure.Some? ==> q == p
    ensures |p.topics| <= |q.topics| <= |p.topics| + 1 && q.topics[..|p.topics|] == p.topics
    ensures q.next == p.next || q.next == p.next + 1
    ensures |q.topics| > |p.topics| ==> q.topics[|p.topics|].suggestedDate.None? && q.topics[|p.topics|].id == mint(p.next) && q.next == p.next + 1
    ensures |q.topics| > |p.topics| ==>
      q.topics[|p.topics|].seriesId == d.seriesId && q.topics[|p.topics|].title == d.title
      && !HasTopicMatch(p.topics, d.seriesId, normalized)
    ensures q.failure.None? && |q.topics| > |p.topics| ==>
      var order := NextOrder(p.sequence, d.seriesId);
      q.topics == p.topics + [Topic(mint(p.next), d.seriesId, d.title, None, order)] && q.sequence == p.sequence[d.seriesId := order]
    ensures q.failure.None? && |q.topics| == |p.topics| ==> q.topics == p.topics && q.sequence == p.sequence
  {
    if p.failure.Some? then p
    else
      match FindTopic(p.topics, d.seriesId, normalized)
      case Some(id) => p.(keyToId := p.keyToId[key := id])
      case None =>
        var order := NextOrder(p.sequence, d.seriesId);
        var id := mint(p.next);
        if TopicIdTaken(p.topics, id) then p.(next := p.next + 1, failure := Some("UNIQUE constraint failed: lesson_topics.id"))
        else TopicPass(p.topics + [Topic(id, d.seriesId, d.title, None, order)], p.keyToId[key := id], p.sequence[d.seriesId := order], p.next + 1, None)
  }

  /** How many topics of `ts` belong to series `seriesId`. */
  function CountInSeries(ts: seq<Topic>, seriesId: string): nat {
    if |ts| == 0 then 0
    else CountInSeries(ts[..|ts| - 1], seriesId) + (if ts[|ts| - 1].seriesId == seriesId then 1 else 0)
  }

  /** The topics a pass inserted. */
  function Created(topics: seq<Topic>, p: TopicPass): seq<Topic>
    requires |topics| <= |p.topics|
  {
    p.topics[|topics|..]
  }

  /** The counter holds, per series, how many topics the pass has created for it. */
  ghost predicate CountsCreated(topics: seq<Topic>, p: TopicPass)
    requires |topics| <= |p.topics|
  {
    forall s :: (if s in p.sequence then p.sequence[s] else 0) == CountInSeries(Created(topics, p), s)
  }

  /** The k-th topic created for a series carries sequence number k. */
  ghost predicate DenseOrders(created: seq<Topic>) {
    forall i :: 0 <= i < |created| ==> created[i].sequenceOrder == CountInSeries(created[..i], created[i].seriesId) + 1
  }

  lemma CountSnoc(c: seq<Topic>, t: Topic)
    ensures forall s :: CountInSeries(c + [t], s) == CountInSeries(c, s) + (if t.seriesId == s then 1 else 0)
  {
    assert (c + [t])[..|c|] == c;
  }

  lemma DenseSnoc(c: seq<Topic>, t: Topic)
    requires DenseOrders(c)
    requires t.sequenceOrder == CountInSeries(c, t.seriesId) + 1
    ensures DenseOrders(c + [t])
  {
    var e := c + [t];
    assert e[..|c|] == c;
    forall i | 0 <= i < |c| ensures e[i] == c[i] && e[..i] == c[..i] {}
  }

  lemma VisitTopicKeepsCounts(topics: seq<Topic>, p: TopicPass, key: TopicKey, d: TopicDraft, normalized: string, mint: nat -> string)
    requires |topics| <= |p.topics| && p.failure.None?
    requires CountsCreated(topics, p)
    ensures var q := VisitTopic(p, key, d, normalized, mint);
      q.failure.None? ==> CountsCreated(topics, q)
  {
    var q := VisitTopic(p, key, d, normalized, mint);
    if q.failure.None? && |q.topics| > |p.topics| {
      var c := Created(topics, p);
      var t := q.topics[|p.topics|];
      assert Created(topics, q) == c + [t];
      CountSnoc(c, t);
    }
  }

  lemma VisitTopicKeepsDensity(topics: seq<Topic>, p: TopicPass, key: TopicKey, d: TopicDraft, normalized: string, mint: nat -> string)
    requires |topics| <= |p.topics| && p.failure.None?
    requires CountsCreated(topics, p) && DenseOrders(Created(topics, p))
    ensures var q := VisitTopic(p, key, d, normalized, mint);
      q.failure.None? ==> DenseOrders(Created(topics, q))
  {
    var q := VisitTopic(p, key, d, normalized, mint);
    if q.failure.None? && |q.topics| > |p.topics| {
      var c := Created(topics, p);
      var t := q.topics[|p.topics|];
      assert Created(topics, q) == c + [t];
      assert t.sequenceOrder == CountInSeries(c, t.seriesId) + 1;
      DenseSnoc(c, t);
    }
  }

  /**
   * Sequence numbers are dense per series: the k-th topic the pass creates
   * for a series gets number k, in creation order. Reused topics take no
   * number.
   */
  lemma {:induction false} CreateTopicsNumbersDensely(topics: seq<Topic>, drafts: seq<(TopicKey, TopicDraft)>, mint: nat -> string, next: nat)
    ensures var p := CreateTopicRecords(topics, drafts, mint, next);
      p.failure.None? ==> CountsCreated(topics, p) && DenseOrders(Created(topics, p))
  {
    if |drafts| > 0 {
      var q := CreateTopicRecords(topics, drafts[..|drafts| - 1], mint, next);
      CreateTopicsNumbersDensely(topics, drafts[..|drafts| - 1], mint, next);
      if q.failure.None? {
        var d := drafts[|drafts| - 1].1;
        VisitTopicKeepsCounts(topics, q, drafts[|drafts| - 1].0, d, NormalizeText(Some(d.title)), mint);
        VisitTopicKeepsDensity(topics, q, drafts[|drafts| - 1].0, d, NormalizeText(Some(d.title)), mint);
      }
    }
  }

  /**
   * The pass never inserts a topic whose series and normalised title an
   * earlier topic already has, so it keeps topic titles unique per series.
   */
  lemma CreateTopicsKeepsTitlesUnique(topics: seq<Topic>, drafts: seq<(TopicKey, TopicDraft)>, mint: nat -> string, next: nat)
    requires UniqueTopicTitles(topics)
    ensures UniqueTopicTitles(CreateTopicRecords(topics, drafts, mint, next).topics)
  {
    var ts := CreateTopicRecords(topics, drafts, mint, next).topics;
    forall i, j | 0 <= i < j < |ts| && ts[i].seriesId == ts[j].seriesId
      ensures NormalizeText(Some(ts[i].title)) != NormalizeText(Some(ts[j].title))
    {
      assert ts[..|topics|] == topics;
      if j < |topics| {
        assert ts[i] == topics[i] && ts[j] == topics[j] by {
          assert ts[..|topics|][i] == ts[i] && ts[..|topics|][j] == ts[j];
        }
      } else {
        assert !HasTopicMatch(ts[..j], ts[j].seriesId, NormalizeText(Some(ts[j].title)));
        assert ts[..j][i] == ts[i];
      }
    }
  }

  /** Topic `id` is in `topics`, in the draft's series, with a title that normalises to the draft's. */
  predicate TopicFor(topics: seq<Topic>, id: string, d: TopicDraft) {
    exists i :: 0 <= i < |topics| && topics[i].id == id && TopicMatches(topics[i], d.seriesId, NormalizeText(Some(d.title)))
  }

  lemma VisitTopicMaps(p: TopicPass, key: TopicKey, d: TopicDraft, normalized: string, mint: nat -> string)
    requires p.failure.None? && normalized == NormalizeText(Some(d.title))
    ensures var q := VisitTopic(p, key, d, normalized, mint);
      q.failure.None? ==>
        && q.keyToId.Keys == p.keyToId.Keys + {key}
        && TopicFor(q.topics, q.keyToId[key], d)
        && (forall k :: k in p.keyToId && k != key ==> q.keyToId[k] == p.keyToId[k])
  {
    var q := VisitTopic(p, key, d, normalized, mint);
    var found := FindTopic(p.topics, d.seriesId, normalized);
    if found.Some? {
      VisitTopicFindsMatch(p, key, d, normalized, mint);
      assert q.keyToId == p.keyToId[key := found.value];
    } else {
      VisitTopicInserts(p, key, d, normalized, mint);
      assert q.failure.None? ==> q.keyToId == p.keyToId[key := mint(p.next)];
    }
  }

  lemma VisitTopicFindsMatch(p: TopicPass, key: TopicKey, d: TopicDraft, normalized: string, mint: nat -> string)
    requires p.failure.None? && normalized == NormalizeText(Some(d.title))
    requires FindTopic(p.topics, d.seriesId, normalized).Some?
    ensures var q := VisitTopic(p, key, d, normalized, mint);
      && q.failure.None?
      && q.keyToId == p.keyToId[key := FindTopic(p.topics, d.seriesId, normalized).value]
      && TopicFor(q.topics, q.keyToId[key], d)
  {
    var q := VisitTopic(p, key, d, normalized, mint);
    var found := FindTopic(p.topics, d.seriesId, normalized);
    assert q == p.(keyToId := p.keyToId[key := found.value]);
    var i :| 0 <= i < |p.topics| && TopicMatches(p.topics[i], d.seriesId, normalized) && p.topics[i].id == found.value;
    assert q.topics[i].id == q.keyToId[key];
  }

  lemma VisitTopicInserts(p: TopicPass, key: TopicKey, d: TopicDraft, normalized: string, mint: nat -> string)
    requires p.failure.None? && normalized == NormalizeText(Some(d.title))
    requires FindTopic(p.topics, d.seriesId, normalized).None?
    ensures var q := VisitTopic(p, key, d, normalized, mint);
      q.failure.None? ==>
        && q.keyToId == p.keyToId[key := mint(p.next)]
        && TopicFor(q.topics, q.keyToId[key], d)
  {
    var q := VisitTopic(p, key, d, normalized, mint);
    if q.failure.None? {
      var t := Topic(mint(p.next), d.seriesId, d.title, None, NextOrder(p.sequence, d.seriesId));
      assert q == TopicPass(p.topics + [t], p.keyToId[key := t.id], p.sequence[d.seriesId := t.sequenceOrder], p.next + 1, None);
      assert q.topics[|p.topics|] == t;
    }
  }

  /**
   * A pass that did not fail maps exactly the draft keys, each to a topic of
   * the draft's series whose title is the draft's or matches it.
   */
  lemma {:induction false} CreateTopicsMapsEveryKey(topics: seq<Topic>, drafts: seq<(TopicKey, TopicDraft)>, mint: nat -> string, next: nat)
    ensures var p := CreateTopicRecords(topics, drafts, mint, next);
      p.failure.None? ==>
        && (forall k :: k in p.keyToId <==> HasKey(drafts, k))
        && (forall k :: k in p.keyToId ==> HasKey(drafts, k) && TopicFor(p.topics, p.keyToId[k], Get(drafts, k).value))
  {
    var p := CreateTopicRecords(topics, drafts, mint, next);
    if |drafts| > 0 && p.failure.None? {
      var init := drafts[..|drafts| - 1];
      var q := CreateTopicRecords(topics, init, mint, next);
      var key := drafts[|drafts| - 1].0;
      var d := drafts[|drafts| - 1].1;
      assert p == VisitTopic(q, key, d, NormalizeText(Some(d.title)), mint);
      CreateTopicsMapsEveryKey(topics, init, mint, next);
      VisitTopicMaps(q, key, d, NormalizeText(Some(d.title)), mint);
      GetLast(drafts);
      forall k | k in p.keyToId && k != key ensures TopicFor(p.topics, p.keyToId[k], Get(drafts, k).value) {
        TopicForPrefix(q.topics, p.topics, q.keyToId[k], Get(init, k).value);
      }
    }
  }

  /** Appending topics keeps every topic a key was mapped to. */
  lemma TopicForPrefix(a: seq<Topic>, b: seq<Topic>, id: string, d: TopicDraft)
    requires |a| <= |b| && b[..|a|] == a
    requires TopicFor(a, id, d)
    ensures TopicFor(b, id, d)
  {
    var i :| 0 <= i < |a| && a[i].id == id && TopicMatches(a[i], d.seriesId, NormalizeText(Some(d.title)));
    assert b[i] == b[..|a|][i];
  }

  /** A topic table that holds a match for a series and title finds it before anything appended after it. */
  lemma {:induction false} FindTopicInPrefix(a: seq<Topic>, b: seq<Topic>, seriesId: string, normalized: string)
    requires HasTopicMatch(a, seriesId, normalized)
    ensures FindTopic(a + b, seriesId, normalized) == FindTopic(a, seriesId, normalized)
  {
    var ab := a + b;
    assert ab[0] == a[0];
    if TopicMatches(a[0], seriesId, normalized) {
      FindTopicHead(ab, seriesId, normalized);
      FindTopicHead(a, seriesId, normalized);
    } else {
      assert HasTopicMatch(a[1..], seriesId, normalized) by {
        var i :| 0 <= i < |a| && TopicMatches(a[i], seriesId, normalized);
        assert a[1..][i - 1] == a[i];
      }
      FindTopicInPrefix(a[1..], b, seriesId, normalized);
      FindTopicSkip(ab, seriesId, normalized);
      FindTopicSkip(a, seriesId, normalized);
      DropFirstOfConcat(a, b);
    }
  }

  lemma DropFirstOfConcat(a: seq<Topic>, b: seq<Topic>)
    requires |a| > 0
    ensures (a + b)[1..] == a[1..] + b
  {
  }

  lemma VisitTopicReuses(topics: seq<Topic>, p: TopicPass, key: TopicKey, d: TopicDraft, normalized: string, mint: nat -> string)
    requires p.failure.None? && |topics| <= |p.topics| && p.topics[..|topics|] == topics
    requires HasTopicMatch(topics, d.seriesId, normalized)
    ensures var q := VisitTopic(p, key, d, normalized, mint);
      q.failure.None? && key in q.keyToId && q.keyToId[key] == FindTopic(topics, d.seriesId, normalized).value
  {
    assert p.topics == topics + p.topics[|topics|..];
    FindTopicInPrefix(topics, p.topics[|topics|..], d.seriesId, normalized);
  }

  lemma VisitTopicKeepsLinks(p: TopicPass, key: TopicKey, d: TopicDraft, normalized: string, mint: nat -> string, k: TopicKey)
    requires p.failure.None? && k in p.keyToId && k != key
    ensures var q := VisitTopic(p, key, d, normalized, mint);
      q.failure.None? ==> k in q.keyToId && q.keyToId[k] == p.keyToId[k]
  {
  }

  /** A draft for which the table already held a matching topic of its series is linked to that topic. */
  lemma {:induction false} CreateTopicsReusesExisting(topics: seq<Topic>, drafts: seq<(TopicKey, TopicDraft)>, mint: nat -> string, next: nat, k: TopicKey)
    requires HasKey(drafts, k)
    requires HasTopicMatch(topics, Get(drafts, k).value.seriesId, NormalizeText(Some(Get(drafts, k).value.title)))
    ensures var p := CreateTopicRecords(topics, drafts, mint, next);
      var d := Get(drafts, k).value;
      p.failure.None? ==> k in p.keyToId && p.keyToId[k] == FindTopic(topics, d.seriesId, NormalizeText(Some(d.title))).value
  {
    var init := drafts[..|drafts| - 1];
    var q := CreateTopicRecords(topics, init, mint, next);
    var key := drafts[|drafts| - 1].0;
    var d := drafts[|drafts| - 1].1;
    var normalized := NormalizeText(Some(d.title));
    GetLast(drafts);
    if q.failure.None? {
      if k == key {
        VisitTopicReuses(topics, q, key, d, normalized, mint);
      } else {
        CreateTopicsReusesExisting(topics, init, mint, next, k);
        VisitTopicKeepsLinks(q, key, d, normalized, mint, k);
      }
    }
  }

  /** Inserting topics keeps the primary key. */
  lemma {:induction false} CreateTopicsKeepsIds(topics: seq<Topic>, drafts: seq<(TopicKey, TopicDraft)>, mint: nat -> string, next: nat)
    requires UniqueTopicIds(topics)
    ensures UniqueTopicIds(CreateTopicRecords(topics, drafts, mint, next).topics)
  {
    if |drafts| > 0 {
      var q := CreateTopicRecords(topics, drafts[..|drafts| - 1], mint, next);
      CreateTopicsKeepsIds(topics, drafts[..|drafts| - 1], mint, next);
      var d := drafts[|drafts| - 1].1;
      var r := VisitTopic(q, drafts[|drafts| - 1].0, d, NormalizeText(Some(d.title)), mint);
      if |r.topics| > |q.topics| {
        assert !TopicIdTaken(q.topics, r.topics[|q.topics|].id);
        forall i, j | 0 <= i < j < |r.topics| ensures r.topics[i].id != r.topics[j].id {
          if j == |q.topics| {
            assert r.topics[i] == q.topics[i];
          } else {
            assert r.topics[i] == q.topics[i] && r.topics[j] == q.topics[j];
          }
        }
      }
    }
  }

  /** With distinct uuids that are no topic id yet, the topic pass never fails. */
  lemma {:induction false} CreateTopicsSucceeds(topics: seq<Topic>, drafts: seq<(TopicKey, TopicDraft)>, mint: nat -> string, next: nat)
    requires DistinctFrom(mint, next)
    requires forall n: nat :: next <= n ==> !TopicIdTaken(topics, mint(n))
    ensures CreateTopicRecords(topics, drafts, mint, next).failure.None?
  {
    if |drafts| > 0 {
      var q := CreateTopicRecords(topics, drafts[..|drafts| - 1], mint, next);
      CreateTopicsSucceeds(topics, drafts[..|drafts| - 1], mint, next);
      var id := mint(q.next);
      assert !TopicIdTaken(q.topics, id) by {
        forall i | 0 <= i < |q.topics| ensures q.topics[i].id != id {
          if i < |topics| {
            assert q.topics[i] == topics[i];
          } else {
            assert Minted(mint, next, q.next, q.topics[i].id);
            var n: nat :| next <= n < q.next && mint(n) == q.topics[i].id;
          }
        }
      }
    }
  }

  // ---------------------------------------------------------------------------
  // Step 5: updateLessonsWithTopicId

  /** The topic a lesson without one gets: the default one for a blank title, else the one filed under its key. */
  function LinkFor(codeToId: map<string, string>, keyToId: map<TopicKey, string>, l: Lesson): string {
    if l.lessonTitle.None? || l.lessonTitle.value == "" || Trim(l.lessonTitle.value) == "" then DefaultTopicId
    else OrElse(MapGet(keyToId, RowTopicKey(codeToId, l)), DefaultTopicId)
  }

  /** The lessons after the update, and the count the function returns. */
  datatype Backfill = Backfill(rows: seq<Lesson>, updated: nat)

  /** How many rows have no topic. */
  function CountUnlinked(rows: seq<Lesson>): nat {
    if |rows| == 0 then 0 else (if rows[0].topicId.None? then 1 else 0) + CountUnlinked(rows[1..])
  }

  /**
   * Each lesson whose `lesson_topic_id` is NULL gets one; the count is the
   * number of UPDATE statements run. The UPDATE selects by primary key, so it
   * touches exactly the row it was computed for.
   */
  function UpdateLessonsWithTopicId(rows: seq<Lesson>, codeToId: map<string, string>, keyToId: map<TopicKey, string>): (r: Backfill)
    ensures |r.rows| == |rows|
    ensures forall i :: 0 <= i < |rows| ==> r.rows[i].topicId.Some?
    ensures forall i :: 0 <= i < |rows| && rows[i].topicId.Some? ==> r.rows[i] == rows[i]
    ensures forall i :: 0 <= i < |rows| ==> r.rows[i].(topicId := rows[i].topicId) == rows[i]
    ensures forall i :: 0 <= i < |rows| && rows[i].topicId.None? ==> r.rows[i].topicId == Some(LinkFor(codeToId, keyToId, rows[i]))
  {
    if |rows| == 0 then Backfill([], 0)
    else
      var prev := UpdateLessonsWithTopicId(rows[..|rows| - 1], codeToId, keyToId);
      var l := rows[|rows| - 1];
      if l.topicId.None? then Backfill(prev.rows + [l.(topicId := Some(LinkFor(codeToId, keyToId, l)))], prev.updated + 1)
      else Backfill(prev.rows + [l], prev.updated)
  }

  lemma CountUnlinkedSnoc(rows: seq<Lesson>)
    requires |rows| > 0
    ensures CountUnlinked(rows) == CountUnlinked(rows[..|rows| - 1]) + (if rows[|rows| - 1].topicId.None? then 1 else 0)
  {
    if |rows| > 1 {
      assert rows[1..][..|rows| - 2] == rows[..|rows| - 1][1..];
      CountUnlinkedSnoc(rows[1..]);
    }
  }

  /** The returned count is the number of lessons that had no topic. */
  lemma {:induction false} UpdateCountsUnlinked(rows: seq<Lesson>, codeToId: map<string, string>, keyToId: map<TopicKey, string>)
    ensures UpdateLessonsWithTopicId(rows, codeToId, keyToId).updated == CountUnlinked(rows)
  {
    if |rows| > 0 {
      UpdateCountsUnlinked(rows[..|rows| - 1], codeToId, keyToId);
      CountUnlinkedSnoc(rows);
    }
  }

  /**
   * A blank title (null, empty or whitespace only) links to the default
   * topic; any other title links to the topic filed under the lesson's key,
   * when there is one with a non-empty id.
   */
  lemma LinkForSpec(codeToId: map<string, string>, keyToId: map<TopicKey, string>, l: Lesson)
    ensures l.lessonTitle.None? || AllSpace(l.lessonTitle.value) ==> LinkFor(codeToId, keyToId, l) == DefaultTopicId
    ensures l.lessonTitle.Some? && !AllSpace(l.lessonTitle.value) ==>
      var k := RowTopicKey(codeToId, l);
      k in keyToId && keyToId[k] != "" ==> LinkFor(codeToId, keyToId, l) == keyToId[k]
    ensures l.lessonTitle.Some? && !AllSpace(l.lessonTitle.value) ==>
      var k := RowTopicKey(codeToId, l);
      k !in keyToId || keyToId[k] == "" ==> LinkFor(codeToId, keyToId, l) == DefaultTopicId
  {
  }

  // ---------------------------------------------------------------------------
  // The migration

  /** `isMigrationComplete`: the flag row exists. */
  predicate IsMigrationComplete(db: Db) {
    MigrationFlagKey in db.flags
  }

  /** `markMigrationComplete`: INSERT OR IGNORE of the flag row. */
  function MarkMigrationComplete(db: Db): (r: Db)
    ensures IsMigrationComplete(r)
    ensures r.(flags := db.flags) == db
    ensures forall k :: k != MigrationFlagKey ==> (k in r.flags <==> k in db.flags)
    ensures IsMigrationComplete(db) ==> r == db
  {
    db.(flags := db.flags + {MigrationFlagKey})
  }

  /**
   * `migrateLegacyData`: nothing when the flag is set; otherwise series,
   * then topics, then the lesson back-fill, then the flag. The first error
   * is rethrown: what earlier statements wrote stays, and the flag is not
   * written.
   */
  function MigrateLegacyData(db: Db, mint: nat -> string, next: nat): (o: Outcome)
    ensures IsMigrationComplete(db) ==> o == Outcome(db, next, None)
    ensures o.failure.None? ==> IsMigrationComplete(o.db)
    ensures !IsMigrationComplete(db) && o.failure.Some? ==> o.db.flags == db.flags
    ensures o.db.shadow == db.shadow
    ensures |db.series| <= |o.db.series| && o.db.series[..|db.series|] == db.series
    ensures |db.topics| <= |o.db.topics| && o.db.topics[..|db.topics|] == db.topics
    ensures o.db.lessons.None? <==> db.lessons.None?
    ensures db.lessons.Some? ==> o.db.lessons.value.(rows := db.lessons.value.rows) == db.lessons.value
  {
    if IsMigrationComplete(db) then Outcome(db, next, None)
    else if db.lessons.None? then Outcome(db, next, Some("no such table: lessons_data"))
    else
      var table := db.lessons.value;
      var sp := CreateSeriesRecords(db.series, ExtractUniqueSeries(table.rows), mint, next);
      var db1 := db.(series := sp.series);
      if sp.failure.Some? then Outcome(db1, sp.next, sp.failure)
      else
        var tp := CreateTopicRecords(db.topics, ExtractUniqueTopics(table.rows, sp.codeToId), mint, sp.next);
        var db2 := db1.(topics := tp.topics);
        if tp.failure.Some? then Outcome(db2, tp.next, tp.failure)
        else if TopicIdColumn !in table.columns then Outcome(db2, tp.next, Some("no such column: lesson_topic_id"))
        else
          var u := UpdateLessonsWithTopicId(table.rows, sp.codeToId, tp.keyToId);
          Outcome(MarkMigrationComplete(db2.(lessons := Some(table.(rows := u.rows)))), tp.next, None)
  }

  /** Every id the store holds or the supply hands out is non-empty, as every uuid is. */
  ghost predicate NonEmptyIds(db: Db, mint: nat -> string, next: nat) {
    && (forall i :: 0 <= i < |db.series| ==> db.series[i].id != "")
    && (forall i :: 0 <= i < |db.topics| ==> db.topics[i].id != "")
    && (forall n: nat :: next <= n ==> mint(n) != "")
  }

  lemma SeriesKeyDrafted(rows: seq<Lesson>, i: int)
    requires 0 <= i < |rows| && NamesSeries(rows[i])
    ensures HasKey(ExtractUniqueSeries(rows), RowSeriesKey(rows[i]))
    ensures Get(ExtractUniqueSeries(rows), RowSeriesKey(rows[i])).value.code == RowSeriesKey(rows[i])
  {
    ExtractUniqueSeriesSpec(rows);
  }

  lemma CreateSeriesMapsKey(series: seq<Series>, drafts: seq<(string, SeriesDraft)>, mint: nat -> string, next: nat, k: string)
    requires HasKey(drafts, k)
    ensures var p := CreateSeriesRecords(series, drafts, mint, next);
      p.failure.None? ==> k in p.codeToId && SeriesWith(p.series, p.codeToId[k], Get(drafts, k).value.code)
  {
    CreateSeriesMapsEveryKey(series, drafts, mint, next);
    CreateSeriesMapsToCode(series, drafts, mint, next);
  }

  lemma CreateSeriesIdsNonEmpty(series: seq<Series>, drafts: seq<(string, SeriesDraft)>, mint: nat -> string, next: nat)
    requires forall j :: 0 <= j < |series| ==> series[j].id != ""
    requires forall n: nat :: next <= n ==> mint(n) != ""
    ensures var p := CreateSeriesRecords(series, drafts, mint, next);
      forall j :: 0 <= j < |p.series| ==> p.series[j].id != ""
  {
    var p := CreateSeriesRecords(series, drafts, mint, next);
    forall j | 0 <= j < |p.series| ensures p.series[j].id != "" {
      if j < |series| {
        assert p.series[j] == series[j];
      } else {
        assert Minted(mint, next, p.next, p.series[j].id);
      }
    }
  }

  /** A lesson with a series name resolves to the series whose code is that name's key. */
  lemma SeriesResolution(series: seq<Series>, rows: seq<Lesson>, mint: nat -> string, next: nat, i: int)
    requires 0 <= i < |rows| && NamesSeries(rows[i])
    requires forall j :: 0 <= j < |series| ==> series[j].id != ""
    requires forall n: nat :: next <= n ==> mint(n) != ""
    ensures var sp := CreateSeriesRecords(series, ExtractUniqueSeries(rows), mint, next);
      sp.failure.None? ==> SeriesWith(sp.series, ResolveSeriesId(sp.codeToId, rows[i]), RowSeriesKey(rows[i]))
  {
    var drafts := ExtractUniqueSeries(rows);
    var sp := CreateSeriesRecords(series, drafts, mint, next);
    var k := RowSeriesKey(rows[i]);
    SeriesKeyDrafted(rows, i);
    CreateSeriesMapsKey(series, drafts, mint, next, k);
    CreateSeriesIdsNonEmpty(series, drafts, mint, next);
    if sp.failure.None? {
      var j :| 0 <= j < |sp.series| && sp.series[j].id == sp.codeToId[k] && sp.series[j].code == k;
      assert sp.codeToId[k] != "";
    }
  }

  lemma TopicKeyDrafted(rows: seq<Lesson>, codeToId: map<string, string>, i: int)
    requires 0 <= i < |rows| && HasTitle(rows[i])
    ensures var drafts := ExtractUniqueTopics(rows, codeToId);
      var k := RowTopicKey(codeToId, rows[i]);
      HasKey(drafts, k) && Get(drafts, k).value.seriesId == k.seriesId
        && NormalizeText(Some(Get(drafts, k).value.title)) == k.normalizedTitle
  {
    ExtractUniqueTopicsSpec(rows, codeToId);
  }

  lemma CreateTopicsMapsKey(topics: seq<Topic>, drafts: seq<(TopicKey, TopicDraft)>, mint: nat -> string, next: nat, k: TopicKey)
    requires HasKey(drafts, k)
    ensures var p := CreateTopicRecords(topics, drafts, mint, next);
      p.failure.None? ==> k in p.keyToId && TopicFor(p.topics, p.keyToId[k], Get(drafts, k).value)
  {
    CreateTopicsMapsEveryKey(topics, drafts, mint, next);
  }

  lemma CreateTopicsIdsNonEmpty(topics: seq<Topic>, drafts: seq<(TopicKey, TopicDraft)>, mint: nat -> string, next: nat)
    requires forall j :: 0 <= j < |topics| ==> topics[j].id != ""
    requires forall n: nat :: next <= n ==> mint(n) != ""
    ensures var p := CreateTopicRecords(topics, drafts, mint, next);
      forall j :: 0 <= j < |p.topics| ==> p.topics[j].id != ""
  {
    var p := CreateTopicRecords(topics, drafts, mint, next);
    forall j | 0 <= j < |p.topics| ensures p.topics[j].id != "" {
      if j < |topics| {
        assert p.topics[j] == topics[j];
      } else {
        assert Minted(mint, next, p.next, p.topics[j].id);
      }
    }
  }

  /**
   * A lesson with a non-blank title is linked to a topic of its resolved
   * series whose title canonically equals the lesson's: the fallback to the
   * default topic is never taken.
   */
  lemma TopicResolution(topics: seq<Topic>, rows: seq<Lesson>, codeToId: map<string, string>, mint: nat -> string, next: nat, i: int)
    requires 0 <= i < |rows| && rows[i].lessonTitle.Some? && !AllSpace(rows[i].lessonTitle.value)
    requires forall j :: 0 <= j < |topics| ==> topics[j].id != ""
    requires forall n: nat :: next <= n ==> mint(n) != ""
    ensures var tp := CreateTopicRecords(topics, ExtractUniqueTopics(rows, codeToId), mint, next);
      tp.failure.None? ==>
        exists j :: 0 <= j < |tp.topics|
          && tp.topics[j].id == LinkFor(codeToId, tp.keyToId, rows[i])
          && tp.topics[j].seriesId == ResolveSeriesId(codeToId, rows[i])
          && TitleMatches(tp.topics[j].title, NormalizeText(rows[i].lessonTitle))
  {
    var drafts := ExtractUniqueTopics(rows, codeToId);
    var tp := CreateTopicRecords(topics, drafts, mint, next);
    var l := rows[i];
    var k := RowTopicKey(codeToId, l);
    assert HasTitle(l);
    TopicKeyDrafted(rows, codeToId, i);
    CreateTopicsMapsKey(topics, drafts, mint, next, k);
    CreateTopicsIdsNonEmpty(topics, drafts, mint, next);
    if tp.failure.None? {
      var d := Get(drafts, k).value;
      var j :| 0 <= j < |tp.topics| && tp.topics[j].id == tp.keyToId[k] && TopicMatches(tp.topics[j], d.seriesId, NormalizeText(Some(d.title)));
      LinkForSpec(codeToId, tp.keyToId, l);
      assert tp.topics[j].id == LinkFor(codeToId, tp.keyToId, l);
      assert TitleMatches(tp.topics[j].title, NormalizeText(l.lessonTitle));
    }
  }

  /** A lesson links either to the default topic or to a topic the pass stored. */
  lemma LinkForStored(topics: seq<Topic>, rows: seq<Lesson>, codeToId: map<string, string>, mint: nat -> string, next: nat, i: int)
    requires 0 <= i < |rows|
    ensures var tp := CreateTopicRecords(topics, ExtractUniqueTopics(rows, codeToId), mint, next);
      var id := LinkFor(codeToId, tp.keyToId, rows[i]);
      tp.failure.None? ==> id == DefaultTopicId || TopicIdTaken(tp.topics, id)
  {
    var drafts := ExtractUniqueTopics(rows, codeToId);
    var tp := CreateTopicRecords(topics, drafts, mint, next);
    if HasTitle(rows[i]) {
      var k := RowTopicKey(codeToId, rows[i]);
      TopicKeyDrafted(rows, codeToId, i);
      CreateTopicsMapsKey(topics, drafts, mint, next, k);
      if tp.failure.None? {
        var j :| 0 <= j < |tp.topics| && tp.topics[j].id == tp.keyToId[k];
        LinkForSpec(codeToId, tp.keyToId, rows[i]);
      }
    }
  }

  /**
   * After a migration that ran and succeeded, a lesson that had no topic is
   * linked to the default topic or to a topic the store holds, whatever the
   * ids look like.
   */
  lemma MigrationLinksStoredOrDefault(db: Db, mint: nat -> string, next: nat, i: int)
    requires !IsMigrationComplete(db) && db.lessons.Some?
    requires 0 <= i < |db.lessons.value.rows| && db.lessons.value.rows[i].topicId.None?
    ensures var o := MigrateLegacyData(db, mint, next);
      o.failure.None? ==>
        && |o.db.lessons.value.rows| == |db.lessons.value.rows|
        && o.db.lessons.value.rows[i].topicId.Some?
        && var id := o.db.lessons.value.rows[i].topicId.value;
           id == DefaultTopicId || TopicIdTaken(o.db.topics, id)
  {
    var o := MigrateLegacyData(db, mint, next);
    if o.failure.None? {
      var rows := db.lessons.value.rows;
      var sp := CreateSeriesRecords(db.series, ExtractUniqueSeries(rows), mint, next);
      var tp := CreateTopicRecords(db.topics, ExtractUniqueTopics(rows, sp.codeToId), mint, sp.next);
      assert o.db.topics == tp.topics && o.db.lessons.value.rows == UpdateLessonsWithTopicId(rows, sp.codeToId, tp.keyToId).rows;
      LinkForStored(db.topics, rows, sp.codeToId, mint, sp.next, i);
    }
  }

  /** A blank lesson title: null, empty or whitespace only. */
  predicate BlankTitle(l: Lesson) {
    l.lessonTitle.None? || AllSpace(l.lessonTitle.value)
  }

  /**
   * After a migration that ran and succeeded, no lesson is left without a
   * topic, lessons that had one are untouched, and no other column or
   * property of the table changes.
   */
  lemma MigrationBackfillsLessons(db: Db, mint: nat -> string, next: nat)
    requires !IsMigrationComplete(db)
    ensures var o := MigrateLegacyData(db, mint, next);
      o.failure.None? ==>
        && db.lessons.Some? && o.db.lessons.Some?
        && o.db.lessons.value.(rows := db.lessons.value.rows) == db.lessons.value
        && |o.db.lessons.value.rows| == |db.lessons.value.rows|
        && forall i :: 0 <= i < |db.lessons.value.rows| ==>
             var before := db.lessons.value.rows[i];
             var after := o.db.lessons.value.rows[i];
             && after.topicId.Some?
             && (before.topicId.Some? ==> after == before)
             && after.(topicId := before.topicId) == before
  {
    var o := MigrateLegacyData(db, mint, next);
    if o.failure.None? {
      var u := MigratedRows(db, mint, next);
      assert o.db.lessons.value.rows == u.rows;
    }
  }

  /** The rows a successful migration leaves are the back-fill of the rows it found. */
  lemma MigratedRows(db: Db, mint: nat -> string, next: nat) returns (u: Backfill)
    requires !IsMigrationComplete(db)
    ensures var o := MigrateLegacyData(db, mint, next);
      o.failure.None? ==>
        && db.lessons.Some? && o.db.lessons.Some?
        && (exists codeToId, keyToId :: u == UpdateLessonsWithTopicId(db.lessons.value.rows, codeToId, keyToId))
        && o.db.lessons.value.rows == u.rows
  {
    var o := MigrateLegacyData(db, mint, next);
    u := Backfill([], 0);
    if o.failure.None? {
      var rows := db.lessons.value.rows;
      var sp := CreateSeriesRecords(db.series, ExtractUniqueSeries(rows), mint, next);
      var tp := CreateTopicRecords(db.topics, ExtractUniqueTopics(rows, sp.codeToId), mint, sp.next);
      u := UpdateLessonsWithTopicId(rows, sp.codeToId, tp.keyToId);
    }
  }

  /**
   * After a migration that ran and succeeded, a lesson that had no topic is
   * linked to the default topic when its title is blank, and otherwise to a
   * topic in the store whose title canonically equals its own and which
   * belongs to the series named by its series code.
   */
  lemma MigrationLinksLessons(db: Db, mint: nat -> string, next: nat, i: int)
    requires !IsMigrationComplete(db) && db.lessons.Some?
    requires 0 <= i < |db.lessons.value.rows| && db.lessons.value.rows[i].topicId.None?
    requires NonEmptyIds(db, mint, next)
    ensures var o := MigrateLegacyData(db, mint, next);
      var l := db.lessons.value.rows[i];
      o.failure.None? ==>
        && (BlankTitle(l) ==> o.db.lessons.value.rows[i].topicId == Some(DefaultTopicId))
        && (!BlankTitle(l) ==>
              exists j ::
                && 0 <= j < |o.db.topics|
                && o.db.lessons.value.rows[i].topicId == Some(o.db.topics[j].id)
                && TitleMatches(o.db.topics[j].title, NormalizeText(l.lessonTitle))
                && (NamesSeries(l) ==> SeriesWith(o.db.series, o.db.topics[j].seriesId, RowSeriesKey(l))))
  {
    var o := MigrateLegacyData(db, mint, next);
    var rows := db.lessons.value.rows;
    var l := rows[i];
    var sp := CreateSeriesRecords(db.series, ExtractUniqueSeries(rows), mint, next);
    if o.failure.None? {
      LinkForSpec(sp.codeToId, map[], l);
      if !BlankTitle(l) {
        var tp := CreateTopicRecords(db.topics, ExtractUniqueTopics(rows, sp.codeToId), mint, sp.next);
        TopicResolution(db.topics, rows, sp.codeToId, mint, sp.next, i);
        var j :| 0 <= j < |tp.topics|
          && tp.topics[j].id == LinkFor(sp.codeToId, tp.keyToId, l)
          && tp.topics[j].seriesId == ResolveSeriesId(sp.codeToId, l)
          && TitleMatches(tp.topics[j].title, NormalizeText(l.lessonTitle));
        if NamesSeries(l) {
          SeriesResolution(db.series, rows, mint, next, i);
        }
        assert o.db.topics == tp.topics && o.db.series == sp.series;
        assert o.db.lessons.value.rows[i].topicId == Some(tp.topics[j].id);
      }
    }
  }

  /**
   * With a lessons table that has `lesson_topic_id` and a supply of distinct
   * uuids that no series or topic uses yet, the migration does not fail.
   */
  lemma MigrationSucceeds(db: Db, mint: nat -> string, next: nat)
    requires db.lessons.Some? && TopicIdColumn in db.lessons.value.columns
    requires DistinctFrom(mint, next)
    requires forall n: nat :: next <= n ==> !SeriesIdTaken(db.series, mint(n)) && !TopicIdTaken(db.topics, mint(n))
    ensures MigrateLegacyData(db, mint, next).failure.None?
  {
    if !IsMigrationComplete(db) {
      var rows := db.lessons.value.rows;
      var sp := CreateSeriesRecords(db.series, ExtractUniqueSeries(rows), mint, next);
      CreateSeriesSucceeds(db.series, ExtractUniqueSeries(rows), mint, next);
      CreateTopicsSucceeds(db.topics, ExtractUniqueTopics(rows, sp.codeToId), mint, sp.next);
    }
  }
}

=== FILE: professor_form.dfy ===
/**
 * The CPF input mask of the new-professor screen (app/professors/new.tsx):
 * the pure `formatCpfInput` applied on every keystroke.
 */
module ProfessorForm {
  import opened Strings
  import opened Cpf

  /** The digits the mask keeps: the first eleven of the input's digits. */
  function KeptDigits(text: string): (d: string)
    ensures |d| <= 11 && AllDigits(d)
    ensures d <= OnlyDigits(text)
    ensures |d| == if |OnlyDigits(text)| <= 11 then |OnlyDigits(text)| else 11
  {
    var n := OnlyDigits(text);
    if |n| <= 11 then n else n[..11]
  }

  /** The separators the mask inserts for `n` digits: a dot after the 3rd and 6th digit, a hyphen after the 9th. */
  function SeparatorCount(n: nat): nat {
    (if n > 3 then 1 else 0) + (if n > 6 then 1 else 0) + (if n > 9 then 1 else 0)
  }

  /** `formatCpfInput`: the kept digits, grouped `ddd.ddd.ddd-dd` as far as they reach. */
  function FormatCpfInput(text: string): (r: string)
    ensures var d := KeptDigits(text);
      && |r| == |d| + SeparatorCount(|d|)
      && (|d| > 3 ==> r[3] == '.')
      && (|d| > 6 ==> r[7] == '.')
      && (|d| > 9 ==> r[11] == '-')
      && forall i :: 0 <= i < |r| && i != 3 && i != 7 && i != 11 ==> IsDigit(r[i])
  {
    var d := KeptDigits(text);
    if |d| <= 3 then d
    else if |d| <= 6 then d[..3] + "." + d[3..]
    else if |d| <= 9 then d[..3] + "." + d[3..6] + "." + d[6..]
    else d[..3] + "." + d[3..6] + "." + d[6..9] + "-" + d[9..]
  }

  /** A separator between two pieces drops out of the digits. */
  lemma DigitsAcross(x: string, sep: string, y: string)
    requires |sep| == 1 && !IsDigit(sep[0]) && AllDigits(y)
    ensures OnlyDigits(x + sep + y) == OnlyDigits(x) + y
  {
    OnlyDigitsConcat(x + sep, y);
    OnlyDigitsConcat(x, sep);
    OnlyDigitsNoop(y);
  }

  lemma MaskedDigits(d: string)
    requires AllDigits(d) && |d| <= 11
    ensures var r := FormatCpfInput(d); OnlyDigits(r) == d
  {
    OnlyDigitsNoop(d);
    if |d| > 3 {
      OnlyDigitsNoop(d[..3]);
    }
    if 3 < |d| <= 6 {
      DigitsAcross(d[..3], ".", d[3..]);
      assert d[..3] + d[3..] == d;
    } else if 6 < |d| <= 9 {
      DigitsAcross(d[..3], ".", d[3..6]);
      DigitsAcross(d[..3] + "." + d[3..6], ".", d[6..]);
      assert d[..3] + d[3..6] + d[6..] == d;
    } else if 9 < |d| {
      DigitsAcross(d[..3], ".", d[3..6]);
      DigitsAcross(d[..3] + "." + d[3..6], ".", d[6..9]);
      DigitsAcross(d[..3] + "." + d[3..6] + "." + d[6..9], "-", d[9..]);
      assert d[..3] + d[3..6] + d[6..9] + d[9..] == d;
    }
  }

  /** Removing the separators from the output gives exactly the kept digits, for both ways of removing them. */
  lemma FormatCpfInputDigits(text: string)
    ensures OnlyDigits(FormatCpfInput(text)) == KeptDigits(text)
    ensures NormalizeCpf(FormatCpfInput(text)) == KeptDigits(text)
  {
    var d := KeptDigits(text);
    OnlyDigitsNoop(d);
    assert FormatCpfInput(d) == FormatCpfInput(text);
    MaskedDigits(d);
    NormalizeMasked(FormatCpfInput(text));
  }

  /** The output fits the field's `maxLength` of 14. */
  lemma FormatCpfInputFits(text: string)
    ensures |FormatCpfInput(text)| <= 14
  {
  }

  /** Formatting the field's own content again changes nothing. */
  lemma FormatCpfInputIdempotent(text: string)
    ensures FormatCpfInput(FormatCpfInput(text)) == FormatCpfInput(text)
  {
    FormatCpfInputDigits(text);
    assert KeptDigits(FormatCpfInput(text)) == KeptDigits(text);
  }

  /** With eleven digits the input mask and the display format agree. */
  lemma FormatCpfInputMatchesDisplay(text: string)
    requires |OnlyDigits(text)| == 11
    ensures FormatCpfInput(text) == FormatCpfDisplay(text)
  {
  }
}

=== FILE: status_rebuild.dfy ===
/**
 * The status-constraint rebuild of `lessons_data` (src/db/client.ts):
 * the check that decides whether it is needed, and the rebuild itself as
 * a state machine over the live table and its shadow `lessons_data_new`.
 * The engine may fail at any statement; `faults` names those that fail.
 */
module StatusRebuild {
  import opened Wrappers
  import opened Strings
  import opened Store

  /** The statements of the rebuild, and the DROP its rollback runs. */
  datatype Statement = DropLeftover | CreateShadow | CopyRows | DropLive | RenameShadow | RecreateIndexes | RollbackDrop

  /** The store after the rebuild, and the statement whose error it rethrew, if any. */
  datatype Rebuild = Rebuild(db: Db, failedAt: Option<Statement>)

  /**
   * `checkIfStatusMigrationNeeded`: needed when the stored definition of
   * `lessons_data` does not mention `'EXPORTED'`; not needed when there is
   * no definition; needed when the query itself throws (`queryFails`).
   */
  function CheckIfStatusMigrationNeeded(db: Db, queryFails: bool): (r: bool)
    ensures queryFails ==> r
    ensures !queryFails && db.lessons.None? ==> !r
    ensures !queryFails && db.lessons.Some? && db.lessons.value.definition == "" ==> !r
    ensures !queryFails && db.lessons.Some? && Contains(db.lessons.value.definition, ExportedMarker) ==> !r
    ensures !queryFails && db.lessons.Some? && db.lessons.value.definition != "" && !Contains(db.lessons.value.definition, ExportedMarker) ==> r
  {
    if queryFails then true
    else if db.lessons.None? || db.lessons.value.definition == "" then false
    else !Contains(db.lessons.value.definition, ExportedMarker)
  }

  /** The CASE of the copy: a status the constraint admits is kept, anything else (NULL included) becomes `IN_PROGRESS`. */
  function CoerceStatus(s: Option<string>): (r: Option<string>)
    ensures r.Some? && r.value in ValidStatuses
    ensures s.Some? && s.value in ValidStatuses ==> r == s
    ensures s.None? || s.value !in ValidStatuses ==> r == Some(InProgress)
  {
    if s.Some? && s.value in ValidStatuses then s else Some(InProgress)
  }

  /** The copy of one row: every column by name, the status through the CASE. */
  function CopyRow(l: Lesson): Lesson {
    l.(status := CoerceStatus(l.status))
  }

  function CopyAll(rows: seq<Lesson>): (r: seq<Lesson>)
    ensures |r| == |rows|
    ensures forall i :: 0 <= i < |rows| ==>
      && r[i].status == CoerceStatus(rows[i].status)
      && r[i].(status := rows[i].status) == rows[i]
  {
    seq(|rows|, i requires 0 <= i < |rows| => CopyRow(rows[i]))
  }

  /** The indexes the rebuild recreates on the new table. */
  const RebuildIndexes: set<string> := {StatusIndex, DateIndex, ProfessorIdIndex, TopicIdIndex}

  /** The freshly created shadow table: the full column list, no rows, no indexes. */
  const EmptyShadow := LessonTable(ShadowDefinition, LessonColumns, [], {})

  /** The catch block: try to drop the shadow (a failure of that DROP is swallowed), then rethrow. */
  function Rollback(db: Db, faults: set<Statement>, at: Statement): Rebuild {
    Rebuild(if RollbackDrop in faults then db else db.(shadow := None), Some(at))
  }

  /**
   * `migrateStatusConstraint`: drop a leftover shadow, create the shadow,
   * copy every row, drop the live table (and its indexes with it), rename
   * the shadow, recreate the indexes. The copy names every column, so it
   * fails on a table that lacks one.
   */
  function MigrateStatusConstraint(db: Db, faults: set<Statement>): Rebuild {
    if DropLeftover in faults then Rollback(db, faults, DropLeftover)
    else
      var db1 := db.(shadow := None);
      if CreateShadow in faults then Rollback(db1, faults, CreateShadow)
      else
        var db2 := db1.(shadow := Some(EmptyShadow));
        if CopyRows in faults || db2.lessons.None? || !(LessonColumns <= db2.lessons.value.columns) then Rollback(db2, faults, CopyRows)
        else
          var db3 := db2.(shadow := Some(EmptyShadow.(rows := CopyAll(db2.lessons.value.rows))));
          if DropLive in faults then Rollback(db3, faults, DropLive)
          else
            var db4 := db3.(lessons := None);
            if RenameShadow in faults then Rollback(db4, faults, RenameShadow)
            else
              var db5 := db4.(lessons := Some(db4.shadow.value.(definition := RenamedShadowDefinition)), shadow := None);
              if RecreateIndexes in faults then Rollback(db5, faults, RecreateIndexes)
              else Rebuild(db5.(lessons := Some(db5.lessons.value.(indexes := RebuildIndexes))), None)
  }

  /** The copy is a no-op on a status the constraint admits, and applying it twice is applying it once. */
  lemma CoerceStatusIdempotent(s: Option<string>)
    ensures CoerceStatus(CoerceStatus(s)) == CoerceStatus(s)
  {
  }

  /**
   * A rebuild that did not fail leaves exactly the copied rows, row for
   * row, under a definition that admits `EXPORTED`, with every column and
   * the four indexes, no shadow, and the rest of the store as it was.
   */
  lemma RebuildSuccess(db: Db, faults: set<Statement>)
    ensures var r := MigrateStatusConstraint(db, faults);
      r.failedAt.None? ==>
        && db.lessons.Some? && r.db.lessons.Some?
        && var before := db.lessons.value.rows;
           var after := r.db.lessons.value.rows;
           && |after| == |before|
           && (forall i :: 0 <= i < |before| ==>
                 && after[i].status == CoerceStatus(before[i].status)
                 && after[i].status.Some? && after[i].status.value in ValidStatuses
                 && (before[i].status.Some? && before[i].status.value in ValidStatuses ==> after[i] == before[i])
                 && after[i].(status := before[i].status) == before[i])
           && r.db.lessons.value.columns == LessonColumns
           && RebuildIndexes <= r.db.lessons.value.indexes
           && Contains(r.db.lessons.value.definition, ExportedMarker)
           && r.db.shadow.None?
           && r.db.(lessons := db.lessons, shadow := db.shadow) == db
  {
    var r := MigrateStatusConstraint(db, faults);
    if r.failedAt.None? {
      var before := db.lessons.value.rows;
      var after := CopyAll(before);
      assert r.db == db.(lessons := Some(LessonTable(RenamedShadowDefinition, LessonColumns, after, RebuildIndexes)), shadow := None);
      forall i | 0 <= i < |before|
        ensures after[i].status == CoerceStatus(before[i].status)
        ensures after[i].status.Some? && after[i].status.value in ValidStatuses
        ensures before[i].status.Some? && before[i].status.value in ValidStatuses ==> after[i] == before[i]
        ensures after[i].(status := before[i].status) == before[i]
      {
      }
      assert Contains(RenamedShadowDefinition, ExportedMarker) by {
        TableDefinitionAdmitsExported("\"lessons_data\"", ShadowLeadingColumns);
      }
    }
  }

  /** After a rebuild that did not fail, the check says no rebuild is needed: running it again does nothing. */
  lemma RebuildSettlesCheck(db: Db, faults: set<Statement>)
    ensures var r := MigrateStatusConstraint(db, faults);
      r.failedAt.None? ==> !CheckIfStatusMigrationNeeded(r.db, false)
  {
    RebuildSuccess(db, faults);
  }

  /** Whichever statement fails, the rebuild touches nothing but `lessons_data` and its shadow. */
  lemma RebuildKeepsOtherTables(db: Db, faults: set<Statement>)
    ensures var r := MigrateStatusConstraint(db, faults);
      r.db.(lessons := db.lessons, shadow := db.shadow) == db
  {
  }

  /**
   * The rebuild fails exactly when one of its statements fails or the live
   * table is missing or lacks a column the copy names.
   */
  lemma RebuildFailsOnlyOnError(db: Db, faults: set<Statement>)
    ensures MigrateStatusConstraint(db, faults).failedAt.None? <==>
      && DropLeftover !in faults && CreateShadow !in faults && CopyRows !in faults
      && DropLive !in faults && RenameShadow !in faults && RecreateIndexes !in faults
      && db.lessons.Some? && LessonColumns <= db.lessons.value.columns
  {
  }

  /** On every failure the catch block drops the shadow, unless that DROP fails too, and rethrows. */
  lemma FailureDropsShadow(db: Db, faults: set<Statement>)
    ensures var r := MigrateStatusConstraint(db, faults);
      r.failedAt.Some? && RollbackDrop !in faults ==> r.db.shadow.None?
  {
  }

  /**
   * A failure before the live table is dropped leaves it untouched, and,
   * unless the rollback's DROP fails too, removes the shadow.
   */
  lemma FailureBeforeDropKeepsLiveTable(db: Db, faults: set<Statement>)
    ensures var r := MigrateStatusConstraint(db, faults);
      r.failedAt.Some? && r.failedAt.value in {DropLeftover, CreateShadow, CopyRows, DropLive} ==>
        && r.db.lessons == db.lessons
        && (RollbackDrop !in faults ==> r.db.shadow.None?)
        && r.db.(lessons := db.lessons, shadow := db.shadow) == db
  {
  }

  /**
   * A failure of the rename, after the live table is gone, makes the
   * rollback drop the only copy of the rows: no lessons table is left.
   */
  lemma RenameFailureLosesRows(db: Db, faults: set<Statement>)
    requires db.lessons.Some? && LessonColumns <= db.lessons.value.columns
    requires faults == {RenameShadow}
    ensures var r := MigrateStatusConstraint(db, faults);
      r.failedAt == Some(RenameShadow) && r.db.lessons.None? && r.db.shadow.None?
  {
  }

  /**
   * The rebuild as its rollback evidently means it: the statements run as
   * one transaction, so whichever of them fails, the store is left exactly
   * as it was, and a run that fails at nothing is the rebuild above.
   */
  function RebuildAtomically(db: Db, faults: set<Statement>): (r: Rebuild)
    ensures r.failedAt == MigrateStatusConstraint(db, faults).failedAt
    ensures r.failedAt.Some? ==> r.db == db
    ensures r.failedAt.None? ==> r.db == MigrateStatusConstraint(db, faults).db
  {
    var rb := MigrateStatusConstraint(db, faults);
    if rb.failedAt.Some? then Rebuild(db, rb.failedAt) else rb
  }

  /**
   * With the transactional rebuild no fault loses a row: the lessons table
   * survives with as many rows as it had, and a failure leaves no shadow
   * behind that was not there before.
   */
  lemma AtomicRebuildKeepsLessons(db: Db, faults: set<Statement>)
    requires db.lessons.Some?
    ensures var r := RebuildAtomically(db, faults);
      && r.db.lessons.Some?
      && |r.db.lessons.value.rows| == |db.lessons.value.rows|
      && (r.failedAt.Some? ==> r.db.shadow == db.shadow)
  {
    RebuildSuccess(db, faults);
  }
}

=== FILE: store.dfy ===
/**
 * The SQLite database as an abstract store: the `lessons_data` table
 * (with its stored definition, its columns and its indexes), the
 * `lessons_data_new` shadow table used while rebuilding it, the
 * `lesson_series` and `lesson_topics` tables, and the keys of
 * `_migration_flags` (src/db/schema.ts, src/db/client.ts).
 */
module Store {
  import opened Wrappers
  import opened Strings
  import opened Text

  /** The fixed id of the default series and of the default topic: one string, two tables. */
  const DefaultSeriesId := "00000000-0000-0000-0000-000000000001"
  const DefaultTopicId := "00000000-0000-0000-0000-000000000001"

  const DefaultSeriesCode := "SEM-SERIE"
  const DefaultSeriesTitle := "Sem S\U{E9}rie"
  const DefaultSeriesDescription := "S\U{E9}rie padr\U{E3}o para registros migrados sem informa\U{E7}\U{E3}o"
  const DefaultTopicTitle := "Sem T\U{F3}pico"

  /** Key of the flag row that marks the legacy-data migration as done. */
  const MigrationFlagKey := "003_schema_migration_complete"

  const InProgress := "IN_PROGRESS"
  /** The values the status CHECK constraint admits. */
  const ValidStatuses: set<string> := {"IN_PROGRESS", "COMPLETED", "EXPORTED", "SYNCED"}

  const ProfessorIdColumn := "professor_id"
  const TopicIdColumn := "lesson_topic_id"

  /** Every column of a current `lessons_data` row, which the rebuild copies by name. */
  const LessonColumns: set<string> := {
    "id", "date", "coordinator_name", "professor_name", "professor_id", "lesson_topic_id",
    "series_name", "lesson_title", "time_expected_start", "time_real_start", "time_expected_end",
    "time_real_end", "attendance_start", "attendance_mid", "attendance_end", "unique_participants",
    "status", "created_at"}

  /** The columns `CREATE_LESSONS_TABLE` declares: all but `lesson_topic_id`. */
  const BaseColumns: set<string> := LessonColumns - {TopicIdColumn}

  const StatusIndex := "idx_lessons_status"
  const DateIndex := "idx_lessons_date"
  const ProfessorIdIndex := "idx_lessons_professor_id"
  const TopicIdIndex := "idx_lessons_topic_id"

  /** One row of `lessons_data`; SQL NULL is `None`. */
  datatype Lesson = Lesson(
    id: string,
    date: string,
    coordinatorName: Option<string>,
    professorName: Option<string>,
    professorId: Option<string>,
    topicId: Option<string>,
    seriesName: Option<string>,
    lessonTitle: Option<string>,
    timeExpectedStart: Option<string>,
    timeRealStart: Option<string>,
    timeExpectedEnd: Option<string>,
    timeRealEnd: Option<string>,
    attendanceStart: Option<int>,
    attendanceMid: Option<int>,
    attendanceEnd: Option<int>,
    uniqueParticipants: Option<int>,
    status: Option<string>,
    createdAt: Option<string>)

  /**
   * A lessons table: the definition text SQLite keeps in `sqlite_master`,
   * the column names `PRAGMA table_info` lists, the rows, and the names of
   * the indexes on it (dropped together with the table).
   */
  datatype LessonTable = LessonTable(definition: string, columns: set<string>, rows: seq<Lesson>, indexes: set<string>)

  /** A row of `lesson_series`. */
  datatype Series = Series(id: string, code: string, title: string, description: Option<string>)

  /** A row of `lesson_topics`. */
  datatype Topic = Topic(id: string, seriesId: string, title: string, suggestedDate: Option<string>, sequenceOrder: int)

  /** The whole store. A table that does not exist is `None`. */
  datatype Db = Db(
    lessons: Option<LessonTable>,
    shadow: Option<LessonTable>,
    series: seq<Series>,
    topics: seq<Topic>,
    flags: set<string>)

  /** The store after an operation, the next unused position of the uuid supply, and the error it threw, if any. */
  datatype Outcome = Outcome(db: Db, next: nat, failure: Option<string>)

  // Definition texts. Only their containing `'EXPORTED'` matters to the model,
  // so each is assembled around the one status-column clause.

  const ExportedMarker := "'EXPORTED'"

  const StatusColumnDdl := "status TEXT CHECK(status IN ('IN_PROGRESS', 'COMPLETED', " + ExportedMarker + ", 'SYNCED')) DEFAULT 'IN_PROGRESS'"

  const CreatedAtColumnDdl := ", created_at TEXT DEFAULT CURRENT_TIMESTAMP"

  /** The columns of `CREATE_LESSONS_TABLE` that precede `status`. */
  const LessonsLeadingColumns :=
    "id TEXT PRIMARY KEY NOT NULL, date TEXT NOT NULL, coordinator_name TEXT DEFAULT '', "
    + "professor_name TEXT DEFAULT '', professor_id TEXT, series_name TEXT DEFAULT '', "
    + "lesson_title TEXT DEFAULT '', time_expected_start TEXT DEFAULT '10:00', time_real_start TEXT, "
    + "time_expected_end TEXT DEFAULT '11:00', time_real_end TEXT, attendance_start INTEGER DEFAULT 0, "
    + "attendance_mid INTEGER DEFAULT 0, attendance_end INTEGER DEFAULT 0, "
    + "unique_participants INTEGER DEFAULT 0, "

  /** The columns of the shadow table that precede `status`: as above plus `lesson_topic_id`. */
  const ShadowLeadingColumns :=
    "id TEXT PRIMARY KEY NOT NULL, date TEXT NOT NULL, coordinator_name TEXT DEFAULT '', "
    + "professor_name TEXT DEFAULT '', professor_id TEXT, lesson_topic_id TEXT, series_name TEXT DEFAULT '', "
    + "lesson_title TEXT DEFAULT '', time_expected_start TEXT DEFAULT '10:00', time_real_start TEXT, "
    + "time_expected_end TEXT DEFAULT '11:00', time_real_end TEXT, attendance_start INTEGER DEFAULT 0, "
    + "attendance_mid INTEGER DEFAULT 0, attendance_end INTEGER DEFAULT 0, "
    + "unique_participants INTEGER DEFAULT 0, "

  function TableDefinition(name: string, leading: string): string {
    "CREATE TABLE " + name + " (" + leading + StatusColumnDdl + CreatedAtColumnDdl + ")"
  }

  /** What `CREATE_LESSONS_TABLE` stores for a new table. */
  const LessonsDefinition := TableDefinition("lessons_data", LessonsLeadingColumns)

  /** What the rebuild's `CREATE TABLE lessons_data_new` stores. */
  const ShadowDefinition := TableDefinition("lessons_data_new", ShadowLeadingColumns)

  /** The shadow's definition once SQLite has renamed the table. */
  const RenamedShadowDefinition := TableDefinition("\"lessons_data\"", ShadowLeadingColumns)

  /** Every definition the model writes admits the `EXPORTED` status. */
  lemma TableDefinitionAdmitsExported(name: string, leading: string)
    ensures Contains(TableDefinition(name, leading), ExportedMarker)
  {
    var head := "status TEXT CHECK(status IN ('IN_PROGRESS', 'COMPLETED', ";
    var tail := ", 'SYNCED')) DEFAULT 'IN_PROGRESS'";
    ContainsItself(ExportedMarker);
    ContainsWithin(head, ExportedMarker, tail, ExportedMarker);
    var a := "CREATE TABLE " + name + " (" + leading;
    var b := CreatedAtColumnDdl + ")";
    ContainsWithin(a, StatusColumnDdl, b, ExportedMarker);
    assert TableDefinition(name, leading) == a + StatusColumnDdl + b;
  }

  // Lookups, each the first match in table order (an unordered SELECT in the source).

  predicate SeriesIdTaken(series: seq<Series>, id: string) {
    exists i :: 0 <= i < |series| && series[i].id == id
  }

  predicate SeriesCodeTaken(series: seq<Series>, code: string) {
    exists i :: 0 <= i < |series| && series[i].code == code
  }

  predicate TopicIdTaken(topics: seq<Topic>, id: string) {
    exists i :: 0 <= i < |topics| && topics[i].id == id
  }

  /** `SELECT id FROM lesson_series WHERE code = ?`. */
  function FindSeriesByCode(series: seq<Series>, code: string): (r: Option<string>)
    ensures r.None? <==> !SeriesCodeTaken(series, code)
    ensures r.Some? ==> exists i :: 0 <= i < |series| && series[i].code == code && series[i].id == r.value
  {
    if |series| == 0 then None
    else if series[0].code == code then Some(series[0].id)
    else
      var r := FindSeriesByCode(series[1..], code);
      assert r.Some? ==> exists i :: 1 <= i < |series| && series[i].code == code && series[i].id == r.value by {
        if r.Some? {
          var i :| 0 <= i < |series| - 1 && series[1..][i].code == code && series[1..][i].id == r.value;
          assert series[i + 1] == series[1..][i];
        }
      }
      assert SeriesCodeTaken(series, code) ==> SeriesCodeTaken(series[1..], code) by {
        if SeriesCodeTaken(series, code) {
          var i :| 0 <= i < |series| && series[i].code == code;
          assert series[1..][i - 1] == series[i];
        }
      }
      r
  }

  /**
   * The topic lookup's title test as it is meant: the stored title has the
   * normal form searched for, the way the key it is compared with was
   * built. SqlTitleMatches is the test `UPPER(TRIM(title)) = ?` as the SQL
   * writes it.
   */
  predicate TitleMatches(stored: string, normalized: string) {
    NormalizeText(Some(stored)) == normalized
  }

  /** SQL `UPPER(TRIM(title)) = ?` as written: ASCII upper-casing of the space-trimmed title, whitespace runs kept. */
  predicate SqlTitleMatches(stored: string, normalized: string) {
    ToUpper(SqlTrim(stored)) == normalized
  }

  /**
   * The SQL test misses a stored title with a whitespace run inside it,
   * even against that title's own normal form, which has no such run.
   */
  lemma SqlTitleMissesInnerRun(stored: string, i: int)
    requires NoEdgeSpace(stored) && 0 <= i < |stored| - 1 && SpacePairAt(stored, i)
    ensures TitleMatches(stored, NormalizeText(Some(stored)))
    ensures !SqlTitleMatches(stored, NormalizeText(Some(stored)))
  {
    SqlTrimNoop(stored);
    var u := ToUpper(stored);
    assert SpacePairAt(u, i);
    assert !NoDoubleSpace(u);
  }

  /** A topic stored as `Aula  1` (two spaces) is not found again by its own draft. */
  lemma SqlTitleMissesExample()
    ensures !SqlTitleMatches("Aula  1", NormalizeText(Some("Aula  1")))
  {
    var t := "Aula  1";
    assert SpacePairAt(t, 4);
    SqlTitleMissesInnerRun(t, 4);
  }

  predicate TopicMatches(t: Topic, seriesId: string, normalized: string) {
    t.seriesId == seriesId && TitleMatches(t.title, normalized)
  }

  predicate HasTopicMatch(topics: seq<Topic>, seriesId: string, normalized: string) {
    exists i :: 0 <= i < |topics| && TopicMatches(topics[i], seriesId, normalized)
  }

  /** `SELECT id FROM lesson_topics WHERE series_id = ? AND …` with the title compared by normal form (TitleMatches). */
  function FindTopic(topics: seq<Topic>, seriesId: string, normalized: string): (r: Option<string>)
    ensures r.None? <==> !HasTopicMatch(topics, seriesId, normalized)
    ensures r.Some? ==> exists i :: 0 <= i < |topics| && TopicMatches(topics[i], seriesId, normalized) && topics[i].id == r.value
  {
    if |topics| == 0 then None
    else if TopicMatches(topics[0], seriesId, normalized) then Some(topics[0].id)
    else
      var r := FindTopic(topics[1..], seriesId, normalized);
      FindTopicStep(topics, seriesId, normalized, r);
      r
  }

  /** `SELECT id FROM lesson_topics WHERE series_id = ? AND UPPER(TRIM(title)) = ?` as written. */
  function SqlFindTopic(topics: seq<Topic>, seriesId: string, normalized: string): (r: Option<string>)
    ensures r.None? <==> !exists i :: 0 <= i < |topics| && SqlTopicMatches(topics[i], seriesId, normalized)
    ensures r.Some? ==> exists i :: 0 <= i < |topics| && SqlTopicMatches(topics[i], seriesId, normalized) && topics[i].id == r.value
  {
    if |topics| == 0 then None
    else if SqlTopicMatches(topics[0], seriesId, normalized) then Some(topics[0].id)
    else
      var r := SqlFindTopic(topics[1..], seriesId, normalized);
      assert r.Some? ==> exists i :: 0 <= i < |topics| && SqlTopicMatches(topics[i], seriesId, normalized) && topics[i].id == r.value by {
        if r.Some? {
          var i :| 0 <= i < |topics| - 1 && SqlTopicMatches(topics[1..][i], seriesId, normalized) && topics[1..][i].id == r.value;
          assert topics[i + 1] == topics[1..][i];
        }
      }
      r
  }

  predicate SqlTopicMatches(t: Topic, seriesId: string, normalized: string) {
    t.seriesId == seriesId && SqlTitleMatches(t.title, normalized)
  }

  /**
   * With a topic `Aula  1` already stored, the query as written finds
   * nothing for the draft `Aula  1`, so the pass inserts a second topic of
   * that series with that title; the corrected lookup finds the stored one.
   */
  lemma SqlLookupMissesStoredTitle()
    ensures var topics := [Topic("t1", "s1", "Aula  1", None, 1)];
      var n := NormalizeText(Some("Aula  1"));
      && SqlFindTopic(topics, "s1", n).None?
      && FindTopic(topics, "s1", n) == Some("t1")
  {
    var topics := [Topic("t1", "s1", "Aula  1", None, 1)];
    var n := NormalizeText(Some("Aula  1"));
    assert SpacePairAt(topics[0].title, 4);
    SqlTitleMissesInnerRun(topics[0].title, 4);
    assert SqlFindTopic(topics[1..], "s1", n).None?;
    FindTopicHead(topics, "s1", n);
  }

  lemma FindTopicHead(topics: seq<Topic>, seriesId: string, normalized: string)
    requires |topics| > 0 && TopicMatches(topics[0], seriesId, normalized)
    ensures FindTopic(topics, seriesId, normalized) == Some(topics[0].id)
  {
  }

  lemma FindTopicSkip(topics: seq<Topic>, seriesId: string, normalized: string)
    requires |topics| > 0 && !TopicMatches(topics[0], seriesId, normalized)
    ensures FindTopic(topics, seriesId, normalized) == FindTopic(topics[1..], seriesId, normalized)
  {
  }

  /** A lookup that skips a first topic which does not match finds what the lookup in the rest finds. */
  lemma FindTopicStep(topics: seq<Topic>, seriesId: string, normalized: string, r: Option<string>)
    requires |topics| > 0 && !TopicMatches(topics[0], seriesId, normalized)
    requires r.None? <==> !HasTopicMatch(topics[1..], seriesId, normalized)
    requires r.Some? ==> exists i :: 0 <= i < |topics| - 1 && TopicMatches(topics[1..][i], seriesId, normalized) && topics[1..][i].id == r.value
    ensures r.None? <==> !HasTopicMatch(topics, seriesId, normalized)
    ensures r.Some? ==> exists i :: 0 <= i < |topics| && TopicMatches(topics[i], seriesId, normalized) && topics[i].id == r.value
  {
    if r.Some? {
      var i :| 0 <= i < |topics| - 1 && TopicMatches(topics[1..][i], seriesId, normalized) && topics[1..][i].id == r.value;
      assert topics[i + 1] == topics[1..][i];
    }
    if HasTopicMatch(topics, seriesId, normalized) {
      var i :| 0 <= i < |topics| && TopicMatches(topics[i], seriesId, normalized);
      assert topics[1..][i - 1] == topics[i];
    }
  }

  // Table constraints the model keeps: primary keys and the UNIQUE series code.

  /** No two topics of one series have titles with the same normal form. */
  predicate UniqueTopicTitles(topics: seq<Topic>) {
    forall i, j :: 0 <= i < j < |topics| && topics[i].seriesId == topics[j].seriesId ==>
      NormalizeText(Some(topics[i].title)) != NormalizeText(Some(topics[j].title))
  }

  predicate UniqueSeriesIds(series: seq<Series>) {
    forall i, j :: 0 <= i < j < |series| ==> series[i].id != series[j].id
  }

  predicate UniqueSeriesCodes(series: seq<Series>) {
    forall i, j :: 0 <= i < j < |series| ==> series[i].code != series[j].code
  }

  predicate UniqueTopicIds(topics: seq<Topic>) {
    forall i, j :: 0 <= i < j < |topics| ==> topics[i].id != topics[j].id
  }
}

=== FILE: strings.dfy ===
/**
 * ASCII string primitives standing in for the JavaScript built-ins the
 * application relies on: `trim`, `toUpperCase`, the `\s` and `\d` classes,
 * `indexOf`, `includes` and decimal rendering of integers.
 */
module Strings {
  import opened Wrappers

  /** JavaScript's `\s` restricted to ASCII: space, tab, LF, VT, FF, CR. */
  predicate IsSpace(c: char) {
    c == ' ' || c == '\t' || c == '\n' || c == '\r' || c as int == 11 || c as int == 12
  }

  /**
   * JavaScript whitespace: `\s` in a regular expression and what
   * `parseInt` skips, that is the characters above plus the Unicode space
   * separators, the line and paragraph separators and the byte-order mark.
   */
  predicate IsJsSpace(c: char) {
    || IsSpace(c)
    || c as int == 0xA0 || c as int == 0x1680 || 0x2000 <= c as int <= 0x200A
    || c as int == 0x2028 || c as int == 0x2029 || c as int == 0x202F
    || c as int == 0x205F || c as int == 0x3000 || c as int == 0xFEFF
  }

  predicate IsLower(c: char) { 'a' <= c <= 'z' }

  predicate IsDigit(c: char) { '0' <= c <= '9' }

  /** `toUpperCase` on one ASCII character; every other character is left alone. */
  function UpperChar(c: char): (u: char)
    ensures !IsLower(u)
    ensures IsSpace(u) <==> IsSpace(c)
    ensures !IsLower(c) ==> u == c
  {
    if IsLower(c) then (c as int - 32) as char else c
  }

  function ToUpper(s: string): (r: string)
    ensures |r| == |s|
    ensures forall i :: 0 <= i < |s| ==> r[i] == UpperChar(s[i])
  {
    seq(|s|, i requires 0 <= i < |s| => UpperChar(s[i]))
  }

  predicate AllSpace(s: string) {
    forall i :: 0 <= i < |s| ==> IsSpace(s[i])
  }

  /** No whitespace at either end. */
  predicate NoEdgeSpace(s: string) {
    |s| == 0 || (!IsSpace(s[0]) && !IsSpace(s[|s| - 1]))
  }

  /** Leading whitespace removed: the longest suffix of `s` that does not start with whitespace. */
  function TrimStart(s: string): (r: string)
    ensures |r| <= |s|
    ensures |r| == 0 || !IsSpace(r[0])
  {
    if |s| > 0 && IsSpace(s[0]) then TrimStart(s[1..]) else s
  }

  /** `TrimStart` keeps a suffix and drops only whitespace in front of it. */
  lemma {:induction false} TrimStartShape(s: string)
    ensures TrimStart(s) == s[|s| - |TrimStart(s)|..]
    ensures AllSpace(s[..|s| - |TrimStart(s)|])
  {
    if |s| > 0 && IsSpace(s[0]) {
      TrimStartShape(s[1..]);
      var k := |s| - |TrimStart(s)|;
      assert s[1..][k - 1..] == s[k..];
      forall i | 0 <= i < k ensures IsSpace(s[..k][i]) {
        if i > 0 {
          assert s[..k][i] == s[1..][..k - 1][i - 1];
        }
      }
    } else {
      assert s[0..] == s;
    }
  }

  /** Trailing whitespace removed: the longest prefix of `s` that does not end with whitespace. */
  function TrimEnd(s: string): (r: string)
    ensures |r| <= |s|
    ensures |r| == 0 || !IsSpace(r[|r| - 1])
  {
    if |s| > 0 && IsSpace(s[|s| - 1]) then TrimEnd(s[..|s| - 1]) else s
  }

  /** `TrimEnd` keeps a prefix and drops only whitespace after it. */
  lemma {:induction false} TrimEndShape(s: string)
    ensures TrimEnd(s) == s[..|TrimEnd(s)|]
    ensures AllSpace(s[|TrimEnd(s)|..])
  {
    if |s| > 0 && IsSpace(s[|s| - 1]) {
      var p := s[..|s| - 1];
      TrimEndShape(p);
      var k := |TrimEnd(s)|;
      assert p[..k] == s[..k];
      AllSpaceSnoc(s, k);
    } else {
      assert s[..|s|] == s;
    }
  }

  lemma AllSpaceSnoc(s: string, k: nat)
    requires k < |s| && AllSpace(s[..|s| - 1][k..]) && IsSpace(s[|s| - 1])
    ensures AllSpace(s[k..])
  {
    forall i | 0 <= i < |s| - k ensures IsSpace(s[k..][i]) {
      if i < |s| - 1 - k {
        assert s[k..][i] == s[..|s| - 1][k..][i];
      }
    }
  }

  /** JavaScript `String.prototype.trim`. */
  function Trim(s: string): (r: string)
    ensures NoEdgeSpace(r)
    ensures |r| <= |s|
    ensures AllSpace(s) <==> r == ""
  {
    TrimBothAllSpace(s);
    TrimEndShape(TrimStart(s));
    TrimEnd(TrimStart(s))
  }

  lemma {:induction false} TrimBothAllSpace(s: string)
    ensures AllSpace(s) <==> TrimEnd(TrimStart(s)) == ""
  {
    if AllSpace(s) {
      TrimStartAllSpace(s);
    }
    if TrimEnd(TrimStart(s)) == "" {
      TrimEmptyAllSpace(s);
    }
  }

  lemma {:induction false} TrimEmptyAllSpace(s: string)
    requires TrimEnd(TrimStart(s)) == ""
    ensures AllSpace(s)
  {
    var t := TrimStart(s);
    TrimStartShape(s);
    TrimEndShape(t);
    assert AllSpace(t[0..]);
    assert t == "";
    assert s[..|s|] == s;
  }

  lemma {:induction false} TrimStartAllSpace(s: string)
    requires AllSpace(s)
    ensures TrimStart(s) == ""
  {
    if |s| > 0 {
      TrimStartAllSpace(s[1..]);
    }
  }

  lemma {:induction false} TrimStartNoop(s: string)
    requires |s| == 0 || !IsSpace(s[0])
    ensures TrimStart(s) == s
  {
  }

  lemma {:induction false} TrimEndNoop(s: string)
    requires |s| == 0 || !IsSpace(s[|s| - 1])
    ensures TrimEnd(s) == s
  {
  }

  /** A string with no whitespace at its ends is its own trim. */
  lemma TrimNoop(s: string)
    requires NoEdgeSpace(s)
    ensures Trim(s) == s
  {
    TrimStartNoop(s);
    TrimEndNoop(s);
  }

  /** Trimming is idempotent. */
  lemma TrimTrim(s: string)
    ensures Trim(Trim(s)) == Trim(s)
  {
    TrimNoop(Trim(s));
  }

  /** Trimming only removes characters: a character absent from the original is absent from the trimmed string. */
  lemma TrimKeepsCharacters(s: string, c: char)
    requires Lacks(s, c)
    ensures Lacks(Trim(s), c)
  {
    var u := TrimStart(s);
    TrimStartShape(s);
    TrimEndShape(u);
    LacksSuffix(s, c, |s| - |u|);
    LacksPrefix(u, c, |TrimEnd(u)|);
  }

  lemma LacksSuffix(s: string, c: char, k: nat)
    requires k <= |s| && Lacks(s, c)
    ensures Lacks(s[k..], c)
  {
    forall m | 0 <= m < |s| - k ensures s[k..][m] != c {
      assert s[k..][m] == s[k + m];
    }
  }

  lemma LacksPrefix(s: string, c: char, k: nat)
    requires k <= |s| && Lacks(s, c)
    ensures Lacks(s[..k], c)
  {
    forall m | 0 <= m < k ensures s[..k][m] != c {
      assert s[..k][m] == s[m];
    }
  }

  /** `TrimStart` removes exactly the leading whitespace run. */
  lemma {:induction false} TrimStartSkip(s: string, k: nat)
    requires k <= |s| && AllSpace(s[..k]) && (k == |s| || !IsSpace(s[k]))
    ensures TrimStart(s) == s[k..]
  {
    if k > 0 {
      assert IsSpace(s[..k][0]);
      assert s[1..][..k - 1] == s[..k][1..];
      TrimStartSkip(s[1..], k - 1);
      assert s[1..][k - 1..] == s[k..];
    }
  }

  /** `TrimEnd` removes exactly the trailing whitespace run. */
  lemma {:induction false} TrimEndCut(s: string, k: nat)
    requires k <= |s| && AllSpace(s[k..]) && (k == 0 || !IsSpace(s[k - 1]))
    ensures TrimEnd(s) == s[..k]
    decreases |s|
  {
    if k < |s| {
      assert IsSpace(s[k..][|s| - 1 - k]);
      var p := s[..|s| - 1];
      assert p[k..] == s[k..][..|s| - 1 - k];
      TrimEndCut(p, k);
      assert p[..k] == s[..k];
    } else {
      assert s[..|s|] == s;
    }
  }

  /** SQLite's one-argument `TRIM`: removes plain spaces (only) from both ends. */
  function SqlTrim(s: string): (r: string)
    ensures |r| <= |s|
    ensures |r| == 0 || (r[0] != ' ' && r[|r| - 1] != ' ')
  {
    if |s| > 0 && s[0] == ' ' then SqlTrim(s[1..])
    else if |s| > 0 && s[|s| - 1] == ' ' then SqlTrim(s[..|s| - 1])
    else s
  }

  /** A JavaScript-trimmed string is left alone by SQLite's `TRIM`. */
  lemma SqlTrimNoop(s: string)
    requires NoEdgeSpace(s)
    ensures SqlTrim(s) == s
  {
  }

  /** Whether `pat` occurs in `s` at position `i`. */
  predicate OccursAt(s: string, pat: string, i: int) {
    0 <= i && i + |pat| <= |s| && s[i..i + |pat|] == pat
  }

  /** First occurrence of `pat` in `s` at or after position `from`. */
  function IndexFrom(s: string, pat: string, from: nat): (r: Option<nat>)
    decreases |s| - from
    ensures r.Some? ==> from <= r.value && OccursAt(s, pat, r.value)
    ensures r.Some? ==> forall j :: from <= j < r.value ==> !OccursAt(s, pat, j)
    ensures r.None? ==> forall j :: from <= j ==> !OccursAt(s, pat, j)
  {
    if from + |pat| > |s| then None
    else if s[from..from + |pat|] == pat then Some(from)
    else IndexFrom(s, pat, from + 1)
  }

  /** JavaScript `indexOf`, with `None` for -1. */
  function IndexOf(s: string, pat: string): (r: Option<nat>)
    ensures r.Some? ==> OccursAt(s, pat, r.value)
    ensures r.Some? ==> forall j :: 0 <= j < r.value ==> !OccursAt(s, pat, j)
    ensures r.None? <==> forall j :: !OccursAt(s, pat, j)
  {
    IndexFrom(s, pat, 0)
  }

  /** JavaScript `includes`. */
  predicate Contains(s: string, pat: string) {
    IndexOf(s, pat).Some?
  }

  lemma ContainsAt(s: string, pat: string, i: int)
    requires OccursAt(s, pat, i)
    ensures Contains(s, pat)
  {
  }

  /** Whatever a piece contains, any text built around that piece contains too. */
  lemma ContainsWithin(a: string, t: string, b: string, pat: string)
    requires Contains(t, pat)
    ensures Contains(a + t + b, pat)
  {
    var i := IndexOf(t, pat).value;
    var s := a + t + b;
    assert s[|a| + i..|a| + i + |pat|] == t[i..i + |pat|];
    ContainsAt(s, pat, |a| + i);
  }

  lemma ContainsItself(pat: string)
    ensures Contains(pat, pat)
  {
    assert pat[0..|pat|] == pat;
    ContainsAt(pat, pat, 0);
  }

  function DigitChar(d: nat): (c: char)
    requires d < 10
    ensures IsDigit(c)
  {
    ('0' as int + d) as char
  }

  function DigitValue(c: char): (d: nat)
    requires IsDigit(c)
    ensures d < 10 && DigitChar(d) == c
  {
    c as int - '0' as int
  }

  /** `c` does not occur in `s`. */
  predicate Lacks(s: string, c: char) {
    forall i :: 0 <= i < |s| ==> s[i] != c
  }

  predicate AllDigits(s: string) {
    forall i :: 0 <= i < |s| ==> IsDigit(s[i])
  }

  /** Value of a string of decimal digits (`parseInt(s, 10)` when every character is a digit). */
  function DecimalValue(s: string): nat
    requires AllDigits(s)
  {
    if |s| == 0 then 0 else 10 * DecimalValue(s[..|s| - 1]) + DigitValue(s[|s| - 1])
  }

  /** Shortest decimal rendering of a natural number (`n.toString()`). */
  function NatToString(n: nat): (r: string)
    ensures |r| >= 1 && AllDigits(r)
    ensures DecimalValue(r) == n
    ensures n >= 10 ==> r[0] != '0'
  {
    if n < 10 then [DigitChar(n)]
    else
      var prefix := NatToString(n / 10);
      var r := prefix + [DigitChar(n % 10)];
      assert r[..|r| - 1] == prefix;
      r
  }

  lemma Regroup(x: string, q: string, a: string)
    ensures x + q + a == x + (q + a)
  {
  }

  /** Appending a digit to the rendering of a positive number renders ten times it plus that digit. */
  lemma NatToStringStep(x: nat, d: nat)
    requires x >= 1 && d < 10
    ensures NatToString(10 * x + d) == NatToString(x) + [DigitChar(d)]
  {
    var n := 10 * x + d;
    assert n / 10 == x && n % 10 == d;
  }

  /** `n.toString()` for an integer; JavaScript renders `-0` as `0`, which `int` cannot hold anyway. */
  function IntToString(n: int): (r: string)
    ensures n >= 0 ==> r == NatToString(n)
    ensures n < 0 ==> r == "-" + NatToString(-n)
  {
    if n < 0 then "-" + NatToString(-n) else NatToString(n)
  }

  predicate NoLowerCase(s: string) {
    forall i :: 0 <= i < |s| ==> !IsLower(s[i])
  }

  /** No two whitespace characters side by side. */
  predicate NoDoubleSpace(s: string) {
    forall i :: 0 <= i < |s| - 1 ==> !SpacePairAt(s, i)
  }

  /** Whitespace at positions `i` and `i + 1`. */
  predicate SpacePairAt(s: string, i: int)
    requires 0 <= i < |s| - 1
  {
    IsSpace(s[i]) && IsSpace(s[i + 1])
  }

  /** Every whitespace character is a plain space. */
  predicate SpacesArePlain(s: string) {
    forall i :: 0 <= i < |s| && IsSpace(s[i]) ==> s[i] == ' '
  }

  /**
   * `replace(/\s+/g, ' ')`: every maximal whitespace run becomes one space.
   * A whitespace character followed by another is dropped; the last one of a
   * run is written as a plain space.
   */
  function CollapseSpaces(s: string): (r: string)
    ensures |r| == 0 <==> |s| == 0
    ensures |s| > 0 ==> (IsSpace(r[0]) <==> IsSpace(s[0]))
    ensures |s| > 0 ==> (IsSpace(r[|r| - 1]) <==> IsSpace(s[|s| - 1]))
    ensures NoDoubleSpace(r) && SpacesArePlain(r)
    ensures NoLowerCase(s) ==> NoLowerCase(r)
  {
    if |s| == 0 then ""
    else if IsSpace(s[0]) && |s| > 1 && IsSpace(s[1]) then CollapseSpaces(s[1..])
    else
      var tail := CollapseSpaces(s[1..]);
      var c := if IsSpace(s[0]) then ' ' else s[0];
      NoDoubleSpaceCons(c, tail);
      [c] + tail
  }

  lemma NoDoubleSpaceCons(c: char, t: string)
    requires NoDoubleSpace(t)
    requires |t| == 0 || !IsSpace(c) || !IsSpace(t[0])
    ensures NoDoubleSpace([c] + t)
  {
    var u := [c] + t;
    forall i | 0 <= i < |u| - 1 ensures !SpacePairAt(u, i) {
      if i > 0 {
        assert !SpacePairAt(t, i - 1);
      }
    }
  }

  lemma NoDoubleSpaceTail(s: string)
    requires |s| > 0 && NoDoubleSpace(s)
    ensures NoDoubleSpace(s[1..])
  {
    forall i | 0 <= i < |s| - 2 ensures !SpacePairAt(s[1..], i) {
      assert !SpacePairAt(s, i + 1);
    }
  }
}

=== FILE: text.dfy ===
/**
 * Canonicalisation of free text and parsing of legacy series names
 * (src/utils/text.ts). Character classes are ASCII (see Strings).
 */
module Text {
  import opened Wrappers
  import opened Strings

  /** The shape of every canonical text: trimmed, upper-case, single plain spaces. */
  predicate Canonical(s: string) {
    NoEdgeSpace(s) && NoLowerCase(s) && NoDoubleSpace(s) && SpacesArePlain(s)
  }

  /** A string already free of whitespace runs and of non-plain spaces is left alone. */
  lemma {:induction false} CollapseNoop(s: string)
    requires NoDoubleSpace(s) && SpacesArePlain(s)
    ensures CollapseSpaces(s) == s
  {
    if |s| > 0 {
      NoDoubleSpaceTail(s);
      if |s| > 1 {
        assert !SpacePairAt(s, 0);
      }
      CollapseNoop(s[1..]);
      assert s == [s[0]] + s[1..];
    }
  }

  /** A collapsed prefix ending in a non-space passes through unchanged. */
  lemma {:induction false} CollapseConcat(a: string, b: string)
    requires NoDoubleSpace(a) && SpacesArePlain(a) && (|a| == 0 || !IsSpace(a[|a| - 1]))
    ensures CollapseSpaces(a + b) == a + CollapseSpaces(b)
  {
    if |a| > 0 {
      var t := a[1..];
      assert NoDoubleSpace(t) by {
        NoDoubleSpaceTail(a);
      }
      assert SpacesArePlain(t) by {
        forall i | 0 <= i < |t| && IsSpace(t[i]) ensures t[i] == ' ' {
          assert t[i] == a[i + 1];
        }
      }
      assert |t| == 0 || !IsSpace(t[|t| - 1]) by {
        if |t| > 0 {
          assert t[|t| - 1] == a[|a| - 1];
        }
      }
      assert CollapseSpaces(t + b) == t + CollapseSpaces(b) by {
        CollapseConcat(t, b);
      }
      assert IsSpace(a[0]) ==> a[0] == ' ' && |a| > 1 && !IsSpace(a[1]) by {
        if IsSpace(a[0]) {
          assert |a| > 1 && !SpacePairAt(a, 0);
        }
      }
      CollapseHead(a, b);
      Regroup([a[0]], t, CollapseSpaces(b));
      assert [a[0]] + t == a;
    } else {
      assert a + b == b;
    }
  }

  /** The first character of a string with no whitespace pair at its head and plain spaces passes through. */
  lemma CollapseHead(a: string, b: string)
    requires |a| > 0 && (IsSpace(a[0]) ==> a[0] == ' ' && |a| > 1 && !IsSpace(a[1]))
    ensures CollapseSpaces(a + b) == [a[0]] + CollapseSpaces(a[1..] + b)
  {
    assert (a + b)[0] == a[0];
    assert (a + b)[1..] == a[1..] + b;
    if IsSpace(a[0]) {
      assert (a + b)[1] == a[1];
    }
  }

  /** A whitespace run followed by a non-space becomes a single space. */
  lemma {:induction false} CollapseRun(w: string, b: string)
    requires |w| > 0 && AllSpace(w) && (|b| == 0 || !IsSpace(b[0]))
    ensures CollapseSpaces(w + b) == " " + CollapseSpaces(b)
  {
    assert (w + b)[1..] == w[1..] + b;
    assert IsSpace(w[0]);
    if |w| > 1 {
      assert IsSpace(w[1]);
      CollapseRun(w[1..], b);
    } else {
      assert w[1..] + b == b;
    }
  }

  /**
   * `normalizeText`: null, undefined and the empty string give the empty
   * string; anything else is trimmed, upper-cased and has its whitespace runs
   * collapsed to single spaces.
   */
  function NormalizeText(text: Option<string>): (r: string)
    ensures text.None? || text == Some("") ==> r == ""
    ensures Canonical(r)
    ensures text.Some? ==> (r == "" <==> AllSpace(text.value))
  {
    if text.None? || text.value == "" then ""
    else
      NormalizeShape(text.value);
      CollapseSpaces(ToUpper(Trim(text.value)))
  }

  lemma {:induction false} NormalizeShape(s: string)
    ensures Canonical(CollapseSpaces(ToUpper(Trim(s))))
    ensures CollapseSpaces(ToUpper(Trim(s))) == "" <==> AllSpace(s)
  {
    var t := Trim(s);
    var u := ToUpper(t);
    assert NoEdgeSpace(u) by {
      if |u| > 0 {
        assert u[0] == UpperChar(t[0]);
        assert u[|u| - 1] == UpperChar(t[|t| - 1]);
      }
    }
    assert NoLowerCase(u) by {
      forall i | 0 <= i < |u| ensures !IsLower(u[i]) {
        assert u[i] == UpperChar(t[i]);
      }
    }
    var c := CollapseSpaces(u);
    assert NoEdgeSpace(c);
  }

  /** A canonical text normalises to itself. */
  lemma {:induction false} CanonicalFixpoint(s: string)
    requires Canonical(s)
    ensures NormalizeText(Some(s)) == s
  {
    if s != "" {
      assert NormalizeText(Some(s)) == CollapseSpaces(ToUpper(Trim(s)));
      TrimNoop(s);
      assert Trim(s) == s;
      UpperNoop(s);
      assert ToUpper(s) == s;
      CollapseNoop(s);
    }
  }

  lemma {:induction false} UpperNoop(s: string)
    requires NoLowerCase(s)
    ensures ToUpper(s) == s
  {
    var u := ToUpper(s);
    forall i | 0 <= i < |s| ensures u[i] == s[i] {
      assert !IsLower(s[i]);
    }
  }

  /** `normalizeText` is idempotent. */
  lemma {:induction false} NormalizeIdempotent(text: Option<string>)
    ensures NormalizeText(Some(NormalizeText(text))) == NormalizeText(text)
  {
    CanonicalFixpoint(NormalizeText(text));
  }

  /** Trimming first does not change the canonical form. */
  lemma {:induction false} NormalizeTrim(s: string)
    ensures NormalizeText(Some(Trim(s))) == NormalizeText(Some(s))
  {
    TrimTrim(s);
    if Trim(s) == "" {
      assert AllSpace(s);
    }
  }

  /** Characters that may form a leading series code: `[A-Z0-9-]`. */
  predicate IsCodeChar(c: char) {
    'A' <= c <= 'Z' || '0' <= c <= '9' || c == '-'
  }

  predicate AllCodeChars(s: string) {
    forall i :: 0 <= i < |s| ==> IsCodeChar(s[i])
  }

  /** The greedy match of `^([A-Z0-9-]+)`, or "" when there is none. */
  function LeadingCode(s: string): (r: string)
    ensures |r| <= |s| && r == s[..|r|]
    ensures AllCodeChars(r)
    ensures |r| == |s| || !IsCodeChar(s[|r|])
  {
    if |s| > 0 && IsCodeChar(s[0]) then [s[0]] + LeadingCode(s[1..]) else ""
  }

  /** A run of code characters ended by the string's end or by another character is the leading code. */
  lemma {:induction false} LeadingCodeIsRun(s: string, k: nat)
    requires k <= |s| && AllCodeChars(s[..k])
    requires k == |s| || !IsCodeChar(s[k])
    ensures LeadingCode(s) == s[..k]
  {
    if k > 0 {
      assert IsCodeChar(s[..k][0]);
      assert s[1..][..k - 1] == s[..k][1..];
      LeadingCodeIsRun(s[1..], k - 1);
      assert s[..k] == [s[0]] + s[1..][..k - 1];
    }
  }

  /** Longest code kept by `extractSeriesCode`. */
  const MaxCodeLength: nat := 20

  /** Code given to a missing series name. */
  const NoSeriesCode := "SEM-SERIE"

  /** Title given to a missing series name. */
  const NoSeriesTitle := "Sem S\U{E9}rie"

  /** JavaScript `substring(0, n)`, which clamps to the string's length. */
  function Take(s: string, n: nat): (r: string)
    ensures |r| == if n <= |s| then n else |s|
    ensures r == s[..|r|]
  {
    if n <= |s| then s[..n] else s
  }

  /** `extractSeriesCode`. */
  function ExtractSeriesCode(seriesName: Option<string>): (r: string)
    ensures |r| <= MaxCodeLength
  {
    if seriesName.None? || seriesName.value == "" then NoSeriesCode
    else
      var normalized := NormalizeText(seriesName);
      var code := LeadingCode(normalized);
      if 0 < |code| <= MaxCodeLength then code else Take(normalized, MaxCodeLength)
  }

  /**
   * What `extractSeriesCode` promises: the sentinel for a missing name;
   * otherwise a prefix of the canonical text of at most 20 characters which,
   * when the canonical text starts with a code character, is the maximal run
   * of code characters cut at 20, and otherwise the first 20 characters.
   */
  lemma {:induction false} SeriesCodeSpec(seriesName: Option<string>)
    ensures seriesName.None? || seriesName == Some("") ==> ExtractSeriesCode(seriesName) == NoSeriesCode
    ensures seriesName.Some? && seriesName.value != "" ==>
      var n := NormalizeText(seriesName);
      var r := ExtractSeriesCode(seriesName);
      && |r| <= MaxCodeLength
      && r == n[..|r|]
      && (|n| > 0 && IsCodeChar(n[0]) ==>
            && AllCodeChars(r)
            && 0 < |r|
            && (|r| == MaxCodeLength || |r| == |n| || !IsCodeChar(n[|r|])))
      && (|n| == 0 || !IsCodeChar(n[0]) ==> |r| == if |n| < MaxCodeLength then |n| else MaxCodeLength)
  {
    if seriesName.Some? && seriesName.value != "" {
      var n := NormalizeText(seriesName);
      var code := LeadingCode(n);
      var r := ExtractSeriesCode(seriesName);
      assert r == if 0 < |code| <= MaxCodeLength then code else Take(n, MaxCodeLength);
      if 0 < |code| <= MaxCodeLength {
        assert r == code;
      } else if |code| > 0 {
        assert r == Take(n, MaxCodeLength);
        assert r == code[..MaxCodeLength];
      } else {
        assert r == Take(n, MaxCodeLength);
      }
    }
  }

  /** A non-empty, whitespace-only series name yields the empty code. */
  lemma BlankSeriesNameCode(s: string)
    requires s != "" && AllSpace(s)
    ensures ExtractSeriesCode(Some(s)) == ""
  {
  }

  /** The only separator `extractSeriesTitle` recognises. */
  const Separator := " - "

  /** `extractSeriesTitle`. */
  function ExtractSeriesTitle(seriesName: Option<string>): (r: string)
    ensures NoEdgeSpace(r)
  {
    if seriesName.None? || seriesName.value == "" then NoSeriesTitle
    else
      var trimmed := Trim(seriesName.value);
      var dashIndex: int := match IndexOf(trimmed, Separator) case Some(i) => i case None => -1;
      if dashIndex > 0 && dashIndex < |trimmed| - 3 then Trim(trimmed[dashIndex + 3..]) else trimmed
  }

  /**
   * In a trimmed text the separator can neither start the text nor end it, so
   * the guard `dashIndex > 0 && dashIndex < trimmed.length - 3` holds for every
   * occurrence.
   */
  lemma SeparatorInsideTrimmed(t: string, i: int)
    requires NoEdgeSpace(t) && OccursAt(t, Separator, i)
    ensures 0 < i < |t| - 3
  {
    assert t[i] == t[i..i + 3][0] == ' ';
    assert t[i + 2] == t[i..i + 3][2] == ' ';
  }

  /** `i` is the position of the first separator in `t`. */
  ghost predicate FirstSeparatorAt(t: string, i: int) {
    OccursAt(t, Separator, i) && forall j :: 0 <= j < i ==> !OccursAt(t, Separator, j)
  }

  ghost predicate HasSeparator(t: string) {
    exists j :: OccursAt(t, Separator, j)
  }

  /**
   * What `extractSeriesTitle` promises: the sentinel for a missing name;
   * otherwise the trimmed text after the first `" - "` of the trimmed name,
   * or the whole trimmed name when it has no such separator.
   */
  lemma {:induction false} SeriesTitleSpec(seriesName: Option<string>)
    ensures seriesName.None? || seriesName == Some("") ==> ExtractSeriesTitle(seriesName) == NoSeriesTitle
    ensures seriesName.Some? && seriesName.value != "" ==>
      var t := Trim(seriesName.value);
      && (forall i :: FirstSeparatorAt(t, i) ==> ExtractSeriesTitle(seriesName) == Trim(t[i + 3..]))
      && (!HasSeparator(t) ==> ExtractSeriesTitle(seriesName) == t)
  {
    if seriesName.Some? && seriesName.value != "" {
      var t := Trim(seriesName.value);
      match IndexOf(t, Separator)
      case Some(k) =>
        TitleAfterSeparator(seriesName.value, k);
      case None =>
        TitleWithoutSeparator(seriesName.value);
    }
  }

  lemma TitleAfterSeparator(name: string, k: nat)
    requires name != "" && IndexOf(Trim(name), Separator) == Some(k)
    ensures ExtractSeriesTitle(Some(name)) == Trim(Trim(name)[k + 3..])
    ensures HasSeparator(Trim(name))
    ensures forall i :: FirstSeparatorAt(Trim(name), i) ==> i == k
  {
    var t := Trim(name);
    SeparatorInsideTrimmed(t, k);
    forall i | FirstSeparatorAt(t, i) ensures i == k {
      FirstSeparatorUnique(t, i, k);
    }
  }

  lemma TitleWithoutSeparator(name: string)
    requires name != "" && IndexOf(Trim(name), Separator).None?
    ensures ExtractSeriesTitle(Some(name)) == Trim(name)
    ensures forall i :: !FirstSeparatorAt(Trim(name), i)
  {
  }

  lemma FirstSeparatorUnique(t: string, i: int, k: int)
    requires FirstSeparatorAt(t, i) && FirstSeparatorAt(t, k)
    ensures i == k
  {
  }

  /** A name without a blank has no separator: its title is the trimmed name. */
  lemma NoBlankTitle(s: string)
    requires s != ""
    requires Lacks(s, ' ')
    ensures ExtractSeriesTitle(Some(s)) == Trim(s)
  {
    TrimKeepsCharacters(s, ' ');
    NoBlankNoSeparator(Trim(s));
    SeriesTitleSpec(Some(s));
  }

  lemma NoBlankNoSeparator(t: string)
    requires Lacks(t, ' ')
    ensures !HasSeparator(t)
  {
    forall j | 0 <= j <= |t| - 3 ensures !OccursAt(t, Separator, j) {
      assert t[j] != ' ';
    }
  }

  /** A trimmed text whose upper-casing is already canonical normalises to that upper-casing. */
  lemma {:induction false} NormalizeUpperCanonical(s: string, u: string)
    requires s != "" && NoEdgeSpace(s)
    requires ToUpper(s) == u && Canonical(u)
    ensures NormalizeText(Some(s)) == u
  {
    assert NormalizeText(Some(s)) == CollapseSpaces(ToUpper(Trim(s)));
    TrimNoop(s);
    assert Trim(s) == s;
    CollapseNoop(u);
  }

  /** The code is the leading run of the canonical text when that run is short enough. */
  lemma {:induction false} SeriesCodeFromRun(s: string, c: string)
    requires s != "" && LeadingCode(NormalizeText(Some(s))) == c && 0 < |c| <= MaxCodeLength
    ensures ExtractSeriesCode(Some(s)) == c
  {
  }

  /** `"EB354 - Tempo de Despertar"` has code `"EB354"`. */
  lemma SeriesCodeExample()
    ensures ExtractSeriesCode(Some("EB354 - Tempo de Despertar")) == "EB354"
  {
    NormalizeExample("EB354 - Tempo de Despertar");
    CanonicalCodeExample("EB354 - TEMPO DE DESPERTAR");
    SeriesCodeFromRun("EB354 - Tempo de Despertar", "EB354");
  }

  lemma CanonicalCodeExample(u: string)
    requires u == "EB354 - TEMPO DE DESPERTAR"
    ensures LeadingCode(u) == "EB354"
  {
    LeadingCodeIsRun(u, 5);
  }

  /** The canonical form of the series-name example. */
  lemma NormalizeExample(s: string)
    requires s == "EB354 - Tempo de Despertar"
    ensures NormalizeText(Some(s)) == "EB354 - TEMPO DE DESPERTAR"
  {
    var u := "EB354 - TEMPO DE DESPERTAR";
    UpperExample(s, u);
    CanonicalExample(u);
    NormalizeUpperCanonical(s, u);
  }

  lemma CanonicalExample(u: string)
    requires u == "EB354 - TEMPO DE DESPERTAR"
    ensures Canonical(u)
  {
  }

  lemma UpperExample(s: string, u: string)
    requires s == "EB354 - Tempo de Despertar" && u == "EB354 - TEMPO DE DESPERTAR"
    ensures ToUpper(s) == u
  {
    var up := ToUpper(s);
    forall i | 0 <= i < |s| ensures up[i] == u[i] {
      assert up[i] == UpperChar(s[i]);
    }
  }

  /** The documented example of `normalizeText`. */
  lemma NormalizeDocExample()
    ensures NormalizeText(Some("  EB354  - tempo  ")) == "EB354 - TEMPO"
  {
    DocExampleSteps("  EB354  - tempo  ", "EB354  - tempo", "EB354  - TEMPO", "EB354 - TEMPO");
  }

  lemma DocExampleSteps(s: string, t: string, u: string, c: string)
    requires s == "  EB354  - tempo  " && t == "EB354  - tempo"
    requires u == "EB354  - TEMPO" && c == "EB354 - TEMPO"
    ensures NormalizeText(Some(s)) == c
  {
    DocExampleTrim(s, t);
    DocExampleUpper(t, u);
    DocExampleCollapse(u, c);
  }

  lemma DocExampleTrim(s: string, t: string)
    requires s == "  EB354  - tempo  " && t == "EB354  - tempo"
    ensures Trim(s) == t
  {
    TrimStartSkip(s, 2);
    TrimEndCut(s[2..], 14);
  }

  lemma DocExampleUpper(s: string, u: string)
    requires s == "EB354  - tempo" && u == "EB354  - TEMPO"
    ensures ToUpper(s) == u
  {
    var up := ToUpper(s);
    forall i | 0 <= i < |s| ensures up[i] == u[i] {
      assert up[i] == UpperChar(s[i]);
    }
  }

  lemma DocExampleCollapse(u: string, c: string)
    requires u == "EB354  - TEMPO" && c == "EB354 - TEMPO"
    ensures CollapseSpaces(u) == c
  {
    assert u == u[..5] + u[5..];
    CollapseConcat(u[..5], u[5..]);
    DocExampleTail(u[5..], c[5..]);
    assert c == u[..5] + c[5..];
  }

  lemma DocExampleTail(w: string, v: string)
    requires w == "  - TEMPO" && v == " - TEMPO"
    ensures CollapseSpaces(w) == v
  {
    assert w[1..] == v;
    assert CollapseSpaces(w) == CollapseSpaces(v);
    DocExampleWord(v[1..]);
    assert CollapseSpaces(v) == " " + CollapseSpaces(v[1..]);
  }

  lemma DocExampleWord(x: string)
    requires x == "- TEMPO"
    ensures CollapseSpaces(x) == x
  {
    assert Canonical(x);
    CollapseNoop(x);
  }
}

=== FILE: wrappers.dfy ===
/** Failure-carrying datatypes shared by every module of the model. */
module Wrappers {

  /** A value that may be absent: SQL NULL, JavaScript null/undefined, or a missing map entry. */
  datatype Option<+T> = None | Some(value: T) {

    /** The wrapped value, or `default` when absent. */
    function GetOr(default: T): T {
      match this
      case Some(v) => v
      case None => default
    }
  }
}
